=== FILE: README.md ===
# Semantic Scholar MCP server — a Dafny model of its pure core

This project models the pure rules of the Semantic Scholar MCP server and proves properties about them:

- **Domain-model validators.** Authors, TL;DR summaries, papers, search filters and search queries: strip then reject blank, year windows, the citation-metric check, query bounds and the paper cache key.
- **The error taxonomy.** Error codes, every error constructor's details map and code, and the `str()` and `to_dict()` shapes.
- **Pagination.** The `total_pages` ceiling division.
- **The instruction loader.** The tool-to-template table, template-or-default selection, and loading every tool's instruction.
- **Logging.** Context overlay in `ContextLogger`, the save/restore discipline of the three context variables under `CorrelationContext` and `RequestContext`, and the `TextFormatter` context prefix with its handlers.
- **The tool layer's pure parts.** Success/error envelopes, filter attachment in `search_papers`, the 500-id batch guard, `health_check`, the paper and author markdown resources, and the `literature_review` and `paper_summary` prompts.

Everything is an immutable datatype and a pure function. The effects the server performs appear as parameters:

- the current year, the timestamp, and the fresh ids `uuid4()` would give;
- the template file system, a function from path to `FileRead`;
- the API client, an `Outcome` a call returns or raises;
- Python's `repr` of a dict inside `str(error)`, a function `show`.

Python dicts keep insertion order, which shows in `str()` and `to_dict()`. So a dict is an association list (`Dicts.Dict`): setting an existing key keeps its position, and a new key goes at the end.

The modules follow the source files:

| module | models |
|---|---|
| `DomainModels` | `domain_models.py` |
| `Exceptions` | `core/exceptions.py` |
| `Pagination` | `core/abstractions.py` |
| `InstructionLoader` | `instruction_loader.py` |
| `Logging` | `core/logging.py` |
| `Server` | `server.py` |
| `Options`, `Text`, `Dicts`, `Values` | shared helpers: option/result types, Python whitespace and `strip`/`join`, ordered dicts, Python values with truthiness |

Three deliberate modelling choices:

- Pydantic rejects a model by raising; here a constructor returns `Result`, and the error side lists the failures in field order.
- Python exception constructors can fail with `TypeError`; here they return `Result<Error, ConstructError>`.
- The constructors' contracts state each class's code as an `ErrorCode` member, such as `ErrorCode.ValidationError`. `Exceptions.CodeValue` maps each member to its `"E…"` string.

## Model

| member | source | states |
|---|---|---|
| DomainModels.StripNonBlank | src/semantic_scholar_mcp/domain_models.py:136-142 | a string field is rejected exactly when it is empty or all whitespace; otherwise it is accepted stripped, non-empty and free of surrounding whitespace |
| DomainModels.StripNonBlankOfPadded | src/semantic_scholar_mcp/domain_models.py:230-236 | any whitespace padding around a trimmed non-empty text is removed and the text itself is kept |
| DomainModels.StripNonBlankIdempotent | src/semantic_scholar_mcp/domain_models.py:136-142 | validating an accepted value again gives the same value |
| DomainModels.NewAuthor | src/semantic_scholar_mcp/domain_models.py:57-63 | an author is accepted iff its name is not blank, and the accepted author has the stripped name; otherwise the error is "Author name cannot be empty" |
| DomainModels.NewAuthorsAcceptsEach | src/semantic_scholar_mcp/domain_models.py:57-63 | a list of authors is accepted iff every author in it is accepted |
| DomainModels.NewAuthorsAccepts | src/semantic_scholar_mcp/domain_models.py:57-63 | a list of authors is accepted iff no author name is blank |
| DomainModels.NewAuthorsStrips | src/semantic_scholar_mcp/domain_models.py:57-63 | each accepted author is the input author with its name stripped, at the same position |
| DomainModels.NewAuthorsReports | src/semantic_scholar_mcp/domain_models.py:57-63 | a rejected list reports one empty-name failure per blank name, and no other failure |
| DomainModels.NewTldr | src/semantic_scholar_mcp/domain_models.py:83-89 | a TL;DR is accepted iff its text is not blank, with the text stripped; otherwise the error is "TLDR text cannot be empty" |
| DomainModels.PaperWithDefaults | src/semantic_scholar_mcp/domain_models.py:99-135 | a paper built from id and title alone has zero citation, influential and reference counts, no year, no authors and no TL;DR |
| DomainModels.CheckYear | src/semantic_scholar_mcp/domain_models.py:144-152 | a year passes iff it is absent or lies in 1900 to current year + 1; a failing year is reported with its value |
| DomainModels.YearAcceptedLater | src/semantic_scholar_mcp/domain_models.py:144-152 | a year accepted in some current year is still accepted in any later one |
| DomainModels.NewPaper | src/semantic_scholar_mcp/domain_models.py:136-161 | a paper is accepted iff its title is not blank, its year passes, no author name is blank, its TL;DR text is not blank, and influential citations do not exceed citations; the accepted paper has the stripped title, each author with its name stripped at the same position, and the TL;DR (if any) with its text stripped, and is otherwise the input; when every field is valid the only failure is the metrics one |
| DomainModels.DefaultMetrics | src/semantic_scholar_mcp/domain_models.py:118-120 | the default metrics (0, 0) pass the consistency check, and a citation count of -1 with the default influential count fails it |
| DomainModels.CacheKey | src/semantic_scholar_mcp/domain_models.py:163-165 | the cache key starts with "paper:", and its length is that prefix's plus the id's |
| DomainModels.CacheKeyRoundTrip | src/semantic_scholar_mcp/domain_models.py:163-165 | the paper id is recovered from its cache key |
| DomainModels.CacheKeySharedIffSameId | src/semantic_scholar_mcp/domain_models.py:163-165 | two papers share a cache key iff their ids are equal |
| DomainModels.NewSearchFilters | src/semantic_scholar_mcp/domain_models.py:207-217 | filters are accepted iff there is no year range, or the range has start at most end, start at least 1900 and end at most current year + 1; a reversed range fails with the "before end" error, and an out-of-bounds one with "Invalid year range" |
| DomainModels.AcceptedRangeHoldsAcceptedYears | src/semantic_scholar_mcp/domain_models.py:207-217 | every year inside an accepted filter range is itself an accepted paper year |
| DomainModels.WindowErrors | src/semantic_scholar_mcp/domain_models.py:226-227 | a result window has no failures iff offset >= 0 and 1 <= limit <= 100 |
| DomainModels.NewSearchQuery | src/semantic_scholar_mcp/domain_models.py:220-236 | a query is accepted iff its text is not blank and the window is in bounds; the accepted query has stripped text; a blank text is reported first |
| DomainModels.DefaultQueryAccepted | src/semantic_scholar_mcp/domain_models.py:226-227 | with the default offset 0 and limit 10, a query is accepted iff its text is not blank |
| Exceptions.ParseCodeRoundTrip | src/core/exceptions.py:12-61 | every error code's string value parses back to that code |
| Exceptions.ParseCodeSound | src/core/exceptions.py:12-61 | a string that parses to a code is exactly that code's value |
| Exceptions.CodeValuesDistinct | src/core/exceptions.py:12-61 | two codes have the same string value iff they are the same code |
| Exceptions.NewBaseError | src/core/exceptions.py:67-88 | the base error stores the message, the wrapped exception and the timestamp as given; it takes the given code, or E1000 (UNKNOWN_ERROR) when none is given; a given details map is kept and a missing one becomes the empty map |
| Exceptions.BaseErrorToDict | src/core/exceptions.py:67-109 | a base error built without a code shows "E1000" and its message in `to_dict()`, and has a details entry exactly when it was given a non-empty details map |
| Exceptions.Build | src/core/exceptions.py:144-158 | a subclass constructor succeeds iff the caller passed no `error_code` and did not pass `details=None` with a value to record; the details are the caller's map updated with the recorded arguments |
| Exceptions.BuildKeepsCallerDetails | src/core/exceptions.py:144-151 | each recorded argument appears under its own key, and every other key keeps the caller's value |
| Exceptions.BuildPairDetails | src/core/exceptions.py:264-294 | for a class recording two arguments under distinct keys, each key holds its argument when recorded and the caller's value otherwise, and every other key is the caller's |
| Exceptions.NewValidationError | src/core/exceptions.py:124-158 | the constructor succeeds iff no `error_code` is passed and `details=None` is not combined with a recorded argument; the result is a ValidationError with code E2000 |
| Exceptions.ValidationErrorRecords | src/core/exceptions.py:146-151 | `value` is recorded whenever it is not None (0 included); `field` and `validation_errors` are recorded only when truthy; otherwise the caller's entry shows |
| Exceptions.NewApiError | src/core/exceptions.py:161-195 | APIError succeeds iff no `error_code` is passed and `details=None` is not combined with a recorded argument; an extra `error_code` is a duplicate-keyword failure; the result has code E3000 |
| Exceptions.ApiErrorRecords | src/core/exceptions.py:183-188 | `status_code`, `response_body` and `request_id` are recorded only when truthy, so status code 0 is never stored |
| Exceptions.ApiSubclassesNeverConstruct | src/core/exceptions.py:231-232 | with no extra arguments, RateLimitError, NetworkError and ServiceUnavailableError all fail with a duplicate `error_code` keyword |
| Exceptions.NewRateLimitError | src/core/exceptions.py:198-232 | as written, every RateLimitError construction fails, with the duplicate-keyword error unless `details=None` fails first |
| Exceptions.NewNetworkError | src/core/exceptions.py:235-261 | as written, every NetworkError construction fails in the same way |
| Exceptions.NewServiceUnavailableError | src/core/exceptions.py:458-483 | as written, every ServiceUnavailableError construction fails in the same way |
| Exceptions.NewConfigurationError | src/core/exceptions.py:264-294 | succeeds under the common rule with `config_key` and `config_file` as the recorded arguments; the result has code E6000; the message, wrapped exception and timestamp are stored as given; each recorded key holds its argument when truthy and the caller's value otherwise, and every other key is the caller's |
| Exceptions.NewCacheError | src/core/exceptions.py:297-327 | succeeds under the common rule with `cache_key` and `operation`; the result has code E7000; the message, wrapped exception and timestamp are stored as given; each recorded key holds its argument when truthy and the caller's value otherwise, and every other key is the caller's |
| Exceptions.NewNotFoundError | src/core/exceptions.py:330-360 | succeeds under the common rule with `resource_type` and `resource_id`; the result has code E5000; the message, wrapped exception and timestamp are stored as given; each recorded key holds its argument when truthy and the caller's value otherwise, and every other key is the caller's |
| Exceptions.NewUnauthorizedError | src/core/exceptions.py:363-389 | succeeds under the common rule with `realm`; the result has code E4000 and the default message "Unauthorized access"; the message, wrapped exception and timestamp are stored as given; each recorded key holds its argument when truthy and the caller's value otherwise, and every other key is the caller's |
| Exceptions.NewForbiddenError | src/core/exceptions.py:392-422 | succeeds under the common rule with `resource` and `action`; the result has code E4001 and the default message "Access forbidden"; the message, wrapped exception and timestamp are stored as given; each recorded key holds its argument when truthy and the caller's value otherwise, and every other key is the caller's |
| Exceptions.NewDatabaseError | src/core/exceptions.py:425-455 | succeeds under the common rule with `query` and `table`; the result has code E8000; the message, wrapped exception and timestamp are stored as given; each recorded key holds its argument when truthy and the caller's value otherwise, and every other key is the caller's |
| Exceptions.FixedApiInit | src/core/exceptions.py:189-195 | corrected APIError: a code passed by the caller replaces E3000 instead of clashing with it |
| Exceptions.FixedApiSubclass | src/core/exceptions.py:218-232 | corrected subclass construction succeeds whenever `details` is not None and keeps the subclass's own recorded arguments |
| Exceptions.OwnFieldSurvives | src/core/exceptions.py:222-232 | a subclass argument whose key is not an APIError key survives APIError's own recording |
| Exceptions.FixedRateLimitError | src/core/exceptions.py:198-232 | corrected RateLimitError is constructed, with code E3001 |
| Exceptions.FixedRateLimitRecordsRetryAfter | src/core/exceptions.py:222-223 | corrected RateLimitError records `retry_after` whenever it is not None, 0 included |
| Exceptions.FixedNetworkError | src/core/exceptions.py:235-261 | corrected NetworkError is constructed, with code E3002 |
| Exceptions.FixedNetworkRecordsTimeout | src/core/exceptions.py:257-258 | corrected NetworkError records `timeout` whenever it is not None |
| Exceptions.FixedServiceUnavailableError | src/core/exceptions.py:458-483 | corrected ServiceUnavailableError is constructed, with code E3004 and the default message |
| Exceptions.ErrorText | src/core/exceptions.py:111-121 | `str(e)` is "[code] message", then " \| Details: …" iff there are details, then " \| Caused by: …" iff there is an inner exception |
| Exceptions.ErrorObject | src/core/exceptions.py:89-109 | the error dict has keys code, message, timestamp and type in that order; "details" follows iff there are details, then "inner_error" iff there is an inner exception |
| Exceptions.ToDictEntries | src/core/exceptions.py:89-109 | looking up the error dict gives the code string, which parses back to the code, and the message; details and inner error are present under the same conditions as in `str(e)` |
| Pagination.FloorDiv | src/core/abstractions.py:148-151 | Python's `//` rounds toward minus infinity, and division by zero raises |
| Pagination.TotalPagesIsCeiling | src/core/abstractions.py:148-151 | for a positive page size, total pages × page size covers the total, and one page fewer does not |
| Pagination.TotalPagesExact | src/core/abstractions.py:148-151 | a total of k × page size gives exactly k pages, so 0 items give 0 pages |
| Pagination.TotalPagesMonotone | src/core/abstractions.py:148-151 | more items never give fewer pages |
| InstructionLoader.TemplateMappingWellFormed | src/semantic_scholar_mcp/instruction_loader.py:17-47 | the tool-to-template table has 24 entries with distinct tool names |
| InstructionLoader.DefaultInstruction | src/semantic_scholar_mcp/instruction_loader.py:50-57 | the default block is the fixed head, then the tool name (inside backticks), then the fixed tail |
| InstructionLoader.DefaultInstructionInjective | src/semantic_scholar_mcp/instruction_loader.py:50-57 | different tools get different default blocks |
| InstructionLoader.LoadTemplate | src/semantic_scholar_mcp/instruction_loader.py:60-89 | a template reads as its stripped text; a missing or unreadable file reads as "" |
| InstructionLoader.GetInstruction | src/semantic_scholar_mcp/instruction_loader.py:114-126 | the result is never empty; an unmapped tool gets the default block; a mapped tool gets its template text when that is non-empty, and the default otherwise |
| InstructionLoader.InstructionIsTemplateOrDefault | src/semantic_scholar_mcp/instruction_loader.py:114-126 | every instruction is either the default block for the tool or a stripped, non-empty template text |
| InstructionLoader.LoadAll | src/semantic_scholar_mcp/instruction_loader.py:94-103 | the loop produces, entry by entry in table order, each tool with its template-or-default instruction |
| InstructionLoader.LoadedSpec | src/semantic_scholar_mcp/instruction_loader.py:94-103 | the loaded map has exactly the table's keys, distinct, and each tool's value is its instruction |
| InstructionLoader.LoadToolInstructions | src/semantic_scholar_mcp/instruction_loader.py:92-111 | the result has exactly the 24 mapped tools as keys, and each value equals `get_instruction` for that tool |
| Logging.WithContext | src/core/logging.py:142-146 | the new context is the old one overlaid with the new keys, which win; its keys are the union, and the logger's name is kept |
| Logging.Log | src/core/logging.py:111-122 | per-call keywords override context keys; the `exception` entry is removed and becomes `exc_info` when truthy; every other key is passed on; a truthy non-exception value fails with AttributeError |
| Logging.LogDebug | src/core/logging.py:124-126 | logs at the DEBUG level |
| Logging.LogInfo | src/core/logging.py:128-130 | logs at the INFO level |
| Logging.LogWarning | src/core/logging.py:132-134 | logs at the WARNING level |
| Logging.LogError | src/core/logging.py:136-140 | logs at the ERROR level; a truthy exception argument becomes the `exc_info` |
| Logging.ErrorRoutesException | src/core/logging.py:136-140 | `error(msg, exception=e)` with a truthy `e` is the level-40 call with `exception=e` among the keywords |
| Logging.ErrorFalsyExceptionUsesContext | src/core/logging.py:136-140 | with a falsy exception argument, `error` attaches whatever exception the context holds |
| Logging.ResetUndoesSet | src/core/logging.py:298-303 | resetting a variable with the token its `set` returned restores the prior state |
| Logging.ResetReversedRestores | src/core/logging.py:327-330 | resetting a sequence of tokens in reverse order restores the state before all the `set` calls |
| Logging.CorrelationScopeRestores | src/core/logging.py:291-303 | the scope binds the given id, or the fresh one when none is given; inside, the correlation id is that id; leaving restores the state on entry |
| Logging.EnterCorrelation | src/core/logging.py:298-300 | entering sets only the correlation id and returns it |
| Logging.EnterRequest | src/core/logging.py:320-325 | entering keeps three tokens when a user id is given, otherwise two |
| Logging.EnterRequestSets | src/core/logging.py:309-325 | inside the scope the request id is the given or a fresh one; the correlation id is the given one, else the current one, else a fresh one; the user id is set only when given |
| Logging.RequestScopeRestores | src/core/logging.py:320-330 | leaving a request scope gives all three variables back their values on entry |
| Logging.FormatPrefix | src/core/logging.py:85-101 | the formatted message ends with the original, and equals it iff context is off or neither id is set |
| Logging.FormatPrefixBoth | src/core/logging.py:88-99 | with both ids set the prefix is "[correlation_id=… request_id=…] " in that order |
| Logging.FormatPrefixSingle | src/core/logging.py:88-99 | with one id set the prefix names just that id |
| Logging.TextLine | src/core/logging.py:78-101 | a text log line starts with the time and " \| "; without a traceback it is the plain line, which ends with the message; a record with `exc_info` gets its traceback appended after a line break, added only when the plain line does not already end with one |
| Logging.TextLineTraceback | src/core/logging.py:101 | the line of a record with a traceback extends its plain line: the message is still there, followed by a line break and then the traceback |
| Logging.HandlerCount | src/core/logging.py:170-183 | there is one handler without a file path and two with one |
| Logging.FormatOnHandlers | src/core/logging.py:165-183 | as written: each handler formats the message the previous handler rewrote, and each writes one text |
| Logging.SecondHandlerDoublePrefix | src/core/logging.py:88-99 | as written: with an id present, the second handler re-prefixes the first handler's output, so the two texts differ |
| Logging.FileHandlerDoublePrefix | src/core/logging.py:156-183 | as written: with a file configured and a correlation id set, the console gets one prefix and the file gets two |
| Logging.FixedFormatOnHandlers | src/core/logging.py:88-101 | corrected: every handler writes the message prefixed once |
| Logging.FixedHandlersAgree | src/core/logging.py:88-101 | corrected: all handlers agree, and they agree with what the first handler writes as written |
| Server.EnvelopeDict | src/semantic_scholar_mcp/server.py:110-139 | an envelope is {"success", "data"} on success and {"success", "error"} on failure, with the flag matching; "data" holds the envelope's data, and the error object holds the type, the message and, when present, the details |
| Server.Catch | src/semantic_scholar_mcp/server.py:121-139 | a caught exception gives type "validation_error" with the error's details iff it is the server's ValidationError in a tool that catches it; otherwise type "error" with only the message |
| Server.CaughtErrorShape | src/semantic_scholar_mcp/server.py:121-139 | the error dict has keys type and message, plus details exactly for a validation error |
| Server.PageDataKeys | src/semantic_scholar_mcp/server.py:110-119 | a paginated answer has the item list and the four counters, each key once |
| Server.PageDataCopies | src/semantic_scholar_mcp/server.py:344-353 | a paginated answer copies total, offset, limit and has_more unchanged and holds one entry per item |
| Server.ListDataCounts | src/semantic_scholar_mcp/server.py:220-225 | a list answer's count is the number of entries it holds |
| Server.Answer | src/semantic_scholar_mcp/server.py:158-191 | without a client the call raises and is caught; with one, a raised exception is caught and a returned value is rendered as success |
| Server.BuildSearchQuery | src/semantic_scholar_mcp/server.py:90-102 | as written: the query is built iff the text is not blank and the window is in bounds; filters are attached iff the year or the fields of study are truthy, and they hold the year but no fields of study, since `fields_of_study=` is not the alias pydantic reads (domain_models.py:202) |
| Server.FixedBuildSearchQuery | src/semantic_scholar_mcp/server.py:98-102 | corrected: the attached filters hold both the year and the given fields of study |
| Server.SearchFiltersDropFields | src/semantic_scholar_mcp/server.py:98-102 | as written, a non-empty list of fields of study attaches filters without it; the corrected query differs only in that field |
| Server.SearchPapers | src/semantic_scholar_mcp/server.py:87-139 | an invalid query gives an "error" envelope before the client is checked; no client gives "API client not initialized"; a valid query whose search returns a page gives success with that page's data, and one whose search raises gives the caught exception (with the validation branch); success happens only that way |
| Server.SearchPapersRejectsBeforeSearch | src/semantic_scholar_mcp/server.py:90-106 | an invalid query gets the same "error" answer whatever the client state or behaviour |
| Server.GetPaper | src/semantic_scholar_mcp/server.py:158-191 | no client gives the plain "error" of the TypeError `async with None` raises; a raising client gives the caught exception (with the validation branch); a returned paper gives success with the dumped paper, and success happens only that way |
| Server.GetAuthor | src/semantic_scholar_mcp/server.py:297-315 | no client gives the TypeError's plain "error"; a raising client gives a plain "error" with the exception's text; a returned author gives success with the dumped author; every failure is a plain "error" without details |
| Server.ListTool | src/semantic_scholar_mcp/server.py:211-236 | no client gives the TypeError's plain "error"; a raising client gives a plain "error" with the exception's text; a returned list gives success with the dumped list and its count; failures are plain "error" |
| Server.PageTool | src/semantic_scholar_mcp/server.py:334-363 | no client gives the TypeError's plain "error"; a raising client gives a plain "error" with the exception's text; a returned page gives success with the page data; failures are plain "error" |
| Server.TooManyIds | src/semantic_scholar_mcp/server.py:473-478 | the guard's error is a ValidationError "Too many paper IDs" with details exactly {field: "paper_ids", value: count} |
| Server.BatchGetPapers | src/semantic_scholar_mcp/server.py:471-512 | more than 500 ids give a validation-error envelope with those details; otherwise no client gives the TypeError's plain "error", a raising client gives the caught exception (with the validation branch), and a returned batch gives the papers with their count; success happens only that way |
| Server.BatchGuard | src/semantic_scholar_mcp/server.py:473-478 | above 500 ids the answer does not depend on the client; exactly 500 ids reach the client |
| Server.HealthCheck | src/semantic_scholar_mcp/server.py:523-550 | without a client the answer is an "initialization_error"; with one, a returned status gives success with that status and a raised exception gives a plain "error" with its text |
| Server.PaperHead | src/semantic_scholar_mcp/server.py:571-582 | the paper markdown head has ten lines; venue falls back to "N/A" and abstract to "No abstract available." |
| Server.PaperMarkdownUrl | src/semantic_scholar_mcp/server.py:571-587 | the URL line is appended iff the URL is non-empty, and the rest does not change |
| Server.PaperMarkdownFallbacks | src/semantic_scholar_mcp/server.py:576-580 | a missing venue or abstract renders as an empty one does |
| Server.PaperResource | src/semantic_scholar_mcp/server.py:566-591 | a fetched paper gives its markdown; no client or a raised exception gives "Error: Could not retrieve paper <id>" |
| Server.AuthorHead | src/semantic_scholar_mcp/server.py:610-617 | the author head has six lines; the H-index shows "N/A" and the citation and paper counts show "0" when missing or 0 |
| Server.AuthorMarkdownOptionalLines | src/semantic_scholar_mcp/server.py:610-625 | the affiliations and homepage lines appear, in that order, exactly when affiliations are non-empty and the homepage is non-empty |
| Server.AuthorMarkdownZeroes | src/semantic_scholar_mcp/server.py:613-615 | an h-index, citation count or paper count of 0 renders as a missing one does |
| Server.AuthorResource | src/semantic_scholar_mcp/server.py:605-629 | a fetched author gives its markdown; otherwise the answer is "Error: Could not retrieve author <id>" |
| Server.YearFilter | src/semantic_scholar_mcp/server.py:651 | the year clause is empty iff the start year is missing or 0 |
| Server.LiteratureReviewYearFilter | src/semantic_scholar_mcp/server.py:651-672 | a truthy start year inserts " published after <year>" right after the search step, and nothing else changes |
| Server.PaperSummaryContext | src/semantic_scholar_mcp/server.py:774-805 | asking for citation context inserts the extra step just before the requested structure, and nothing else changes |

## Left out

- The API client, with its rate limiter, circuit breaker, retry strategy and cache, is not part of this model. Each tool takes the client's answer as an `Outcome` parameter, and a `clientReady` flag stands for `api_client` being set.
- `async with api_client` on a `None` client raises a TypeError from Python 3.11 on, and `AttributeError: __aenter__` on Python 3.10 and earlier. The model fixes the 3.11 exception as one `Raised` value (`Server.NoClient`). Either way the tools answer with a plain "error", and only its text differs, which the model does not check against Python's message.
- MCP registration, the server globals, startup and shutdown, `initialize_server` and `main` are framework glue.
- Every tool runs inside `with RequestContext()`. The scope itself is modelled in `Logging`, but the tools do not thread the state through: no tool's answer depends on it.
- The `logger.error` calls in the `except` branches of the tools and resources are side effects on the log; they are left out.
- `Field(...)` parameter defaults on the tools (`limit`, `offset`, `max_papers`, …) are MCP schema metadata; the model takes the arguments as given.
- The `citation_analysis` and `research_trend_analysis` prompts are fixed text with no conditional part.
- Pydantic's alias handling is left out, except that a keyword which is not the alias is ignored (Server.BuildSearchQuery). Type coercion and `model_dump` serialisation are left out too. The dump of an item is a function parameter (`dump`), and pydantic's own error text is the parameter `pydanticText`.
- DomainModels.NewSearchQuery: the failures for offset and limit carry pydantic's wording, and only the order of failures, not their exact text, is stated.
- The fields of the domain models that have no validator (publication types, venue objects, external ids, open access, …) are carried as plain values or left out.
- `datetime.utcnow()`, `datetime.now().year` and `uuid4()` are parameters: `now`, `currentYear`, `freshId`, `freshRequest`, `freshCorrelation`.
- Exceptions.ErrorText: the details part uses `show` for Python's `repr` of a dict, and the escaping rules of `repr` are not modelled.
- The `lru_cache` on template loading and `clear_instruction_cache` are left out: a cached read returns what the first read did, and the file system is a fixed function here.
- The logging calls inside the instruction loader (debug, info and warning messages) are left out.
- Stdlib logging plumbing is left out: handler objects, file rotation, level filtering, `StructuredFormatter`'s JSON output, `LoggerFactory` bookkeeping and the `log_performance` timing decorator. Only the number of handlers and the text formatter's message rewriting are modelled.
- Exceptions.Build: the constructors pop the caller's `details` dict, update that same object in place and, when it ends up non-empty, store it as `self.details` (src/core/exceptions.py:85, 144-151), so the caller's dict gains the recorded keys and later changes to either show through the other. The model treats details as a value and does not model that aliasing; no call site in the tool layer passes `details`.
- Logging.HandlerCount: the type of `file_path` is defined in `core/config.py`, which is not part of this model. The model assumes that a configured path is truthy, so a configured path always adds the file handler.
- Logging.TextLine: the `asctime` text is a parameter, since its date format comes from the clock. The formatted traceback of a record with `exc_info` is a parameter too (`excText`), since it comes from the standard library's traceback printer; `stack_info` output is not modelled.
- The abstract interfaces of `core/abstractions.py` have no bodies. `PagedResult.has_next` and `has_previous` are plain fields that nothing derives.
- Floating-point values are the mathematical reals (`Values.Float`); only their truthiness matters to the model.
- Where the repository's tests disagree with the code, the model follows the code:
  - the year floor is 1900;
  - an author's `paper_count` has no default of 0;
  - the tools catch exceptions rather than letting them propagate;
  - tests/test_models.py:184-192 build `SearchFilters` with the keyword `fields_of_study` and expect it kept. The code declares that field under the alias `fieldsOfStudy` and does not populate fields by name, so the keyword is ignored (Server.BuildSearchQuery).

## Findings

| source | as written | input that shows it | evidently intended | confidence | as-written member | corrected member |
|---|---|---|---|---|---|---|
| src/core/exceptions.py:189-195, 231-232, 260-261, 482-483 | RateLimitError, NetworkError and ServiceUnavailableError put `error_code` into `kwargs`. APIError then passes `error_code=ErrorCode.API_ERROR` together with `**kwargs`, so Python raises TypeError for a duplicate keyword | `RateLimitError("slow down", retry_after=0)` | the subclass code (E3001, E3002, E3004) replaces E3000, and the error is built with its own details | high; not executed | Exceptions.ApiSubclassesNeverConstruct | Exceptions.FixedRateLimitRecordsRetryAfter |
| src/core/logging.py:88-99, 165-183 | `TextFormatter.format` assigns the prefixed text to `record.msg`. With a file path configured, the console and file handlers share the formatter and the record, so the second handler prefixes the message again | a text format with context included, a `file_path` set, and a correlation id "c" present: the file line reads "[correlation_id=c] [correlation_id=c] msg" | every handler writes "[correlation_id=c] msg" | high; not executed | Logging.FileHandlerDoublePrefix | Logging.FixedHandlersAgree |
| src/semantic_scholar_mcp/server.py:98-102 | `search_papers` builds `SearchFilters(year=year, fields_of_study=fields_of_study)`. The field is declared with the alias `fieldsOfStudy` (domain_models.py:202) and the model does not populate by name, so pydantic ignores the keyword and the filters carry no fields of study | `search_papers("q", fields_of_study=["AI"])` | the filters carry ["AI"], as they do when the alias is used (tests/unit/test_models.py:250-260) | medium; not executed | Server.SearchFiltersDropFields | Server.FixedBuildSearchQuery |

=== FILE: dicts.dfy ===
/** Python `dict[str, V]` as an insertion-ordered association list.

    The order of keys is observable in the source (`str(details)`, `to_dict()`,
    JSON envelopes), so a dict is a sequence of key/value pairs. Assigning to an
    existing key keeps its position; assigning to a new key appends it. */
module Dicts {
  import opened Options

  type Dict<V> = seq<(string, V)>

  /** The keys in insertion order (`list(d)`). */
  function Keys<V>(d: Dict<V>): (ks: seq<string>)
    ensures |ks| == |d|
    ensures forall i :: 0 <= i < |d| ==> ks[i] == d[i].0
  {
    seq(|d|, i requires 0 <= i < |d| => d[i].0)
  }

  /** No key occurs twice: every real Python dict has this shape. */
  predicate WellFormed<V>(d: Dict<V>) {
    forall i, j :: 0 <= i < j < |d| ==> d[i].0 != d[j].0
  }

  /** `d.get(k)`: the value stored under `k`, if any. */
  function Get<V>(d: Dict<V>, k: string): (r: Option<V>)
    ensures r.None? <==> k !in Keys(d)
  {
    if |d| == 0 then None
    else if d[0].0 == k then Some(d[0].1)
    else
      assert Keys(d) == [d[0].0] + Keys(d[1..]);
      Get(d[1..], k)
  }

  /** In a well-formed dict the pair at position `i` is what `Get` finds. */
  lemma {:induction false} GetAt<V>(d: Dict<V>, i: int)
    requires WellFormed(d)
    requires 0 <= i < |d|
    ensures Get(d, d[i].0) == Some(d[i].1)
  {
    if i > 0 {
      assert d[1..][i - 1] == d[i];
      GetAt(d[1..], i - 1);
    }
  }

  /** `Get` finds the first pair carrying the key. */
  lemma {:induction false} GetFirst<V>(d: Dict<V>, i: int, k: string)
    requires 0 <= i < |d| && d[i].0 == k
    requires forall j :: 0 <= j < i ==> d[j].0 != k
    ensures Get(d, k) == Some(d[i].1)
    decreases i
  {
    if i > 0 {
      assert d[1..][i - 1] == d[i];
      GetFirst(d[1..], i - 1, k);
    }
  }

  /** Looking a key up in a dict that starts with the pair `p`. */
  lemma GetCons<V>(p: (string, V), rest: Dict<V>, k: string)
    ensures Get([p] + rest, k) == if p.0 == k then Some(p.1) else Get(rest, k)
    ensures Keys([p] + rest) == [p.0] + Keys(rest)
  {
    var d := [p] + rest;
    assert d[0] == p;
    assert d[1..] == rest;
    KeysCons(p, rest);
  }

  /** The keys of a dict that starts with the pair `p`. */
  lemma KeysCons<V>(p: (string, V), rest: Dict<V>)
    ensures Keys([p] + rest) == [p.0] + Keys(rest)
  {
    var d := [p] + rest;
    forall i | 0 <= i < |d| ensures Keys(d)[i] == ([p.0] + Keys(rest))[i] {
      if i > 0 {
        assert d[i] == rest[i - 1];
      }
    }
  }

  /** A dict that starts with `p` is well formed when its tail is and does
      not repeat `p`'s key. */
  lemma WellFormedCons<V>(p: (string, V), rest: Dict<V>)
    ensures WellFormed([p] + rest) <==> WellFormed(rest) && p.0 !in Keys(rest)
  {
    var d := [p] + rest;
    if WellFormed(rest) && p.0 !in Keys(rest) {
      forall i, j | 0 <= i < j < |d| ensures d[i].0 != d[j].0 {
        if i > 0 {
          assert d[i] == rest[i - 1] && d[j] == rest[j - 1];
        } else {
          assert d[j] == rest[j - 1];
          assert Keys(rest)[j - 1] == rest[j - 1].0;
        }
      }
    }
    if WellFormed(d) {
      forall i, j | 0 <= i < j < |rest| ensures rest[i].0 != rest[j].0 {
        assert d[i + 1] == rest[i] && d[j + 1] == rest[j];
      }
      forall j | 0 <= j < |rest| ensures Keys(rest)[j] != p.0 {
        assert d[j + 1] == rest[j];
        assert d[0] == p;
      }
    }
  }

  /** No key of `a` is a key of `b`. */
  predicate Disjoint<V>(a: Dict<V>, b: Dict<V>) {
    forall i, j :: 0 <= i < |a| && 0 <= j < |b| ==> a[i].0 != b[j].0
  }

  /** Two well-formed dicts with disjoint keys concatenate to a well-formed
      dict. */
  lemma WellFormedConcat<V>(a: Dict<V>, b: Dict<V>)
    requires WellFormed(a) && WellFormed(b) && Disjoint(a, b)
    ensures WellFormed(a + b)
  {
    var d := a + b;
    forall i, j | 0 <= i < j < |d| ensures d[i].0 != d[j].0 {
      if j < |a| {
        assert d[i] == a[i] && d[j] == a[j];
      } else if i < |a| {
        assert d[i] == a[i] && d[j] == b[j - |a|];
      } else {
        assert d[i] == b[i - |a|] && d[j] == b[j - |a|];
      }
    }
  }

  /** Disjointness from two dicts is disjointness from their concatenation. */
  lemma DisjointConcat<V>(a: Dict<V>, b: Dict<V>, c: Dict<V>)
    requires Disjoint(a, b) && Disjoint(a, c)
    ensures Disjoint(a, b + c)
  {
    var d := b + c;
    forall i, j | 0 <= i < |a| && 0 <= j < |d| ensures a[i].0 != d[j].0 {
      if j < |b| {
        assert d[j] == b[j];
      } else {
        assert d[j] == c[j - |b|];
      }
    }
  }

  /** `d[k] = v` on a copy of `d`: an existing key keeps its position, a new
      key goes to the end. */
  function Set<V>(d: Dict<V>, k: string, v: V): Dict<V>
    decreases |d|
  {
    if |d| == 0 then [(k, v)]
    else if d[0].0 == k then [(k, v)] + d[1..]
    else [d[0]] + Set(d[1..], k, v)
  }

  /** After `d[k] = v`, `k` holds `v` and every other key is untouched. */
  lemma {:induction false} SetGet<V>(d: Dict<V>, k: string, v: V)
    ensures forall k' :: Get(Set(d, k, v), k') == if k' == k then Some(v) else Get(d, k')
    decreases |d|
  {
    if |d| > 0 {
      var r := Set(d, k, v);
      assert r == [r[0]] + r[1..];
      assert d == [d[0]] + d[1..];
      if d[0].0 != k {
        SetGet(d[1..], k, v);
      }
      forall k' ensures Get(r, k') == if k' == k then Some(v) else Get(d, k') {
        GetCons(r[0], r[1..], k');
        GetCons(d[0], d[1..], k');
      }
    }
  }

  /** `d[k] = v` keeps the key order; a new key is appended. */
  lemma {:induction false} SetKeys<V>(d: Dict<V>, k: string, v: V)
    ensures k in Keys(d) ==> Keys(Set(d, k, v)) == Keys(d)
    ensures k !in Keys(d) ==> Keys(Set(d, k, v)) == Keys(d) + [k]
    decreases |d|
  {
    if |d| > 0 {
      var r := Set(d, k, v);
      assert r == [r[0]] + r[1..];
      assert d == [d[0]] + d[1..];
      GetCons(r[0], r[1..], k);
      GetCons(d[0], d[1..], k);
      if d[0].0 != k {
        SetKeys(d[1..], k, v);
      }
    }
  }

  /** `d[k] = v` never introduces a duplicate key. */
  lemma {:induction false} SetWellFormed<V>(d: Dict<V>, k: string, v: V)
    requires WellFormed(d)
    ensures WellFormed(Set(d, k, v))
    decreases |d|
  {
    if |d| > 0 && d[0].0 != k {
      assert d == [d[0]] + d[1..];
      WellFormedCons(d[0], d[1..]);
      SetWellFormed(d[1..], k, v);
      SetKeys(d[1..], k, v);
      WellFormedCons(d[0], Set(d[1..], k, v));
    }
  }

  /** Assigning a key the dict does not have appends the pair. */
  lemma {:induction false} SetAppends<V>(d: Dict<V>, k: string, v: V)
    requires k !in Keys(d)
    ensures Set(d, k, v) == d + [(k, v)]
    decreases |d|
  {
    if |d| > 0 {
      assert d == [d[0]] + d[1..];
      GetCons(d[0], d[1..], k);
      SetAppends(d[1..], k, v);
    }
  }

  /** All that `d[k] = v` promises, in one place. */
  lemma SetSpec<V>(d: Dict<V>, k: string, v: V)
    ensures Get(Set(d, k, v), k) == Some(v)
    ensures forall k' :: k' != k ==> Get(Set(d, k, v), k') == Get(d, k')
    ensures k in Keys(d) ==> Keys(Set(d, k, v)) == Keys(d)
    ensures k !in Keys(d) ==> Keys(Set(d, k, v)) == Keys(d) + [k]
    ensures WellFormed(d) ==> WellFormed(Set(d, k, v))
  {
    SetGet(d, k, v);
    SetKeys(d, k, v);
    if WellFormed(d) {
      SetWellFormed(d, k, v);
    }
  }

  /** `d.update(e)` on a copy of `d`: the pairs of `e` are assigned in order. */
  function Update<V>(d: Dict<V>, e: Dict<V>): Dict<V>
    decreases |e|
  {
    if |e| == 0 then d else Update(Set(d, e[0].0, e[0].1), e[1..])
  }

  /** Looking a key up in a dict that starts with `p`, for every key. */
  lemma GetConsAll<V>(p: (string, V), rest: Dict<V>)
    ensures forall k :: Get([p] + rest, k) == if p.0 == k then Some(p.1) else Get(rest, k)
  {
    forall k ensures Get([p] + rest, k) == if p.0 == k then Some(p.1) else Get(rest, k) {
      GetCons(p, rest, k);
    }
  }

  /** After `d.update(e)` the keys of `e` carry `e`'s values and every other
      key keeps its value from `d`. */
  lemma {:induction false} UpdateGet<V>(d: Dict<V>, e: Dict<V>)
    requires WellFormed(e)
    ensures forall k :: Get(Update(d, e), k) == if k in Keys(e) then Get(e, k) else Get(d, k)
    decreases |e|
  {
    if |e| > 0 {
      assert e == [e[0]] + e[1..];
      WellFormedCons(e[0], e[1..]);
      UpdateGet(Set(d, e[0].0, e[0].1), e[1..]);
      SetGet(d, e[0].0, e[0].1);
      GetConsAll(e[0], e[1..]);
      GetCons(e[0], e[1..], e[0].0);
    }
  }

  /** `d.update(e)` neither loses nor invents a key. */
  lemma {:induction false} UpdateKeys<V>(d: Dict<V>, e: Dict<V>)
    ensures forall k :: k in Keys(Update(d, e)) <==> k in Keys(d) || k in Keys(e)
    decreases |e|
  {
    if |e| > 0 {
      assert e == [e[0]] + e[1..];
      UpdateKeys(Set(d, e[0].0, e[0].1), e[1..]);
      SetKeys(d, e[0].0, e[0].1);
      GetCons(e[0], e[1..], e[0].0);
    }
  }

  /** `d.update(e)` on a well-formed dict stays well formed. */
  lemma {:induction false} UpdateWellFormed<V>(d: Dict<V>, e: Dict<V>)
    requires WellFormed(d)
    ensures WellFormed(Update(d, e))
    decreases |e|
  {
    if |e| > 0 {
      SetWellFormed(d, e[0].0, e[0].1);
      UpdateWellFormed(Set(d, e[0].0, e[0].1), e[1..]);
    }
  }

  /** All that `d.update(e)` promises, in one place. */
  lemma UpdateSpec<V>(d: Dict<V>, e: Dict<V>)
    requires WellFormed(e)
    ensures forall k :: Get(Update(d, e), k) == if k in Keys(e) then Get(e, k) else Get(d, k)
    ensures forall k :: k in Keys(Update(d, e)) <==> k in Keys(d) || k in Keys(e)
    ensures WellFormed(d) ==> WellFormed(Update(d, e))
  {
    UpdateGet(d, e);
    UpdateKeys(d, e);
    if WellFormed(d) {
      UpdateWellFormed(d, e);
    }
  }

  /** Updating with entries whose keys are all new appends them in order. */
  lemma {:induction false} UpdateDisjoint<V>(d: Dict<V>, e: Dict<V>)
    requires WellFormed(d + e)
    ensures Update(d, e) == d + e
    decreases |e|
  {
    if |e| > 0 {
      var de := d + e;
      assert e[0].0 !in Keys(d) by {
        forall j | 0 <= j < |d| ensures Keys(d)[j] != e[0].0 {
          assert de[j] == d[j] && de[|d|] == e[0];
        }
      }
      SetAppends(d, e[0].0, e[0].1);
      assert de == (d + [e[0]]) + e[1..];
      UpdateDisjoint(d + [e[0]], e[1..]);
    }
  }

  /** `d` without the key `k` (what `d.pop(k, ...)` leaves behind). */
  function Remove<V>(d: Dict<V>, k: string): Dict<V>
    decreases |d|
  {
    if |d| == 0 then []
    else if d[0].0 == k then Remove(d[1..], k)
    else [d[0]] + Remove(d[1..], k)
  }

  /** Removing `k` leaves every other key's value alone and drops `k`. */
  lemma {:induction false} RemoveGet<V>(d: Dict<V>, k: string, k': string)
    ensures Get(Remove(d, k), k') == if k' == k then None else Get(d, k')
    decreases |d|
  {
    if |d| > 0 {
      var rest := Remove(d[1..], k);
      RemoveGet(d[1..], k, k');
      assert d == [d[0]] + d[1..];
      GetCons(d[0], d[1..], k');
      if d[0].0 != k {
        GetCons(d[0], rest, k');
      }
    }
  }

  /** The keys left after removing `k`, as a set of keys. */
  lemma RemoveKeys<V>(d: Dict<V>, k: string, k': string)
    ensures k' in Keys(Remove(d, k)) <==> k' in Keys(d) && k' != k
  {
    RemoveGet(d, k, k');
  }

  /** Removing a key never introduces a duplicate. */
  lemma {:induction false} RemoveWellFormed<V>(d: Dict<V>, k: string)
    requires WellFormed(d)
    ensures WellFormed(Remove(d, k))
    decreases |d|
  {
    if |d| > 0 {
      assert d == [d[0]] + d[1..];
      WellFormedCons(d[0], d[1..]);
      RemoveWellFormed(d[1..], k);
      if d[0].0 != k {
        RemoveKeys(d[1..], k, d[0].0);
        WellFormedCons(d[0], Remove(d[1..], k));
      }
    }
  }

  /** Removing `k` drops exactly that key and leaves every other entry alone. */
  lemma RemoveSpec<V>(d: Dict<V>, k: string)
    ensures k !in Keys(Remove(d, k))
    ensures forall k' :: k' != k ==> Get(Remove(d, k), k') == Get(d, k')
    ensures forall k' :: k' in Keys(Remove(d, k)) <==> k' in Keys(d) && k' != k
    ensures WellFormed(d) ==> WellFormed(Remove(d, k))
  {
    forall k' ensures Get(Remove(d, k), k') == if k' == k then None else Get(d, k') {
      RemoveGet(d, k, k');
    }
    forall k' ensures k' in Keys(Remove(d, k)) <==> k' in Keys(d) && k' != k {
      RemoveKeys(d, k, k');
    }
    if WellFormed(d) {
      RemoveWellFormed(d, k);
    }
  }
}

=== FILE: domain_models.dfy ===
/** The validated domain entities of the Semantic Scholar server: authors,
    TL;DR summaries, papers, search filters and search queries.

    Construction of a model either yields the validated (normalised) value or
    the list of validation failures, in the order the fields are declared.
    The current calendar year, which the source reads from the clock, is a
    parameter. */
module DomainModels {
  import opened Options
  import opened Text

  /** The earliest publication year any validator accepts. */
  const MinYear: int := 1900

  /** Search result pages hold between 1 and this many entries. */
  const MaxLimit: int := 100

  /** The reasons a model can be rejected. */
  datatype FieldError =
    | EmptyAuthorName
    | EmptyTldrText
    | EmptyTitle
    | EmptyQuery
    | BadYear(year: int)
    | InfluentialExceedsTotal
    | YearRangeReversed
    | YearRangeOutOfBounds
    | OffsetTooSmall(offset: int)
    | LimitTooSmall(limit: int)
    | LimitTooLarge(limit: int)

  /** The text each failure carries. */
  function Message(e: FieldError): string {
    match e
    case EmptyAuthorName => "Author name cannot be empty"
    case EmptyTldrText => "TLDR text cannot be empty"
    case EmptyTitle => "Paper title cannot be empty"
    case EmptyQuery => "Search query cannot be empty"
    case BadYear(y) => "Invalid publication year: " + IntToString(y)
    case InfluentialExceedsTotal => "Influential citation count cannot exceed total citation count"
    case YearRangeReversed => "Year range start must be before end"
    case YearRangeOutOfBounds => "Invalid year range"
    case OffsetTooSmall(_) => "Input should be greater than or equal to 0"
    case LimitTooSmall(_) => "Input should be greater than or equal to 1"
    case LimitTooLarge(_) => "Input should be less than or equal to 100"
  }

  // ---------------------------------------------------------------------------
  // Non-blank string fields (author name, TL;DR text, paper title, query)
  // ---------------------------------------------------------------------------

  /** The rule shared by the name, TL;DR text, title and query validators: an
      empty or all-whitespace string is rejected with `onBlank`, anything else
      is accepted with its surrounding whitespace removed. */
  function StripNonBlank(v: string, onBlank: FieldError): (r: Result<string, FieldError>)
    ensures r.Err? <==> AllSpace(v)
    ensures r.Err? ==> r.error == onBlank
    ensures r.Ok? ==> |r.value| > 0 && Trimmed(r.value)
    ensures r.Ok? ==> r.value == Strip(v)
  {
    var s := Strip(v);
    if |v| == 0 || |s| == 0 then Err(onBlank) else Ok(s)
  }

  /** Whatever whitespace pads a non-empty trimmed text, the validator accepts
      exactly that text. */
  lemma StripNonBlankOfPadded(p: string, m: string, q: string, onBlank: FieldError)
    requires AllSpace(p) && AllSpace(q) && Trimmed(m) && |m| > 0
    ensures StripNonBlank(p + m + q, onBlank) == Ok(m)
  {
    StripOfPadded(p, m, q);
  }

  /** Re-validating an accepted value gives it back unchanged. */
  lemma StripNonBlankIdempotent(v: string, onBlank: FieldError)
    requires StripNonBlank(v, onBlank).Ok?
    ensures StripNonBlank(StripNonBlank(v, onBlank).value, onBlank) == StripNonBlank(v, onBlank)
  {
    StripIdempotent(v);
  }

  // ---------------------------------------------------------------------------
  // Authors and TL;DR summaries
  // ---------------------------------------------------------------------------

  datatype Author = Author(
    authorId: Option<string>,
    name: string,
    aliases: seq<string>,
    affiliations: seq<string>,
    homepage: Option<string>,
    citationCount: Option<int>,
    hIndex: Option<int>,
    paperCount: Option<int>)

  /** Constructing an `Author`: only the name is checked. */
  function NewAuthor(a: Author): (r: Result<Author, FieldError>)
    ensures r.Ok? <==> !AllSpace(a.name)
    ensures r.Err? ==> r.error == EmptyAuthorName
    ensures r.Ok? ==> r.value == a.(name := Strip(a.name))
  {
    match StripNonBlank(a.name, EmptyAuthorName)
    case Ok(n) => Ok(a.(name := n))
    case Err(e) => Err(e)
  }

  /** Validating a list of authors, as a paper does for its `authors` field:
      every author is checked and every failure is reported, in list order. */
  function NewAuthors(authors: seq<Author>): (r: Result<seq<Author>, seq<FieldError>>)
    ensures r.Ok? ==> |r.value| == |authors|
    ensures r.Err? ==> 0 < |r.error| <= |authors|
    decreases |authors|
  {
    if |authors| == 0 then Ok([])
    else
      var head := NewAuthor(authors[0]);
      var tail := NewAuthors(authors[1..]);
      if head.Ok? && tail.Ok? then Ok([head.value] + tail.value)
      else Err((if head.Err? then [head.error] else []) + (if tail.Err? then tail.error else []))
  }

  /** How many of the authors have a blank name. */
  function BlankNames(authors: seq<Author>): (n: nat)
    ensures n <= |authors|
    decreases |authors|
  {
    if |authors| == 0 then 0
    else (if AllSpace(authors[0].name) then 1 else 0) + BlankNames(authors[1..])
  }

  /** A list of authors is accepted exactly when each author is. */
  lemma {:induction false} NewAuthorsAcceptsEach(authors: seq<Author>)
    ensures NewAuthors(authors).Ok? <==> forall i :: 0 <= i < |authors| ==> NewAuthor(authors[i]).Ok?
    decreases |authors|
  {
    if |authors| > 0 {
      var tl := authors[1..];
      NewAuthorsAcceptsEach(tl);
      assert forall i :: 0 <= i < |tl| ==> tl[i] == authors[i + 1];
      if NewAuthors(authors).Ok? {
        forall i | 0 <= i < |authors| ensures NewAuthor(authors[i]).Ok? {
          if i > 0 { assert authors[i] == tl[i - 1]; }
        }
      }
    }
  }

  /** A list of authors is accepted exactly when no name is blank. */
  lemma NewAuthorsAccepts(authors: seq<Author>)
    ensures NewAuthors(authors).Ok? <==> forall i :: 0 <= i < |authors| ==> !AllSpace(authors[i].name)
  {
    NewAuthorsAcceptsEach(authors);
  }

  /** Each accepted author differs from its input only by the stripped
      name. */
  lemma {:induction false} NewAuthorsStrips(authors: seq<Author>)
    requires NewAuthors(authors).Ok?
    ensures forall i :: 0 <= i < |authors| ==> NewAuthors(authors).value[i] == authors[i].(name := Strip(authors[i].name))
    decreases |authors|
  {
    if |authors| > 0 {
      var tl := authors[1..];
      NewAuthorsStrips(tl);
      var r := NewAuthors(authors).value;
      var t := NewAuthors(tl).value;
      assert r == [r[0]] + t;
      forall i | 0 <= i < |authors| ensures r[i] == authors[i].(name := Strip(authors[i].name)) {
        if i > 0 { assert authors[i] == tl[i - 1] && r[i] == t[i - 1]; }
      }
    }
  }

  /** A rejection reports one "empty name" failure per blank name. */
  lemma {:induction false} NewAuthorsReports(authors: seq<Author>)
    requires NewAuthors(authors).Err?
    ensures |NewAuthors(authors).error| == BlankNames(authors)
    ensures forall e :: e in NewAuthors(authors).error ==> e == EmptyAuthorName
    decreases |authors|
  {
    var tl := authors[1..];
    if NewAuthors(tl).Err? {
      NewAuthorsReports(tl);
    } else {
      NewAuthorsAccepts(tl);
      NoBlankNames(tl);
    }
  }

  /** With no blank name there is nothing to count. */
  lemma {:induction false} NoBlankNames(authors: seq<Author>)
    requires forall i :: 0 <= i < |authors| ==> !AllSpace(authors[i].name)
    ensures BlankNames(authors) == 0
    decreases |authors|
  {
    if |authors| > 0 {
      assert forall i :: 0 <= i < |authors| - 1 ==> authors[1..][i] == authors[i + 1];
      NoBlankNames(authors[1..]);
    }
  }

  datatype Tldr = Tldr(model: string, text: string)

  /** Constructing a TL;DR summary: only the text is checked. */
  function NewTldr(t: Tldr): (r: Result<Tldr, FieldError>)
    ensures r.Ok? <==> !AllSpace(t.text)
    ensures r.Err? ==> r.error == EmptyTldrText
    ensures r.Ok? ==> r.value == t.(text := Strip(t.text))
  {
    match StripNonBlank(t.text, EmptyTldrText)
    case Ok(s) => Ok(t.(text := s))
    case Err(e) => Err(e)
  }

  // ---------------------------------------------------------------------------
  // Papers
  // ---------------------------------------------------------------------------

  datatype Paper = Paper(
    paperId: string,
    title: string,
    abstractText: Option<string>,
    year: Option<int>,
    venue: Option<string>,
    authors: seq<Author>,
    citationCount: int,
    referenceCount: int,
    influentialCitationCount: int,
    url: Option<string>,
    fieldsOfStudy: seq<string>,
    tldr: Option<Tldr>,
    isOpenAccess: bool)

  /** A paper as built from the fields the caller supplies, with the
      declared defaults for the metrics (all 0) and for every optional field. */
  function PaperWithDefaults(paperId: string, title: string): (p: Paper)
    ensures p.citationCount == 0 && p.influentialCitationCount == 0 && p.referenceCount == 0
    ensures p.year.None? && p.authors == [] && p.tldr.None?
  {
    Paper(paperId, title, None, None, None, [], 0, 0, 0, None, [], None, false)
  }

  /** A publication year is plausible when it is absent, or between 1900 and
      the year after `currentYear`. */
  predicate YearAccepted(year: Option<int>, currentYear: int) {
    year.None? || (MinYear <= year.value <= currentYear + 1)
  }

  /** The year validator: `None` when the year passes, the failure otherwise. */
  function CheckYear(year: Option<int>, currentYear: int): (r: Option<FieldError>)
    ensures r.None? <==> YearAccepted(year, currentYear)
    ensures r.Some? ==> r.value == BadYear(year.value)
  {
    match year
    case None => None
    case Some(v) => if v < MinYear || v > currentYear + 1 then Some(BadYear(v)) else None
  }

  /** A year accepted now is still accepted in any later year. */
  lemma YearAcceptedLater(year: Option<int>, currentYear: int, laterYear: int)
    requires currentYear <= laterYear
    requires CheckYear(year, currentYear).None?
    ensures CheckYear(year, laterYear).None?
  {
  }

  /** The failures of one optional check, as a list. */
  function Failures(e: Option<FieldError>): seq<FieldError> {
    match e
    case None => []
    case Some(x) => [x]
  }

  /** The per-field failures of a paper, in declaration order: title, year,
      authors, TL;DR. */
  function PaperFieldErrors(p: Paper, currentYear: int): seq<FieldError> {
    var title := match StripNonBlank(p.title, EmptyTitle) case Ok(_) => [] case Err(e) => [e];
    var authors := match NewAuthors(p.authors) case Ok(_) => [] case Err(es) => es;
    var tldr := match p.tldr
      case None => []
      case Some(t) => (match NewTldr(t) case Ok(_) => [] case Err(e) => [e]);
    title + Failures(CheckYear(p.year, currentYear)) + authors + tldr
  }

  /** Constructing a `Paper`. The field validators run first and all of their
      failures are reported; the metrics check (influential citations never
      exceed citations) runs only once every field is valid. */
  function NewPaper(p: Paper, currentYear: int): (r: Result<Paper, seq<FieldError>>)
    ensures r.Ok? <==>
      && !AllSpace(p.title)
      && YearAccepted(p.year, currentYear)
      && (forall i :: 0 <= i < |p.authors| ==> !AllSpace(p.authors[i].name))
      && (p.tldr.Some? ==> !AllSpace(p.tldr.value.text))
      && p.influentialCitationCount <= p.citationCount
    ensures r.Ok? ==>
      && r.value.title == Strip(p.title)
      && |r.value.authors| == |p.authors|
      && r.value == p.(title := r.value.title, authors := r.value.authors, tldr := r.value.tldr)
    ensures r.Ok? ==>
      forall i :: 0 <= i < |p.authors| ==> r.value.authors[i] == p.authors[i].(name := Strip(p.authors[i].name))
    ensures r.Ok? ==>
      r.value.tldr == (match p.tldr case None => None case Some(t) => Some(t.(text := Strip(t.text))))
    ensures r.Err? ==> |r.error| > 0
    ensures r.Err? && PaperFieldErrors(p, currentYear) == [] ==> r.error == [InfluentialExceedsTotal]
  {
    NewAuthorsAccepts(p.authors);
    var errors := PaperFieldErrors(p, currentYear);
    if errors != [] then Err(errors)
    else if p.influentialCitationCount > p.citationCount then Err([InfluentialExceedsTotal])
    else
      NewAuthorsStrips(p.authors);
      var authors := NewAuthors(p.authors).value;
      var tldr := match p.tldr case None => None case Some(t) => Some(NewTldr(t).value);
      Ok(p.(title := Strip(p.title), authors := authors, tldr := tldr))
  }

  /** With the default metrics the consistency check passes, and a negative
      citation count alone is enough to reject a paper (0 > -1). */
  lemma DefaultMetrics(paperId: string, title: string, currentYear: int)
    requires !AllSpace(title)
    ensures NewPaper(PaperWithDefaults(paperId, title), currentYear).Ok?
    ensures NewPaper(PaperWithDefaults(paperId, title).(citationCount := -1), currentYear)
      == Err([InfluentialExceedsTotal])
  {
    var p := PaperWithDefaults(paperId, title).(citationCount := -1);
    assert NewAuthors([]) == Ok([]);
    assert PaperFieldErrors(p, currentYear) == [];
  }

  const CacheKeyPrefix: string := "paper:"

  /** `generate_cache_key`: the id behind a fixed prefix. */
  function CacheKey(p: Paper): (key: string)
    ensures |key| == |CacheKeyPrefix| + |p.paperId|
    ensures key[..|CacheKeyPrefix|] == CacheKeyPrefix
  {
    CacheKeyPrefix + p.paperId
  }

  /** Reads a paper id back out of a cache key. */
  function PaperIdOfCacheKey(key: string): (r: Option<string>)
    ensures r.Some? ==> key == CacheKeyPrefix + r.value
  {
    if |key| >= |CacheKeyPrefix| && key[..|CacheKeyPrefix|] == CacheKeyPrefix then
      assert key == key[..|CacheKeyPrefix|] + key[|CacheKeyPrefix|..];
      Some(key[|CacheKeyPrefix|..])
    else None
  }

  /** The id is recoverable from the key. */
  lemma CacheKeyRoundTrip(p: Paper)
    ensures PaperIdOfCacheKey(CacheKey(p)) == Some(p.paperId)
  {
    assert (CacheKeyPrefix + p.paperId)[|CacheKeyPrefix|..] == p.paperId;
  }

  /** Two papers share a cache key exactly when they share an id. */
  lemma CacheKeySharedIffSameId(p: Paper, q: Paper)
    ensures CacheKey(p) == CacheKey(q) <==> p.paperId == q.paperId
  {
    CacheKeyRoundTrip(p);
    CacheKeyRoundTrip(q);
  }

  // ---------------------------------------------------------------------------
  // Search filters and queries
  // ---------------------------------------------------------------------------

  datatype SearchFilters = SearchFilters(
    year: Option<int>,
    yearRange: Option<(int, int)>,
    fieldsOfStudy: Option<seq<string>>,
    venues: Option<seq<string>>,
    openAccessOnly: bool,
    minCitationCount: Option<int>)

  /** Filters holding only a year and fields of study, the rest defaulted. */
  function FiltersOf(year: Option<int>, fieldsOfStudy: Option<seq<string>>): (f: SearchFilters)
    ensures f.yearRange.None?
  {
    SearchFilters(year, None, fieldsOfStudy, None, false, None)
  }

  /** Constructing `SearchFilters`: a year range, when given, must be ordered
      and lie between 1900 and the year after `currentYear`. */
  function NewSearchFilters(f: SearchFilters, currentYear: int): (r: Result<SearchFilters, FieldError>)
    ensures r.Ok? <==>
      || f.yearRange.None?
      || (&& f.yearRange.value.0 <= f.yearRange.value.1
          && MinYear <= f.yearRange.value.0
          && f.yearRange.value.1 <= currentYear + 1)
    ensures r.Ok? ==> r.value == f
    ensures r.Err? && f.yearRange.value.0 > f.yearRange.value.1 ==> r.error == YearRangeReversed
    ensures r.Err? && f.yearRange.value.0 <= f.yearRange.value.1 ==> r.error == YearRangeOutOfBounds
  {
    match f.yearRange
    case None => Ok(f)
    case Some((start, end)) =>
      if start > end then Err(YearRangeReversed)
      else if start < MinYear || end > currentYear + 1 then Err(YearRangeOutOfBounds)
      else Ok(f)
  }

  /** Every year inside an accepted filter range is a year the paper
      validator accepts, for the same current year. */
  lemma AcceptedRangeHoldsAcceptedYears(f: SearchFilters, currentYear: int, y: int)
    requires NewSearchFilters(f, currentYear).Ok? && f.yearRange.Some?
    requires f.yearRange.value.0 <= y <= f.yearRange.value.1
    ensures CheckYear(Some(y), currentYear).None?
  {
  }

  datatype SearchQuery = SearchQuery(
    query: string,
    fields: Option<seq<string>>,
    filters: Option<SearchFilters>,
    offset: int,
    limit: int,
    sort: Option<string>)

  /** A query for `q` with every other field at its declared default:
      no filters, offset 0, limit 10. */
  function DefaultQuery(q: string): (sq: SearchQuery)
    ensures sq.offset == 0 && sq.limit == 10 && sq.filters.None?
  {
    SearchQuery(q, None, None, 0, 10, None)
  }

  /** The bounds on the window fields: offset at least 0, limit between 1
      and 100. */
  function WindowErrors(offset: int, limit: int): (es: seq<FieldError>)
    ensures es == [] <==> 0 <= offset && 1 <= limit <= MaxLimit
  {
    (if offset < 0 then [OffsetTooSmall(offset)] else [])
    + (if limit < 1 then [LimitTooSmall(limit)] else [])
    + (if limit > MaxLimit then [LimitTooLarge(limit)] else [])
  }

  /** Constructing a `SearchQuery`: the query text must not be blank (and is
      stripped) and the window must be in bounds; every failure is reported.
      A filters value is already a constructed model and is not re-checked. */
  function NewSearchQuery(sq: SearchQuery): (r: Result<SearchQuery, seq<FieldError>>)
    ensures r.Ok? <==> !AllSpace(sq.query) && 0 <= sq.offset && 1 <= sq.limit <= MaxLimit
    ensures r.Ok? ==> r.value == sq.(query := Strip(sq.query))
    ensures r.Err? ==> |r.error| > 0
    ensures AllSpace(sq.query) ==> r.Err? && r.error[0] == EmptyQuery
  {
    var q := StripNonBlank(sq.query, EmptyQuery);
    var errors := (if q.Err? then [EmptyQuery] else []) + WindowErrors(sq.offset, sq.limit);
    if errors == [] then Ok(sq.(query := q.value)) else Err(errors)
  }

  /** With the default window, a query is accepted exactly when its text is
      not blank. */
  lemma DefaultQueryAccepted(q: string)
    ensures NewSearchQuery(DefaultQuery(q)).Ok? <==> !AllSpace(q)
  {
  }
}

=== FILE: exceptions.dfy ===
/** The error taxonomy of the server: stable error codes, the exception
    classes that stamp them, the details map each constructor assembles, and
    the two renderings of an error (`str(e)` and `e.to_dict()`).

    A Python constructor call is a function returning either the constructed
    error or the `TypeError` Python raises while running the constructor. The
    creation timestamp, read from the clock in the source, is a parameter
    (already in ISO-8601 text). */
module Exceptions {
  import opened Options
  import opened Dicts
  import opened Values
  import opened Text

  // ---------------------------------------------------------------------------
  // Error codes
  // ---------------------------------------------------------------------------

  /** The standardised error codes, grouped by thousands. */
  datatype ErrorCode =
    // general
    | UnknownError | InternalError | NotImplemented
    // validation
    | ValidationError | InvalidInput | MissingRequiredField | InvalidFormat | ValueOutOfRange
    // upstream API
    | ApiError | RateLimitExceeded | NetworkError | TimeoutError | ServiceUnavailable
    // authentication and authorisation
    | Unauthorized | Forbidden | TokenExpired | InvalidCredentials
    // resources
    | NotFound | AlreadyExists | ResourceLocked | ResourceDeleted
    // configuration
    | ConfigurationError | MissingConfiguration | InvalidConfiguration
    // cache
    | CacheError | CacheMiss | CacheExpired | CacheFull
    // database
    | DatabaseError | ConnectionError | QueryError | TransactionError

  /** The string value of a code (`code.value`). */
  function CodeValue(c: ErrorCode): string {
    match c
    case UnknownError => "E1000"
    case InternalError => "E1001"
    case NotImplemented => "E1002"
    case ValidationError => "E2000"
    case InvalidInput => "E2001"
    case MissingRequiredField => "E2002"
    case InvalidFormat => "E2003"
    case ValueOutOfRange => "E2004"
    case ApiError => "E3000"
    case RateLimitExceeded => "E3001"
    case NetworkError => "E3002"
    case TimeoutError => "E3003"
    case ServiceUnavailable => "E3004"
    case Unauthorized => "E4000"
    case Forbidden => "E4001"
    case TokenExpired => "E4002"
    case InvalidCredentials => "E4003"
    case NotFound => "E5000"
    case AlreadyExists => "E5001"
    case ResourceLocked => "E5002"
    case ResourceDeleted => "E5003"
    case ConfigurationError => "E6000"
    case MissingConfiguration => "E6001"
    case InvalidConfiguration => "E6002"
    case CacheError => "E7000"
    case CacheMiss => "E7001"
    case CacheExpired => "E7002"
    case CacheFull => "E7003"
    case DatabaseError => "E8000"
    case ConnectionError => "E8001"
    case QueryError => "E8002"
    case TransactionError => "E8003"
  }

  /** The code whose value is `E<group>00<index>`, if there is one. */
  function CodeOfDigits(group: char, index: char): Option<ErrorCode> {
    match (group, index)
    case ('1', '0') => Some(UnknownError)
    case ('1', '1') => Some(InternalError)
    case ('1', '2') => Some(NotImplemented)
    case ('2', '0') => Some(ErrorCode.ValidationError)
    case ('2', '1') => Some(InvalidInput)
    case ('2', '2') => Some(MissingRequiredField)
    case ('2', '3') => Some(InvalidFormat)
    case ('2', '4') => Some(ValueOutOfRange)
    case ('3', '0') => Some(ErrorCode.ApiError)
    case ('3', '1') => Some(RateLimitExceeded)
    case ('3', '2') => Some(ErrorCode.NetworkError)
    case ('3', '3') => Some(TimeoutError)
    case ('3', '4') => Some(ServiceUnavailable)
    case ('4', '0') => Some(Unauthorized)
    case ('4', '1') => Some(Forbidden)
    case ('4', '2') => Some(TokenExpired)
    case ('4', '3') => Some(InvalidCredentials)
    case ('5', '0') => Some(NotFound)
    case ('5', '1') => Some(AlreadyExists)
    case ('5', '2') => Some(ResourceLocked)
    case ('5', '3') => Some(ResourceDeleted)
    case ('6', '0') => Some(ErrorCode.ConfigurationError)
    case ('6', '1') => Some(MissingConfiguration)
    case ('6', '2') => Some(InvalidConfiguration)
    case ('7', '0') => Some(ErrorCode.CacheError)
    case ('7', '1') => Some(CacheMiss)
    case ('7', '2') => Some(CacheExpired)
    case ('7', '3') => Some(CacheFull)
    case ('8', '0') => Some(ErrorCode.DatabaseError)
    case ('8', '1') => Some(ConnectionError)
    case ('8', '2') => Some(QueryError)
    case ('8', '3') => Some(TransactionError)
    case _ => None
  }

  /** `ErrorCode(s)`: the code whose value is `s`, if any. */
  function ParseCode(s: string): Option<ErrorCode> {
    if |s| == 5 && s[0] == 'E' && s[2] == '0' && s[3] == '0' then CodeOfDigits(s[1], s[4])
    else None
  }

  /** Every code is found again from its value. */
  lemma ParseCodeRoundTrip(c: ErrorCode)
    ensures ParseCode(CodeValue(c)) == Some(c)
  {
    match c
    case UnknownError =>
    case InternalError =>
    case NotImplemented =>
    case ValidationError =>
    case InvalidInput =>
    case MissingRequiredField =>
    case InvalidFormat =>
    case ValueOutOfRange =>
    case ApiError =>
    case RateLimitExceeded =>
    case NetworkError =>
    case TimeoutError =>
    case ServiceUnavailable =>
    case Unauthorized =>
    case Forbidden =>
    case TokenExpired =>
    case InvalidCredentials =>
    case NotFound =>
    case AlreadyExists =>
    case ResourceLocked =>
    case ResourceDeleted =>
    case ConfigurationError =>
    case MissingConfiguration =>
    case InvalidConfiguration =>
    case CacheError =>
    case CacheMiss =>
    case CacheExpired =>
    case CacheFull =>
    case DatabaseError =>
    case ConnectionError =>
    case QueryError =>
    case TransactionError =>
  }

  /** Whatever string parses as a code is exactly that code's value. */
  lemma ParseCodeSound(s: string)
    requires ParseCode(s).Some?
    ensures CodeValue(ParseCode(s).value) == s
  {
    var c := ParseCode(s).value;
    ParseCodeRoundTrip(c);
    var v := CodeValue(c);
    assert v[1] == s[1] && v[4] == s[4] by {
      match c
      case UnknownError =>
      case InternalError =>
      case NotImplemented =>
      case ValidationError =>
      case InvalidInput =>
      case MissingRequiredField =>
      case InvalidFormat =>
      case ValueOutOfRange =>
      case ApiError =>
      case RateLimitExceeded =>
      case NetworkError =>
      case TimeoutError =>
      case ServiceUnavailable =>
      case Unauthorized =>
      case Forbidden =>
      case TokenExpired =>
      case InvalidCredentials =>
      case NotFound =>
      case AlreadyExists =>
      case ResourceLocked =>
      case ResourceDeleted =>
      case ConfigurationError =>
      case MissingConfiguration =>
      case InvalidConfiguration =>
      case CacheError =>
      case CacheMiss =>
      case CacheExpired =>
      case CacheFull =>
      case DatabaseError =>
      case ConnectionError =>
      case QueryError =>
      case TransactionError =>
    }
    assert |v| == 5 && v[0] == 'E' && v[2] == '0' && v[3] == '0';
    assert v == s;
  }

  /** No two codes share a value. */
  lemma CodeValuesDistinct(c1: ErrorCode, c2: ErrorCode)
    ensures CodeValue(c1) == CodeValue(c2) <==> c1 == c2
  {
    ParseCodeRoundTrip(c1);
    ParseCodeRoundTrip(c2);
  }

  // ---------------------------------------------------------------------------
  // Exception classes and constructed errors
  // ---------------------------------------------------------------------------

  /** The exception classes; `BaseError` is the root class every other one
      derives from. */
  datatype ErrorClass =
    | BaseError
    | ValidationError
    | ApiError
    | RateLimitError
    | NetworkError
    | ConfigurationError
    | CacheError
    | NotFoundError
    | UnauthorizedError
    | ForbiddenError
    | DatabaseError
    | ServiceUnavailableError

  /** `type(e).__name__`. */
  function ClassName(c: ErrorClass): string {
    match c
    case BaseError => "SemanticScholarMCPError"
    case ValidationError => "ValidationError"
    case ApiError => "APIError"
    case RateLimitError => "RateLimitError"
    case NetworkError => "NetworkError"
    case ConfigurationError => "ConfigurationError"
    case CacheError => "CacheError"
    case NotFoundError => "NotFoundError"
    case UnauthorizedError => "UnauthorizedError"
    case ForbiddenError => "ForbiddenError"
    case DatabaseError => "DatabaseError"
    case ServiceUnavailableError => "ServiceUnavailableError"
  }

  /** An exception wrapped by an error: its class name and `str()` text. */
  datatype Inner = Inner(typeName: string, text: string)

  /** A constructed error. */
  datatype Error = Error(
    cls: ErrorClass,
    message: string,
    code: ErrorCode,
    details: Dict<Value>,
    inner: Option<Inner>,
    timestamp: string)

  /** How a caller passed `details`: not at all, as `None`, or as a dict. */
  datatype DetailsArg = Omitted | PassedNone | Passed(d: Dict<Value>)

  /** The keyword arguments a subclass forwards to its base class. */
  datatype Kwargs = Kwargs(details: DetailsArg, errorCode: Option<ErrorCode>, inner: Option<Inner>)

  const NoKwargs: Kwargs := Kwargs(Omitted, None, None)

  /** Why a constructor call raises `TypeError`: a keyword given twice, or an
      item assigned into a `details` that is `None`. */
  datatype ConstructError = DuplicateKeyword(name: string) | NotAMapping

  /** `kwargs.pop("details", {})`: the map a subclass starts from. */
  function Start(arg: DetailsArg): Option<Dict<Value>> {
    match arg
    case Omitted => Some([])
    case PassedNone => None
    case Passed(d) => Some(d)
  }

  /** The caller's own details, with a missing or `None` map read as empty. */
  function Given(arg: DetailsArg): Dict<Value> {
    Start(arg).GetOr([])
  }

  /** The base-class initialiser: `details or {}` and the given code. */
  function Init(cls: ErrorClass, message: string, code: ErrorCode, details: Option<Dict<Value>>,
                inner: Option<Inner>, now: string): (e: Error)
    ensures e.cls == cls && e.code == code && e.message == message && e.inner == inner
    ensures e.details == details.GetOr([])
  {
    Error(cls, message, code, details.GetOr([]), inner, now)
  }

  /** Constructing the base class directly: the message, the details map and
      the wrapped exception are stored as given, the code defaults to E1000,
      and a missing details map becomes the empty map. */
  function NewBaseError(message: string, errorCode: Option<ErrorCode>, details: Option<Dict<Value>>,
                        inner: Option<Inner>, now: string): (e: Error)
    ensures e.cls == BaseError
    ensures errorCode.None? ==> e.code == UnknownError
    ensures errorCode.Some? ==> e.code == errorCode.value
    ensures e.message == message && e.inner == inner && e.timestamp == now
    ensures details.Some? ==> e.details == details.value
    ensures details.None? ==> e.details == []
  {
    Init(BaseError, message, errorCode.GetOr(UnknownError), details, inner, now)
  }

  /** A base error built without a code reports E1000 and its message in
      `to_dict()`, and a details entry exactly when it was given a non-empty
      details map. */
  lemma BaseErrorToDict(message: string, details: Option<Dict<Value>>, inner: Option<Inner>, now: string)
    ensures var o := ErrorObject(NewBaseError(message, None, details, inner, now));
      && Get(o, "code") == Some(Str("E1000"))
      && Get(o, "message") == Some(Str(message))
      && ("details" in Keys(o) <==> details.Some? && |details.value| > 0)
  {
    var e := NewBaseError(message, None, details, inner, now);
    ToDictEntries(e);
  }

  // ---------------------------------------------------------------------------
  // Conditional details
  // ---------------------------------------------------------------------------

  /** One named constructor argument: the details key it fills, its value,
      and whether the constructor's condition records it. */
  datatype Field = Field(key: string, value: Value, recorded: bool)

  /** An argument recorded when it is truthy (`if field:`). */
  function WhenTruthy(key: string, v: Value): Field {
    Field(key, v, Truthy(v))
  }

  /** An argument recorded when it is not `None` (`if value is not None:`),
      so 0 and "" are recorded too. */
  function WhenGiven(key: string, v: Value): Field {
    Field(key, v, v != Null)
  }

  predicate FieldKeysDistinct(fields: seq<Field>) {
    forall i, j :: 0 <= i < j < |fields| ==> fields[i].key != fields[j].key
  }

  /** Two arguments record nothing exactly when neither is recorded. */
  lemma RecordedPairEmpty(a: Field, b: Field)
    ensures Recorded([a, b]) == [] <==> !a.recorded && !b.recorded
  {
    var fs := [a, b];
    assert fs[0] == a && fs[1] == b;
  }

  /** Three arguments record nothing exactly when none is recorded. */
  lemma RecordedTripleEmpty(a: Field, b: Field, c: Field)
    ensures Recorded([a, b, c]) == [] <==> !a.recorded && !b.recorded && !c.recorded
  {
    var fs := [a, b, c];
    assert fs[0] == a && fs[1] == b && fs[2] == c;
  }

  /** The entries a constructor assigns into details, in assignment order. */
  function Recorded(fields: seq<Field>): (d: Dict<Value>)
    ensures d == [] <==> forall i :: 0 <= i < |fields| ==> !fields[i].recorded
    decreases |fields|
  {
    if |fields| == 0 then []
    else
      assert forall i :: 1 <= i < |fields| ==> fields[i] == fields[1..][i - 1];
      (if fields[0].recorded then [(fields[0].key, fields[0].value)] else []) + Recorded(fields[1..])
  }

  /** A key that no recorded argument carries is not assigned. */
  lemma {:induction false} RecordedKeyAbsent(fields: seq<Field>, k: string)
    requires forall i :: 0 <= i < |fields| ==> fields[i].key != k || !fields[i].recorded
    ensures k !in Keys(Recorded(fields))
    decreases |fields|
  {
    if |fields| > 0 {
      var tl := fields[1..];
      assert forall i :: 0 <= i < |tl| ==> tl[i] == fields[i + 1];
      RecordedKeyAbsent(tl, k);
      var f := fields[0];
      if f.recorded {
        GetCons((f.key, f.value), Recorded(tl), k);
      }
    }
  }

  /** With distinct argument keys no key is assigned twice. */
  lemma {:induction false} RecordedWellFormed(fields: seq<Field>)
    requires FieldKeysDistinct(fields)
    ensures WellFormed(Recorded(fields))
    decreases |fields|
  {
    if |fields| > 0 {
      var tl := fields[1..];
      assert forall i :: 0 <= i < |tl| ==> tl[i] == fields[i + 1];
      RecordedWellFormed(tl);
      var f := fields[0];
      if f.recorded {
        RecordedKeyAbsent(tl, f.key);
        WellFormedCons((f.key, f.value), Recorded(tl));
      }
    }
  }

  /** With distinct argument keys each recorded argument is found under its
      key. */
  lemma {:induction false} RecordedGet(fields: seq<Field>, i: int)
    requires FieldKeysDistinct(fields)
    requires 0 <= i < |fields| && fields[i].recorded
    ensures Get(Recorded(fields), fields[i].key) == Some(fields[i].value)
    decreases |fields|
  {
    var tl := fields[1..];
    var f := fields[0];
    assert forall j :: 0 <= j < |tl| ==> tl[j] == fields[j + 1];
    assert Recorded(fields) == (if f.recorded then [(f.key, f.value)] else []) + Recorded(tl);
    if i > 0 {
      assert fields[i] == tl[i - 1];
      RecordedGet(tl, i - 1);
      if f.recorded {
        assert f.key != fields[i].key;
        GetCons((f.key, f.value), Recorded(tl), fields[i].key);
      } else {
        assert Recorded(fields) == Recorded(tl);
      }
    } else {
      GetCons((f.key, f.value), Recorded(tl), f.key);
    }
  }

  /** Assigning the recorded arguments into the starting map; assigning into
      `None` raises. */
  function Insert(start: Option<Dict<Value>>, fields: seq<Field>): (r: Result<Option<Dict<Value>>, ConstructError>)
    ensures r.Err? <==> start.None? && Recorded(fields) != []
    ensures r.Err? ==> r.error == NotAMapping
    ensures r.Ok? && start.Some? ==> r.value == Some(Update(start.value, Recorded(fields)))
    ensures r.Ok? && start.None? ==> r.value.None?
  {
    match start
    case Some(d) => Ok(Some(Update(d, Recorded(fields))))
    case None => if Recorded(fields) == [] then Ok(None) else Err(NotAMapping)
  }

  /** The constructor shape shared by every class that passes its own code to
      the base initialiser: pop `details`, assign the recorded arguments, then
      call the base with `error_code=code` next to the remaining keywords (so a
      caller's own `error_code` keyword is a duplicate). */
  function Build(cls: ErrorClass, code: ErrorCode, message: string, fields: seq<Field>,
                 kw: Kwargs, now: string): (r: Result<Error, ConstructError>)
    ensures r.Ok? <==> kw.errorCode.None? && (kw.details == PassedNone ==> Recorded(fields) == [])
    ensures r.Err? && kw.details == PassedNone && Recorded(fields) != [] ==> r.error == NotAMapping
    ensures r.Err? && !(kw.details == PassedNone && Recorded(fields) != []) ==>
      r.error == DuplicateKeyword("error_code")
    ensures r.Ok? ==> && r.value.cls == cls && r.value.code == code && r.value.message == message
                      && r.value.inner == kw.inner && r.value.timestamp == now
    ensures r.Ok? ==> r.value.details == Update(Given(kw.details), Recorded(fields))
  {
    match Insert(Start(kw.details), fields)
    case Err(e) => Err(e)
    case Ok(d) =>
      if kw.errorCode.Some? then Err(DuplicateKeyword("error_code"))
      else Ok(Init(cls, message, code, d, kw.inner, now))
  }

  /** The details of a constructed error: each recorded argument under its
      own key, every other key exactly as the caller supplied it. */
  lemma BuildKeepsCallerDetails(cls: ErrorClass, code: ErrorCode, message: string, fields: seq<Field>,
                                kw: Kwargs, now: string)
    requires FieldKeysDistinct(fields)
    requires Build(cls, code, message, fields, kw, now).Ok?
    ensures var d := Build(cls, code, message, fields, kw, now).value.details;
      && (forall i :: 0 <= i < |fields| && fields[i].recorded ==> Get(d, fields[i].key) == Some(fields[i].value))
      && (forall k :: (forall i :: 0 <= i < |fields| ==> fields[i].key != k || !fields[i].recorded) ==>
            Get(d, k) == Get(Given(kw.details), k))
  {
    RecordedWellFormed(fields);
    UpdateSpec(Given(kw.details), Recorded(fields));
    forall i | 0 <= i < |fields| && fields[i].recorded
      ensures Get(Recorded(fields), fields[i].key) == Some(fields[i].value)
    {
      RecordedGet(fields, i);
    }
    forall k | forall i :: 0 <= i < |fields| ==> fields[i].key != k || !fields[i].recorded
      ensures k !in Keys(Recorded(fields))
    {
      RecordedKeyAbsent(fields, k);
    }
  }

  /** The details of a class that records one argument: its key holds the
      argument when recorded and the caller's value otherwise; every other
      key is the caller's. */
  lemma BuildOneDetails(cls: ErrorClass, code: ErrorCode, message: string, a: Field, kw: Kwargs, now: string)
    ensures var r := Build(cls, code, message, [a], kw, now);
      r.Ok? ==> && Get(r.value.details, a.key) == (if a.recorded then Some(a.value) else Get(Given(kw.details), a.key))
                && forall k :: k != a.key ==> Get(r.value.details, k) == Get(Given(kw.details), k)
  {
    var fs := [a];
    if Build(cls, code, message, fs, kw, now).Ok? {
      BuildKeepsCallerDetails(cls, code, message, fs, kw, now);
      assert fs[0] == a;
    }
  }

  /** The same for a class that records two arguments under distinct keys. */
  lemma BuildPairDetails(cls: ErrorClass, code: ErrorCode, message: string, a: Field, b: Field, kw: Kwargs, now: string)
    requires a.key != b.key
    ensures var r := Build(cls, code, message, [a, b], kw, now);
      r.Ok? ==> && Get(r.value.details, a.key) == (if a.recorded then Some(a.value) else Get(Given(kw.details), a.key))
                && Get(r.value.details, b.key) == (if b.recorded then Some(b.value) else Get(Given(kw.details), b.key))
                && forall k :: k != a.key && k != b.key ==> Get(r.value.details, k) == Get(Given(kw.details), k)
  {
    var fs := [a, b];
    if Build(cls, code, message, fs, kw, now).Ok? {
      BuildKeepsCallerDetails(cls, code, message, fs, kw, now);
      assert fs[0] == a && fs[1] == b;
    }
  }

  // ---------------------------------------------------------------------------
  // The classes that stamp their own code
  // ---------------------------------------------------------------------------

  function ValidationFields(field: Value, value: Value, validationErrors: Value): (fs: seq<Field>)
    ensures FieldKeysDistinct(fs)
  {
    [WhenTruthy("field", field), WhenGiven("value", value), WhenTruthy("validation_errors", validationErrors)]
  }

  /** `ValidationError(message, field, value, validation_errors, **kwargs)`:
      code E2000; `field` and `validation_errors` recorded when truthy,
      `value` whenever it is not `None`. */
  function NewValidationError(message: string, field: Value, value: Value, validationErrors: Value,
                              kw: Kwargs, now: string): (r: Result<Error, ConstructError>)
    ensures r.Ok? <==> (kw.errorCode.None? &&
      (kw.details == PassedNone ==> !Truthy(field) && value == Null && !Truthy(validationErrors)))
    ensures r.Ok? ==> r.value.cls == ErrorClass.ValidationError && r.value.code == ErrorCode.ValidationError
  {
    RecordedTripleEmpty(WhenTruthy("field", field), WhenGiven("value", value),
                        WhenTruthy("validation_errors", validationErrors));
    Build(ErrorClass.ValidationError, ErrorCode.ValidationError, message,
          ValidationFields(field, value, validationErrors), kw, now)
  }

  /** What a constructed `ValidationError` records: `value` whenever it is
      not `None` (so 0, "" and False too), `field` and `validation_errors`
      only when truthy; otherwise the caller's own entry, if any, shows. */
  lemma ValidationErrorRecords(message: string, field: Value, value: Value, validationErrors: Value,
                               kw: Kwargs, now: string)
    requires NewValidationError(message, field, value, validationErrors, kw, now).Ok?
    ensures var d := NewValidationError(message, field, value, validationErrors, kw, now).value.details;
      && Get(d, "value") == (if value != Null then Some(value) else Get(Given(kw.details), "value"))
      && Get(d, "field") == (if Truthy(field) then Some(field) else Get(Given(kw.details), "field"))
      && Get(d, "validation_errors") ==
           (if Truthy(validationErrors) then Some(validationErrors) else Get(Given(kw.details), "validation_errors"))
  {
    var fs := ValidationFields(field, value, validationErrors);
    BuildKeepsCallerDetails(ErrorClass.ValidationError, ErrorCode.ValidationError, message, fs, kw, now);
    assert fs[0].key == "field" && fs[1].key == "value" && fs[2].key == "validation_errors";
  }

  /** The arguments only `APIError` and its subclasses take. */
  datatype ApiArgs = ApiArgs(statusCode: Value, responseBody: Value, requestId: Value)

  const NoApiArgs: ApiArgs := ApiArgs(Null, Null, Null)

  function ApiFields(api: ApiArgs): (fs: seq<Field>)
    ensures FieldKeysDistinct(fs)
  {
    [WhenTruthy("status_code", api.statusCode), WhenTruthy("response_body", api.responseBody),
     WhenTruthy("request_id", api.requestId)]
  }

  /** `APIError.__init__` as run for an instance of class `cls`: code E3000
      passed explicitly next to the forwarded keywords. */
  function ApiInit(cls: ErrorClass, message: string, api: ApiArgs, kw: Kwargs, now: string): (r: Result<Error, ConstructError>)
    ensures kw.errorCode.Some? ==> r.Err?
    ensures r.Ok? ==> r.value.cls == cls && r.value.code == ErrorCode.ApiError
  {
    Build(cls, ErrorCode.ApiError, message, ApiFields(api), kw, now)
  }

  /** `APIError(message, status_code, response_body, request_id, **kwargs)`:
      code E3000; each argument recorded only when truthy, so a status code
      of 0 is never stored. A caller that also passes `error_code` gets a
      `TypeError`. */
  function NewApiError(message: string, api: ApiArgs, kw: Kwargs, now: string): (r: Result<Error, ConstructError>)
    ensures r.Ok? <==> (kw.errorCode.None? &&
      (kw.details == PassedNone ==> !Truthy(api.statusCode) && !Truthy(api.responseBody) && !Truthy(api.requestId)))
    ensures kw.errorCode.Some? && kw.details != PassedNone ==> r == Err(DuplicateKeyword("error_code"))
    ensures r.Ok? ==> r.value.cls == ErrorClass.ApiError && r.value.code == ErrorCode.ApiError
  {
    ApiInit(ErrorClass.ApiError, message, api, kw, now)
  }

  /** What a constructed `APIError` records: each of its three arguments
      when truthy, the caller's own entry under that key otherwise. */
  lemma ApiErrorRecords(message: string, api: ApiArgs, kw: Kwargs, now: string)
    requires NewApiError(message, api, kw, now).Ok?
    ensures var d := NewApiError(message, api, kw, now).value.details;
      && Get(d, "status_code") ==
           (if Truthy(api.statusCode) then Some(api.statusCode) else Get(Given(kw.details), "status_code"))
      && Get(d, "response_body") ==
           (if Truthy(api.responseBody) then Some(api.responseBody) else Get(Given(kw.details), "response_body"))
      && Get(d, "request_id") ==
           (if Truthy(api.requestId) then Some(api.requestId) else Get(Given(kw.details), "request_id"))
  {
    var fs := ApiFields(api);
    BuildKeepsCallerDetails(ErrorClass.ApiError, ErrorCode.ApiError, message, fs, kw, now);
    assert fs[0].key == "status_code" && fs[1].key == "response_body" && fs[2].key == "request_id";
  }

  /** Forwarding a (possibly `None`) details map as the `details=` keyword. */
  function Forward(d: Option<Dict<Value>>): DetailsArg {
    match d
    case None => PassedNone
    case Some(m) => Passed(m)
  }

  /** What a subclass of `APIError` does: assign its own arguments, then run
      `APIError.__init__` with `error_code=code` among the forwarded keywords. */
  function ApiSubclass(cls: ErrorClass, code: ErrorCode, message: string, own: seq<Field>, api: ApiArgs,
                       kw: Kwargs, now: string): (r: Result<Error, ConstructError>)
    ensures r.Err?
  {
    match Insert(Start(kw.details), own)
    case Err(e) => Err(e)
    case Ok(d) => ApiInit(cls, message, api, Kwargs(Forward(d), Some(code), kw.inner), now)
  }

  function RateLimitFields(retryAfter: Value, limit: Value, remaining: Value, resetTime: Option<string>): (fs: seq<Field>)
    ensures FieldKeysDistinct(fs)
  {
    [WhenGiven("retry_after", retryAfter), WhenGiven("limit", limit), WhenGiven("remaining", remaining),
     Field("reset_time", Str(resetTime.GetOr("")), resetTime.Some?)]
  }

  /** `RateLimitError(...)` as written: it always raises `TypeError`, because
      `APIError.__init__` receives `error_code` twice. */
  function NewRateLimitError(message: string, retryAfter: Value, limit: Value, remaining: Value,
                             resetTime: Option<string>, api: ApiArgs, kw: Kwargs, now: string): (r: Result<Error, ConstructError>)
    ensures r.Err?
    ensures kw.details != PassedNone ==> r.error == DuplicateKeyword("error_code")
  {
    ApiSubclass(RateLimitError, RateLimitExceeded, message, RateLimitFields(retryAfter, limit, remaining, resetTime),
                api, kw, now)
  }

  function NetworkFields(url: Value, timeout: Value): (fs: seq<Field>)
    ensures FieldKeysDistinct(fs)
  {
    [WhenTruthy("url", url), WhenGiven("timeout", timeout)]
  }

  /** `NetworkError(...)` as written: always raises `TypeError` for the same
      reason. */
  function NewNetworkError(message: string, url: Value, timeout: Value, api: ApiArgs, kw: Kwargs,
                           now: string): (r: Result<Error, ConstructError>)
    ensures r.Err?
    ensures kw.details != PassedNone ==> r.error == DuplicateKeyword("error_code")
  {
    ApiSubclass(ErrorClass.NetworkError, ErrorCode.NetworkError, message, NetworkFields(url, timeout), api, kw, now)
  }

  const DefaultServiceUnavailableMessage: string := "Service temporarily unavailable"

  function ServiceUnavailableFields(serviceName: Value, retryAfter: Value): (fs: seq<Field>)
    ensures FieldKeysDistinct(fs)
  {
    [WhenTruthy("service_name", serviceName), WhenGiven("retry_after", retryAfter)]
  }

  /** `ServiceUnavailableError(...)` as written: always raises `TypeError`
      for the same reason. */
  function NewServiceUnavailableError(message: Option<string>, serviceName: Value, retryAfter: Value,
                                      api: ApiArgs, kw: Kwargs, now: string): (r: Result<Error, ConstructError>)
    ensures r.Err?
    ensures kw.details != PassedNone ==> r.error == DuplicateKeyword("error_code")
  {
    ApiSubclass(ServiceUnavailableError, ServiceUnavailable, message.GetOr(DefaultServiceUnavailableMessage),
                ServiceUnavailableFields(serviceName, retryAfter), api, kw, now)
  }

  /** Even the simplest call, with nothing but a message, raises. */
  lemma ApiSubclassesNeverConstruct(message: string, now: string)
    ensures NewRateLimitError(message, Null, Null, Null, None, NoApiArgs, NoKwargs, now)
      == Err(DuplicateKeyword("error_code"))
    ensures NewNetworkError(message, Null, Null, NoApiArgs, NoKwargs, now) == Err(DuplicateKeyword("error_code"))
    ensures NewServiceUnavailableError(Some(message), Null, Null, NoApiArgs, NoKwargs, now)
      == Err(DuplicateKeyword("error_code"))
  {
  }

  /** `ConfigurationError(message, config_key, config_file, **kwargs)`: code
      E6000; both arguments recorded when truthy. */
  function NewConfigurationError(message: string, configKey: Value, configFile: Value, kw: Kwargs,
                                 now: string): (r: Result<Error, ConstructError>)
    ensures r.Ok? <==> kw.errorCode.None? && (kw.details == PassedNone ==> !Truthy(configKey) && !Truthy(configFile))
    ensures r.Ok? ==> r.value.cls == ErrorClass.ConfigurationError && r.value.code == ErrorCode.ConfigurationError
    ensures r.Ok? ==> r.value.message == message && r.value.inner == kw.inner && r.value.timestamp == now
    ensures r.Ok? ==>
      Get(r.value.details, "config_key") ==
        (if Truthy(configKey) then Some(configKey) else Get(Given(kw.details), "config_key"))
    ensures r.Ok? ==>
      Get(r.value.details, "config_file") ==
        (if Truthy(configFile) then Some(configFile) else Get(Given(kw.details), "config_file"))
    ensures r.Ok? ==> forall k :: k != "config_key" && k != "config_file" ==>
      Get(r.value.details, k) == Get(Given(kw.details), k)
  {
    BuildPairDetails(ErrorClass.ConfigurationError, ErrorCode.ConfigurationError, message,
                     WhenTruthy("config_key", configKey), WhenTruthy("config_file", configFile), kw, now);
    RecordedPairEmpty(WhenTruthy("config_key", configKey), WhenTruthy("config_file", configFile));
    Build(ErrorClass.ConfigurationError, ErrorCode.ConfigurationError, message,
          [WhenTruthy("config_key", configKey), WhenTruthy("config_file", configFile)], kw, now)
  }

  /** `CacheError(message, cache_key, operation, **kwargs)`: code E7000. */
  function NewCacheError(message: string, cacheKey: Value, operation: Value, kw: Kwargs,
                         now: string): (r: Result<Error, ConstructError>)
    ensures r.Ok? <==> kw.errorCode.None? && (kw.details == PassedNone ==> !Truthy(cacheKey) && !Truthy(operation))
    ensures r.Ok? ==> r.value.cls == ErrorClass.CacheError && r.value.code == ErrorCode.CacheError
    ensures r.Ok? ==> r.value.message == message && r.value.inner == kw.inner && r.value.timestamp == now
    ensures r.Ok? ==>
      Get(r.value.details, "cache_key") ==
        (if Truthy(cacheKey) then Some(cacheKey) else Get(Given(kw.details), "cache_key"))
    ensures r.Ok? ==>
      Get(r.value.details, "operation") ==
        (if Truthy(operation) then Some(operation) else Get(Given(kw.details), "operation"))
    ensures r.Ok? ==> forall k :: k != "cache_key" && k != "operation" ==>
      Get(r.value.details, k) == Get(Given(kw.details), k)
  {
    BuildPairDetails(ErrorClass.CacheError, ErrorCode.CacheError, message,
                     WhenTruthy("cache_key", cacheKey), WhenTruthy("operation", operation), kw, now);
    RecordedPairEmpty(WhenTruthy("cache_key", cacheKey), WhenTruthy("operation", operation));
    Build(ErrorClass.CacheError, ErrorCode.CacheError, message,
          [WhenTruthy("cache_key", cacheKey), WhenTruthy("operation", operation)], kw, now)
  }

  /** `NotFoundError(message, resource_type, resource_id, **kwargs)`: code E5000. */
  function NewNotFoundError(message: string, resourceType: Value, resourceId: Value, kw: Kwargs,
                            now: string): (r: Result<Error, ConstructError>)
    ensures r.Ok? <==> kw.errorCode.None? && (kw.details == PassedNone ==> !Truthy(resourceType) && !Truthy(resourceId))
    ensures r.Ok? ==> r.value.cls == NotFoundError && r.value.code == NotFound
    ensures r.Ok? ==> r.value.message == message && r.value.inner == kw.inner && r.value.timestamp == now
    ensures r.Ok? ==>
      Get(r.value.details, "resource_type") ==
        (if Truthy(resourceType) then Some(resourceType) else Get(Given(kw.details), "resource_type"))
    ensures r.Ok? ==>
      Get(r.value.details, "resource_id") ==
        (if Truthy(resourceId) then Some(resourceId) else Get(Given(kw.details), "resource_id"))
    ensures r.Ok? ==> forall k :: k != "resource_type" && k != "resource_id" ==>
      Get(r.value.details, k) == Get(Given(kw.details), k)
  {
    BuildPairDetails(NotFoundError, NotFound, message,
                     WhenTruthy("resource_type", resourceType), WhenTruthy("resource_id", resourceId), kw, now);
    RecordedPairEmpty(WhenTruthy("resource_type", resourceType), WhenTruthy("resource_id", resourceId));
    Build(NotFoundError, NotFound, message,
          [WhenTruthy("resource_type", resourceType), WhenTruthy("resource_id", resourceId)], kw, now)
  }

  const DefaultUnauthorizedMessage: string := "Unauthorized access"

  /** `UnauthorizedError(message="Unauthorized access", realm, **kwargs)`:
      code E4000. */
  function NewUnauthorizedError(message: Option<string>, realm: Value, kw: Kwargs,
                                now: string): (r: Result<Error, ConstructError>)
    ensures r.Ok? <==> kw.errorCode.None? && (kw.details == PassedNone ==> !Truthy(realm))
    ensures r.Ok? ==> r.value.cls == UnauthorizedError && r.value.code == Unauthorized
    ensures r.Ok? && message.None? ==> r.value.message == DefaultUnauthorizedMessage
    ensures r.Ok? ==> r.value.message == message.GetOr(DefaultUnauthorizedMessage) && r.value.inner == kw.inner
                      && r.value.timestamp == now
    ensures r.Ok? ==>
      Get(r.value.details, "realm") ==
        (if Truthy(realm) then Some(realm) else Get(Given(kw.details), "realm"))
    ensures r.Ok? ==> forall k :: k != "realm" ==> Get(r.value.details, k) == Get(Given(kw.details), k)
  {
    BuildOneDetails(UnauthorizedError, Unauthorized, message.GetOr(DefaultUnauthorizedMessage),
                     WhenTruthy("realm", realm), kw, now);
    Build(UnauthorizedError, Unauthorized, message.GetOr(DefaultUnauthorizedMessage),
          [WhenTruthy("realm", realm)], kw, now)
  }

  const DefaultForbiddenMessage: string := "Access forbidden"

  /** `ForbiddenError(message="Access forbidden", resource, action, **kwargs)`:
      code E4001. */
  function NewForbiddenError(message: Option<string>, resource: Value, action: Value, kw: Kwargs,
                             now: string): (r: Result<Error, ConstructError>)
    ensures r.Ok? <==> kw.errorCode.None? && (kw.details == PassedNone ==> !Truthy(resource) && !Truthy(action))
    ensures r.Ok? ==> r.value.cls == ForbiddenError && r.value.code == Forbidden
    ensures r.Ok? && message.None? ==> r.value.message == DefaultForbiddenMessage
    ensures r.Ok? ==> r.value.message == message.GetOr(DefaultForbiddenMessage)
                      && r.value.inner == kw.inner && r.value.timestamp == now
    ensures r.Ok? ==>
      Get(r.value.details, "resource") ==
        (if Truthy(resource) then Some(resource) else Get(Given(kw.details), "resource"))
    ensures r.Ok? ==>
      Get(r.value.details, "action") ==
        (if Truthy(action) then Some(action) else Get(Given(kw.details), "action"))
    ensures r.Ok? ==> forall k :: k != "resource" && k != "action" ==>
      Get(r.value.details, k) == Get(Given(kw.details), k)
  {
    BuildPairDetails(ForbiddenError, Forbidden, message.GetOr(DefaultForbiddenMessage),
                     WhenTruthy("resource", resource), WhenTruthy("action", action), kw, now);
    RecordedPairEmpty(WhenTruthy("resource", resource), WhenTruthy("action", action));
    Build(ForbiddenError, Forbidden, message.GetOr(DefaultForbiddenMessage),
          [WhenTruthy("resource", resource), WhenTruthy("action", action)], kw, now)
  }

  /** `DatabaseError(message, query, table, **kwargs)`: code E8000. */
  function NewDatabaseError(message: string, query: Value, table: Value, kw: Kwargs,
                            now: string): (r: Result<Error, ConstructError>)
    ensures r.Ok? <==> kw.errorCode.None? && (kw.details == PassedNone ==> !Truthy(query) && !Truthy(table))
    ensures r.Ok? ==> r.value.cls == ErrorClass.DatabaseError && r.value.code == ErrorCode.DatabaseError
    ensures r.Ok? ==> r.value.message == message && r.value.inner == kw.inner && r.value.timestamp == now
    ensures r.Ok? ==>
      Get(r.value.details, "query") ==
        (if Truthy(query) then Some(query) else Get(Given(kw.details), "query"))
    ensures r.Ok? ==>
      Get(r.value.details, "table") ==
        (if Truthy(table) then Some(table) else Get(Given(kw.details), "table"))
    ensures r.Ok? ==> forall k :: k != "query" && k != "table" ==> Get(r.value.details, k) == Get(Given(kw.details), k)
  {
    BuildPairDetails(ErrorClass.DatabaseError, ErrorCode.DatabaseError, message,
                     WhenTruthy("query", query), WhenTruthy("table", table), kw, now);
    RecordedPairEmpty(WhenTruthy("query", query), WhenTruthy("table", table));
    Build(ErrorClass.DatabaseError, ErrorCode.DatabaseError, message,
          [WhenTruthy("query", query), WhenTruthy("table", table)], kw, now)
  }

  // ---------------------------------------------------------------------------
  // Corrected API-error constructors
  // ---------------------------------------------------------------------------

  /** `APIError.__init__` as evidently intended: a subclass's `error_code`
      replaces the default E3000 instead of colliding with it. */
  function FixedApiInit(cls: ErrorClass, message: string, api: ApiArgs, kw: Kwargs, now: string): (r: Result<Error, ConstructError>)
    ensures r.Ok? <==> (kw.details == PassedNone ==> Recorded(ApiFields(api)) == [])
    ensures r.Ok? ==> r.value.cls == cls && r.value.code == kw.errorCode.GetOr(ErrorCode.ApiError)
  {
    Build(cls, kw.errorCode.GetOr(ErrorCode.ApiError), message, ApiFields(api), kw.(errorCode := None), now)
  }

  /** A subclass of the corrected `APIError`: its own arguments and the
      `APIError` arguments all end up in details, and its code is stamped. */
  function FixedApiSubclass(cls: ErrorClass, code: ErrorCode, message: string, own: seq<Field>, api: ApiArgs,
                            kw: Kwargs, now: string): (r: Result<Error, ConstructError>)
    ensures kw.details != PassedNone ==> r.Ok?
    ensures r.Ok? ==> r.value.cls == cls && r.value.code == code && r.value.message == message
    ensures r.Ok? && kw.details != PassedNone ==>
      r.value.details == Update(Update(Given(kw.details), Recorded(own)), Recorded(ApiFields(api)))
  {
    match Insert(Start(kw.details), own)
    case Err(e) => Err(e)
    case Ok(d) => FixedApiInit(cls, message, api, Kwargs(Forward(d), Some(code), kw.inner), now)
  }

  /** In a corrected subclass built from default details, each recorded
      argument of its own survives the `APIError` arguments, whose keys are
      all different. */
  lemma OwnFieldSurvives(own: seq<Field>, i: int, api: ApiArgs)
    requires FieldKeysDistinct(own)
    requires 0 <= i < |own| && own[i].recorded
    requires own[i].key !in ["status_code", "response_body", "request_id"]
    ensures Get(Update(Update([], Recorded(own)), Recorded(ApiFields(api))), own[i].key) == Some(own[i].value)
  {
    var k := own[i].key;
    var fs := ApiFields(api);
    var inner := Update([], Recorded(own));
    RecordedGet(own, i);
    RecordedWellFormed(own);
    UpdateGet([], Recorded(own));
    assert Get(inner, k) == Some(own[i].value);
    ApiFieldsKeyAbsent(api, k);
    RecordedWellFormed(fs);
    UpdateGet(inner, Recorded(fs));
  }

  /** The `APIError` arguments assign only their own three keys. */
  lemma ApiFieldsKeyAbsent(api: ApiArgs, k: string)
    requires k !in ["status_code", "response_body", "request_id"]
    ensures k !in Keys(Recorded(ApiFields(api)))
  {
    var fs := ApiFields(api);
    assert fs[0].key == "status_code" && fs[1].key == "response_body" && fs[2].key == "request_id";
    RecordedKeyAbsent(fs, k);
  }

  /** `RateLimitError(...)` once corrected: code E3001. */
  function FixedRateLimitError(message: string, retryAfter: Value, limit: Value, remaining: Value,
                               resetTime: Option<string>, api: ApiArgs, kw: Kwargs, now: string): (r: Result<Error, ConstructError>)
    ensures kw.details != PassedNone ==> r.Ok?
    ensures r.Ok? ==> r.value.cls == RateLimitError && r.value.code == RateLimitExceeded
  {
    FixedApiSubclass(RateLimitError, RateLimitExceeded, message, RateLimitFields(retryAfter, limit, remaining, resetTime),
                     api, kw, now)
  }

  /** The corrected `RateLimitError` records a `retry_after` of any value
      other than `None`, 0 included. */
  lemma FixedRateLimitRecordsRetryAfter(message: string, retryAfter: Value, limit: Value, remaining: Value,
                                        resetTime: Option<string>, api: ApiArgs, now: string)
    requires retryAfter != Null
    ensures var r := FixedRateLimitError(message, retryAfter, limit, remaining, resetTime, api, NoKwargs, now);
      r.Ok? && Get(r.value.details, "retry_after") == Some(retryAfter)
  {
    OwnFieldSurvives(RateLimitFields(retryAfter, limit, remaining, resetTime), 0, api);
  }

  /** `NetworkError(...)` once corrected: code E3002. */
  function FixedNetworkError(message: string, url: Value, timeout: Value, api: ApiArgs, kw: Kwargs,
                             now: string): (r: Result<Error, ConstructError>)
    ensures kw.details != PassedNone ==> r.Ok?
    ensures r.Ok? ==> r.value.cls == ErrorClass.NetworkError && r.value.code == ErrorCode.NetworkError
  {
    FixedApiSubclass(ErrorClass.NetworkError, ErrorCode.NetworkError, message, NetworkFields(url, timeout), api, kw, now)
  }

  /** The corrected `NetworkError` records a `timeout` of any value other
      than `None`. */
  lemma FixedNetworkRecordsTimeout(message: string, url: Value, timeout: Value, api: ApiArgs, now: string)
    requires timeout != Null
    ensures var r := FixedNetworkError(message, url, timeout, api, NoKwargs, now);
      r.Ok? && Get(r.value.details, "timeout") == Some(timeout)
  {
    OwnFieldSurvives(NetworkFields(url, timeout), 1, api);
  }

  /** `ServiceUnavailableError(...)` once corrected: code E3004. */
  function FixedServiceUnavailableError(message: Option<string>, serviceName: Value, retryAfter: Value,
                                        api: ApiArgs, kw: Kwargs, now: string): (r: Result<Error, ConstructError>)
    ensures kw.details != PassedNone ==> r.Ok?
    ensures r.Ok? ==> r.value.cls == ServiceUnavailableError && r.value.code == ServiceUnavailable
    ensures r.Ok? && message.None? ==> r.value.message == DefaultServiceUnavailableMessage
  {
    FixedApiSubclass(ServiceUnavailableError, ServiceUnavailable, message.GetOr(DefaultServiceUnavailableMessage),
                     ServiceUnavailableFields(serviceName, retryAfter), api, kw, now)
  }

  // ---------------------------------------------------------------------------
  // Rendering
  // ---------------------------------------------------------------------------

  /** The first part of `str(e)`: `[code] message`. */
  function Headline(e: Error): string {
    "[" + CodeValue(e.code) + "] " + e.message
  }

  /** The "Details: ..." part of `str(e)`. */
  function DetailsPart(e: Error, show: Dict<Value> -> string): string {
    "Details: " + show(e.details)
  }

  /** The "Caused by: T: text" part of `str(e)`. */
  function CausePart(e: Error): string
    requires e.inner.Some?
  {
    "Caused by: " + e.inner.value.typeName + ": " + e.inner.value.text
  }

  /** `str(e)`: the headline, then the details when there are any, then the
      wrapped exception when there is one, joined by " | ". `show` is
      Python's `repr` of a dict, which this model does not spell out. */
  function ErrorText(e: Error, show: Dict<Value> -> string): (r: string)
    ensures r == Headline(e)
      + (if |e.details| > 0 then " | " + DetailsPart(e, show) else "")
      + (if e.inner.Some? then " | " + CausePart(e) else "")
  {
    var cause := if e.inner.Some? then CausePart(e) else "";
    var parts := [Headline(e)]
      + (if |e.details| > 0 then [DetailsPart(e, show)] else [])
      + (if e.inner.Some? then [cause] else []);
    JoinOptional([Headline(e)], DetailsPart(e, show), |e.details| > 0, cause, e.inner.Some?, " | ");
    Join(parts, " | ")
  }

  /** How a wrapped exception appears in `to_dict()`. */
  function InnerObject(i: Inner): Value {
    Obj([("type", Str(i.typeName)), ("message", Str(i.text))])
  }

  /** The inner dict of `e.to_dict()["error"]`. */
  function ErrorObject(e: Error): (o: Dict<Value>)
    ensures Keys(o) == ["code", "message", "timestamp", "type"]
      + (if |e.details| > 0 then ["details"] else [])
      + (if e.inner.Some? then ["inner_error"] else [])
    ensures o[0] == ("code", Str(CodeValue(e.code)))
    ensures o[1] == ("message", Str(e.message))
    ensures o[3] == ("type", Str(ClassName(e.cls)))
    ensures |e.details| > 0 ==> o[4] == ("details", Obj(e.details))
  {
    [("code", Str(CodeValue(e.code))), ("message", Str(e.message)), ("timestamp", Str(e.timestamp)),
     ("type", Str(ClassName(e.cls)))]
    + (if |e.details| > 0 then [("details", Obj(e.details))] else [])
    + (if e.inner.Some? then [("inner_error", InnerObject(e.inner.value))] else [])
  }

  /** `e.to_dict()`. */
  function ToDict(e: Error): Value {
    Obj([("error", Obj(ErrorObject(e)))])
  }

  /** What `to_dict()` exposes: the code string (which parses back to the
      error's code), the message, the details exactly when there are any, and
      the wrapped exception exactly when there is one; these are the same
      conditions under which `str(e)` shows its Details and Caused-by parts. */
  lemma ToDictEntries(e: Error)
    ensures Get(ErrorObject(e), "code") == Some(Str(CodeValue(e.code)))
    ensures ParseCode(CodeValue(e.code)) == Some(e.code)
    ensures Get(ErrorObject(e), "message") == Some(Str(e.message))
    ensures "details" in Keys(ErrorObject(e)) <==> |e.details| > 0
    ensures |e.details| > 0 ==> Get(ErrorObject(e), "details") == Some(Obj(e.details))
    ensures "inner_error" in Keys(ErrorObject(e)) <==> e.inner.Some?
  {
    ParseCodeRoundTrip(e.code);
    var o := ErrorObject(e);
    GetFirst(o, 0, "code");
    GetFirst(o, 1, "message");
    if |e.details| > 0 {
      DetailsFound(e);
    }
    OptionalKeys(e);
  }

  /** The details entry comes after the four fixed entries, none of which
      is called "details". */
  lemma DetailsFound(e: Error)
    requires |e.details| > 0
    ensures Get(ErrorObject(e), "details") == Some(Obj(e.details))
  {
    var o := ErrorObject(e);
    assert Keys(o)[..4] == ["code", "message", "timestamp", "type"];
    assert forall j :: 0 <= j < 4 ==> o[j].0 == Keys(o)[..4][j];
    GetFirst(o, 4, "details");
  }

  /** The two optional keys are present exactly when their parts are. */
  lemma OptionalKeys(e: Error)
    ensures "details" in Keys(ErrorObject(e)) <==> |e.details| > 0
    ensures "inner_error" in Keys(ErrorObject(e)) <==> e.inner.Some?
  {
    var fixed: seq<string> := ["code", "message", "timestamp", "type"];
    var a: seq<string> := if |e.details| > 0 then ["details"] else [];
    var b: seq<string> := if e.inner.Some? then ["inner_error"] else [];
    assert Keys(ErrorObject(e)) == fixed + a + b;
    assert "details" !in fixed && "inner_error" !in fixed;
    assert "details" in fixed + a + b <==> "details" in a;
    assert "inner_error" in fixed + a + b <==> "inner_error" in b;
  }
}

=== FILE: instruction_loader.dfy ===
/** Per-tool usage instructions: a fixed table from tool name to template
    file, templates read from disk and stripped, and a generated fallback
    text for tools whose template is missing, unreadable or blank.

    The file system is a parameter `fs` from a template path to what reading
    it yields. Because it is a function, every read of one path gives the same
    answer, which is what the memoising cache around the reader guarantees
    while the files do not change. */
module InstructionLoader {
  import opened Options
  import opened Text
  import opened Dicts

  /** The paper tools. */
  const PaperTemplates: Dict<string> := [
    ("search_papers", "paper/search_papers.md"),
    ("get_paper", "paper/get_paper.md"),
    ("get_paper_citations", "paper/get_paper_citations.md"),
    ("get_paper_references", "paper/get_paper_references.md"),
    ("get_paper_authors", "paper/get_paper_authors.md"),
    ("batch_get_papers", "paper/batch_get_papers.md"),
    ("bulk_search_papers", "paper/bulk_search_papers.md"),
    ("search_papers_match", "paper/search_papers_match.md"),
    ("get_paper_with_embeddings", "paper/get_paper_with_embeddings.md"),
    ("search_papers_with_embeddings", "paper/search_papers_with_embeddings.md")
  ]

  /** The author tools. */
  const AuthorTemplates: Dict<string> := [
    ("search_authors", "author/search_authors.md"),
    ("get_author", "author/get_author.md"),
    ("get_author_papers", "author/get_author_papers.md"),
    ("batch_get_authors", "author/batch_get_authors.md")
  ]

  /** The dataset tools. */
  const DatasetTemplates: Dict<string> := [
    ("get_dataset_releases", "dataset/get_dataset_releases.md"),
    ("get_dataset_info", "dataset/get_dataset_info.md"),
    ("get_dataset_download_links", "dataset/get_dataset_download_links.md"),
    ("get_incremental_dataset_updates", "dataset/get_incremental_dataset_updates.md")
  ]

  /** The full-text tool, then the recommendation, autocomplete, snippet and
      key-status tools. */
  const OtherTemplates: Dict<string> := [
    ("get_paper_fulltext", "pdf/get_paper_fulltext.md"),
    ("get_recommendations_for_paper", "prompts/get_recommendations_for_paper.md"),
    ("get_recommendations_batch", "prompts/get_recommendations_batch.md"),
    ("autocomplete_query", "prompts/autocomplete_query.md"),
    ("search_snippets", "prompts/search_snippets.md"),
    ("check_api_key_status", "prompts/check_api_key_status.md")
  ]

  /** The tool-to-template table, in declaration order. */
  const TemplateMapping: Dict<string> := PaperTemplates + (AuthorTemplates + (DatasetTemplates + OtherTemplates))

  /** The table is a real dict: 24 tools, none listed twice. */
  lemma TemplateMappingWellFormed()
    ensures |TemplateMapping| == 24
    ensures WellFormed(TemplateMapping)
  {
    GroupsWellFormed();
    GroupsDisjoint();
    DisjointConcat(AuthorTemplates, DatasetTemplates, OtherTemplates);
    WellFormedConcat(DatasetTemplates, OtherTemplates);
    WellFormedConcat(AuthorTemplates, DatasetTemplates + OtherTemplates);
    DisjointConcat(PaperTemplates, AuthorTemplates, DatasetTemplates + OtherTemplates);
    WellFormedConcat(PaperTemplates, AuthorTemplates + (DatasetTemplates + OtherTemplates));
  }

  /** No group lists a tool twice. */
  lemma GroupsWellFormed()
    ensures WellFormed(PaperTemplates) && WellFormed(AuthorTemplates)
    ensures WellFormed(DatasetTemplates) && WellFormed(OtherTemplates)
  {
    PaperGroupWellFormed();
  }

  /** No paper tool is listed twice. */
  lemma PaperGroupWellFormed()
    ensures WellFormed(PaperTemplates)
  {
  }

  /** No tool appears in two groups. */
  lemma GroupsDisjoint()
    ensures Disjoint(PaperTemplates, AuthorTemplates) && Disjoint(PaperTemplates, DatasetTemplates + OtherTemplates)
    ensures Disjoint(AuthorTemplates, DatasetTemplates) && Disjoint(AuthorTemplates, OtherTemplates)
    ensures Disjoint(DatasetTemplates, OtherTemplates)
  {
    PaperGroupDisjoint();
    DisjointConcat(PaperTemplates, DatasetTemplates, OtherTemplates);
  }

  /** No paper tool appears among the dataset or other tools. */
  lemma PaperGroupDisjoint()
    ensures Disjoint(PaperTemplates, DatasetTemplates) && Disjoint(PaperTemplates, OtherTemplates)
  {
  }

  /** Every mapped tool has a non-empty template path. */
  lemma TemplatePathsNonEmpty()
    ensures forall i :: 0 <= i < |TemplateMapping| ==> |TemplateMapping[i].1| > 0
  {
  }

  const DefaultHead: string := "### Next Steps\n- Review the `"
  const DefaultTail: string :=
    "` output and capture follow-up questions.\n"
    + "- Ask for summaries or comparisons based on your goal.\n"
    + "- Run adjacent tools if you need supporting context.\n"

  /** The fallback instruction block naming the tool. */
  function DefaultInstruction(tool: string): (r: string)
    ensures |r| == |DefaultHead| + |tool| + |DefaultTail|
    ensures r[..|DefaultHead|] == DefaultHead
    ensures r[|DefaultHead|..|DefaultHead| + |tool|] == tool
    ensures r[|DefaultHead| + |tool|..] == DefaultTail
  {
    DefaultHead + tool + DefaultTail
  }

  /** Different tools get different fallback texts: the tool name can be read
      back out of its fallback. */
  lemma DefaultInstructionInjective(a: string, b: string)
    requires DefaultInstruction(a) == DefaultInstruction(b)
    ensures a == b
  {
    var ra := DefaultInstruction(a);
    assert |a| == |b|;
    assert a == ra[|DefaultHead|..|DefaultHead| + |a|];
  }

  /** What reading a template file yields. */
  datatype FileRead =
    | Missing                 // the path does not exist
    | Unreadable              // opening or decoding it raised
    | Contents(text: string)  // its full text

  /** Loading one template: its stripped text, or "" when the file is missing
      or cannot be read. */
  function LoadTemplate(fs: string -> FileRead, path: string): (r: string)
    ensures Trimmed(r)
    ensures r == "" <==> !fs(path).Contents? || AllSpace(fs(path).text)
    ensures fs(path).Contents? ==> r == Strip(fs(path).text)
  {
    match fs(path)
    case Missing => ""
    case Unreadable => ""
    case Contents(text) => Strip(text)
  }

  /** The instruction for `tool` under a given tool-to-template table. */
  function InstructionIn(table: Dict<string>, fs: string -> FileRead, tool: string): (r: string)
    ensures |r| > 0
    ensures Get(table, tool).None? ==> r == DefaultInstruction(tool)
    ensures Get(table, tool).Some? ==>
      var path := Get(table, tool).value;
      r == if path == "" || LoadTemplate(fs, path) == "" then DefaultInstruction(tool) else LoadTemplate(fs, path)
  {
    var path := Get(table, tool);
    if path.None? || path.value == "" then DefaultInstruction(tool)
    else
      var content := LoadTemplate(fs, path.value);
      if content == "" then DefaultInstruction(tool) else content
  }

  /** The instruction for one tool: the loaded template when the tool has a
      mapping and its template is non-blank, the fallback otherwise. The
      result is never empty. */
  function GetInstruction(fs: string -> FileRead, tool: string): (r: string)
    ensures |r| > 0
    ensures tool !in Keys(TemplateMapping) ==> r == DefaultInstruction(tool)
    ensures Get(TemplateMapping, tool).Some? ==>
      var path := Get(TemplateMapping, tool).value;
      r == if path == "" || LoadTemplate(fs, path) == "" then DefaultInstruction(tool) else LoadTemplate(fs, path)
  {
    InstructionIn(TemplateMapping, fs, tool)
  }

  /** Every tool's instruction is either the trimmed text of its own template
      or its fallback block. */
  lemma InstructionIsTemplateOrDefault(fs: string -> FileRead, tool: string)
    ensures var r := GetInstruction(fs, tool);
      || r == DefaultInstruction(tool)
      || (Trimmed(r) &&
          exists i :: 0 <= i < |TemplateMapping| && TemplateMapping[i].0 == tool
                      && fs(TemplateMapping[i].1).Contents? && r == Strip(fs(TemplateMapping[i].1).text))
  {
    TemplateMappingWellFormed();
    if tool in Keys(TemplateMapping) {
      var i :| 0 <= i < |TemplateMapping| && TemplateMapping[i].0 == tool;
      GetAt(TemplateMapping, i);
    }
  }

  /** What loading a whole table yields: one entry per table entry, in table
      order, each holding that tool's instruction. */
  function Loaded(table: Dict<string>, fs: string -> FileRead): (d: Dict<string>)
    ensures |d| == |table|
    ensures forall j :: 0 <= j < |table| ==> d[j] == (table[j].0, InstructionIn(table, fs, table[j].0))
  {
    seq(|table|, j requires 0 <= j < |table| => (table[j].0, InstructionIn(table, fs, table[j].0)))
  }

  /** Loading a well-formed table gives a well-formed dict with the same keys
      that answers every lookup as the single-tool lookup does. */
  lemma LoadedSpec(table: Dict<string>, fs: string -> FileRead)
    requires WellFormed(table)
    ensures Keys(Loaded(table, fs)) == Keys(table)
    ensures WellFormed(Loaded(table, fs))
    ensures forall tool ::
      Get(Loaded(table, fs), tool) == if tool in Keys(table) then Some(InstructionIn(table, fs, tool)) else None
  {
    var d := Loaded(table, fs);
    assert Keys(d) == Keys(table);
    forall tool ensures Get(d, tool) == if tool in Keys(table) then Some(InstructionIn(table, fs, tool)) else None {
      if tool in Keys(table) {
        var j :| 0 <= j < |d| && Keys(d)[j] == tool;
        GetAt(d, j);
      }
    }
  }

  /** The loop of `LoadToolInstructions` over any table without repeated
      tools or empty paths. The loop itself does not test for an empty path
      as the single-tool lookup does; the table has none. */
  method LoadAll(table: Dict<string>, fs: string -> FileRead) returns (d: Dict<string>)
    requires WellFormed(table)
    requires forall i :: 0 <= i < |table| ==> |table[i].1| > 0
    ensures d == Loaded(table, fs)
  {
    d := [];
    var i := 0;
    while i < |table|
      invariant 0 <= i <= |table|
      invariant d == Loaded(table, fs)[..i]
    {
      var (tool, path) := table[i];
      var content := LoadTemplate(fs, path);
      if content == "" {
        content := DefaultInstruction(tool);
      }
      LoadStep(table, fs, i, d, content);
      d := Set(d, tool, content);
      i := i + 1;
    }
  }

  /** One step of that loop: the next tool is new, and its entry is the
      next entry of the loaded table. */
  lemma LoadStep(table: Dict<string>, fs: string -> FileRead, i: int, d: Dict<string>, content: string)
    requires WellFormed(table)
    requires 0 <= i < |table| && |table[i].1| > 0
    requires d == Loaded(table, fs)[..i]
    requires content == (if LoadTemplate(fs, table[i].1) == "" then DefaultInstruction(table[i].0)
                         else LoadTemplate(fs, table[i].1))
    ensures Set(d, table[i].0, content) == Loaded(table, fs)[..i + 1]
  {
    var tool := table[i].0;
    var l := Loaded(table, fs);
    assert content == InstructionIn(table, fs, tool) by {
      GetAt(table, i);
    }
    assert l[i] == (tool, content);
    assert tool !in Keys(d) by {
      forall j | 0 <= j < i ensures Keys(d)[j] != tool {
        assert d[j] == l[j];
        assert table[j].0 != table[i].0;
      }
    }
    SetAppends(d, tool, content);
    PrefixSnoc(l, i);
  }

  /** A prefix one longer is the prefix followed by the next element. */
  lemma PrefixSnoc<T>(l: seq<T>, i: int)
    requires 0 <= i < |l|
    ensures l[..i + 1] == l[..i] + [l[i]]
  {
  }

  /** Building the instruction for every mapped tool at once: the result has
      exactly the mapped tools as keys, in table order, and agrees with
      `GetInstruction` on each of them. */
  method LoadToolInstructions(fs: string -> FileRead) returns (d: Dict<string>)
    ensures Keys(d) == Keys(TemplateMapping)
    ensures WellFormed(d)
    ensures forall tool :: Get(d, tool) == if tool in Keys(TemplateMapping) then Some(GetInstruction(fs, tool)) else None
  {
    TemplateMappingWellFormed();
    TemplatePathsNonEmpty();
    d := LoadAll(TemplateMapping, fs);
    LoadedSpec(TemplateMapping, fs);
  }
}

=== FILE: logging.dfy ===
/** Structured logging with per-logger context and request correlation.

    A `ContextLogger` carries a context dict that every call merges with its
    own keyword arguments before handing them to the standard library as
    `extra`. Three context variables (correlation id, request id, user id)
    hold the ids of the current request; two scoped helpers set them on entry
    and put back the previous values on exit, and the text formatter puts the
    present ids in front of each message.

    The standard library's `Logger.log`, level filtering, handlers and file
    rotation are outside this model: a log call is modelled up to the
    arguments it hands to `Logger.log`. */
module Logging {
  import opened Options
  import opened Text
  import opened Dicts
  import opened Values

  // ---------------------------------------------------------------------------
  // Levels
  // ---------------------------------------------------------------------------

  /** The standard library's numeric levels. */
  const Debug: int := 10
  const Info: int := 20
  const Warning: int := 30
  const Error: int := 40

  /** `logging.getLevelName` on the four levels the logger uses. */
  function LevelName(level: int): (r: string)
    ensures level == Debug ==> r == "DEBUG"
    ensures level == Info ==> r == "INFO"
    ensures level == Warning ==> r == "WARNING"
    ensures level == Error ==> r == "ERROR"
    ensures level !in {Debug, Info, Warning, Error} ==> r == "Level " + IntToString(level)
  {
    if level == Debug then "DEBUG"
    else if level == Info then "INFO"
    else if level == Warning then "WARNING"
    else if level == Error then "ERROR"
    else "Level " + IntToString(level)
  }

  // ---------------------------------------------------------------------------
  // ContextLogger
  // ---------------------------------------------------------------------------

  /** A named logger and the context attached to every record it emits. */
  datatype ContextLogger = ContextLogger(name: string, context: Dict<Value>)

  /** `ContextLogger(logger, context)`: a missing or empty context is `{}`. */
  function NewContextLogger(name: string, context: Option<Dict<Value>>): ContextLogger {
    ContextLogger(name, if context.Some? then context.value else [])
  }

  /** `with_context(**context)`: a new logger whose context is the old one
      overlaid with the new keys, new values winning. The receiver is a value
      and is therefore left as it was. Keyword arguments never repeat a
      name, hence the well-formedness of `ctx`. */
  function WithContext(l: ContextLogger, ctx: Dict<Value>): (r: ContextLogger)
    requires WellFormed(ctx)
    ensures r.name == l.name
    ensures forall k :: Get(r.context, k) == if k in Keys(ctx) then Get(ctx, k) else Get(l.context, k)
    ensures forall k :: k in Keys(r.context) <==> k in Keys(l.context) || k in Keys(ctx)
    ensures WellFormed(l.context) ==> WellFormed(r.context)
  {
    UpdateSpec(l.context, ctx);
    ContextLogger(l.name, Update(l.context, ctx))
  }

  /** The arguments a log call hands to `Logger.log`: level, message,
      `exc_info` (the exception object, whose type and traceback Python takes
      from it) and `extra`. */
  datatype Emitted = Emitted(level: int, message: string, excInfo: Option<Value>, extra: Dict<Value>)

  /** The exception a call attaches: the call's own `exception` keyword if it
      passes one, otherwise the context's, otherwise `None`. */
  function AttachedException(context: Dict<Value>, kwargs: Dict<Value>): Value {
    if "exception" in Keys(kwargs) then Get(kwargs, "exception").value
    else Get(context, "exception").GetOr(Null)
  }

  /** `_log(level, message, **kwargs)`: copy the context, overlay the call's
      keywords, pop `exception` and turn a truthy one into `exc_info`. A
      truthy `exception` that is not an exception object has no
      `__traceback__`, and the call fails with `AttributeError`. */
  function Log(l: ContextLogger, level: int, message: string, kwargs: Dict<Value>): (r: Result<Emitted, string>)
    requires WellFormed(kwargs)
    ensures var ex := AttachedException(l.context, kwargs);
      r.Err? <==> Truthy(ex) && !ex.Exc?
    ensures r.Err? ==> r.error == "AttributeError"
    ensures r.Ok? ==> r.value.level == level && r.value.message == message
    ensures r.Ok? ==> var ex := AttachedException(l.context, kwargs);
      r.value.excInfo == if Truthy(ex) then Some(ex) else None
    ensures r.Ok? ==> "exception" !in Keys(r.value.extra)
    ensures r.Ok? ==> forall k :: k != "exception" ==>
      Get(r.value.extra, k) == if k in Keys(kwargs) then Get(kwargs, k) else Get(l.context, k)
  {
    var extra := Update(l.context, kwargs);
    UpdateGet(l.context, kwargs);
    var ex := Get(extra, "exception").GetOr(Null);
    var rest := Remove(extra, "exception");
    RemoveSpec(extra, "exception");
    if !Truthy(ex) then Ok(Emitted(level, message, None, rest))
    else if ex.Exc? then Ok(Emitted(level, message, Some(ex), rest))
    else Err("AttributeError")
  }

  /** `debug(message, **kwargs)`. */
  function LogDebug(l: ContextLogger, message: string, kwargs: Dict<Value>): (r: Result<Emitted, string>)
    requires WellFormed(kwargs)
    ensures r.Ok? ==> LevelName(r.value.level) == "DEBUG"
  {
    Log(l, Debug, message, kwargs)
  }

  /** `info(message, **kwargs)`. */
  function LogInfo(l: ContextLogger, message: string, kwargs: Dict<Value>): (r: Result<Emitted, string>)
    requires WellFormed(kwargs)
    ensures r.Ok? ==> LevelName(r.value.level) == "INFO"
  {
    Log(l, Info, message, kwargs)
  }

  /** `warning(message, **kwargs)`. */
  function LogWarning(l: ContextLogger, message: string, kwargs: Dict<Value>): (r: Result<Emitted, string>)
    requires WellFormed(kwargs)
    ensures r.Ok? ==> LevelName(r.value.level) == "WARNING"
  {
    Log(l, Warning, message, kwargs)
  }

  /** `error(message, exception=None, **kwargs)`: a truthy `exception` is
      added to the keywords; a falsy one is dropped, so it does not override
      an `exception` already in the context. `exception` is a named
      parameter, so the remaining keywords cannot also carry it. */
  function LogError(l: ContextLogger, message: string, exception: Value, kwargs: Dict<Value>): (r: Result<Emitted, string>)
    requires WellFormed(kwargs) && "exception" !in Keys(kwargs)
    ensures r.Ok? ==> LevelName(r.value.level) == "ERROR"
    ensures Truthy(exception) ==> (r.Ok? <==> exception.Exc?)
    ensures r.Ok? && Truthy(exception) ==> r.value.excInfo == Some(exception)
  {
    if Truthy(exception) then
      WellFormedAppend(kwargs, "exception", exception);
      SetAppends(kwargs, "exception", exception);
      SetSpec(kwargs, "exception", exception);
      Log(l, Error, message, Set(kwargs, "exception", exception))
    else
      Log(l, Error, message, kwargs)
  }

  /** Appending a fresh key keeps a dict well formed. */
  lemma WellFormedAppend<V>(d: Dict<V>, k: string, v: V)
    requires WellFormed(d) && k !in Keys(d)
    ensures WellFormed(d + [(k, v)])
  {
    SetAppends(d, k, v);
    SetWellFormed(d, k, v);
  }

  /** `error(message, exception=e)` with a truthy `e` emits exactly what
      passing `exception=e` among the keywords of the level-40 call does. */
  lemma ErrorRoutesException(l: ContextLogger, message: string, e: Value, kwargs: Dict<Value>)
    requires WellFormed(kwargs) && "exception" !in Keys(kwargs)
    requires Truthy(e)
    ensures WellFormed(kwargs + [("exception", e)])
    ensures LogError(l, message, e, kwargs) == Log(l, Error, message, kwargs + [("exception", e)])
  {
    WellFormedAppend(kwargs, "exception", e);
    SetAppends(kwargs, "exception", e);
  }

  /** With a falsy `exception`, `error` attaches whatever exception the
      context holds, whereas passing `exception=None` as a keyword of the
      level-40 call would suppress it. */
  lemma ErrorFalsyExceptionUsesContext(l: ContextLogger, message: string, e: Value, kwargs: Dict<Value>)
    requires WellFormed(kwargs) && "exception" !in Keys(kwargs)
    requires !Truthy(e)
    ensures var r := LogError(l, message, e, kwargs);
      var c := Get(l.context, "exception").GetOr(Null);
      r.Ok? ==> r.value.excInfo == if Truthy(c) then Some(c) else None
  {
  }

  // ---------------------------------------------------------------------------
  // Context variables
  // ---------------------------------------------------------------------------

  /** The three context variables; each defaults to `None`. */
  datatype Var = CorrelationId | RequestId | UserId

  /** The values the three variables hold in the current context. */
  datatype State = State(correlationId: Option<string>, requestId: Option<string>, userId: Option<string>)

  const Unset: State := State(None, None, None)

  /** `var.get()`. */
  function Read(s: State, v: Var): Option<string> {
    match v
    case CorrelationId => s.correlationId
    case RequestId => s.requestId
    case UserId => s.userId
  }

  function Write(s: State, v: Var, x: Option<string>): (r: State)
    ensures Read(r, v) == x
    ensures forall w :: w != v ==> Read(r, w) == Read(s, w)
  {
    match v
    case CorrelationId => s.(correlationId := x)
    case RequestId => s.(requestId := x)
    case UserId => s.(userId := x)
  }

  /** What `var.set(value)` returns: which variable was set and what it held
      before. */
  datatype Token = Token(v: Var, prior: Option<string>)

  /** `var.set(value)`: the new state and the token for undoing it. */
  function SetVar(s: State, v: Var, x: string): (r: (State, Token))
    ensures Read(r.0, v) == Some(x)
    ensures forall w :: w != v ==> Read(r.0, w) == Read(s, w)
  {
    (Write(s, v, Some(x)), Token(v, Read(s, v)))
  }

  /** `token.var.reset(token)`: the variable gets back the value it had
      before the `set` that produced the token. */
  function ResetVar(s: State, t: Token): State {
    Write(s, t.v, t.prior)
  }

  /** Resetting with the token of the last `set` undoes that `set`. */
  lemma ResetUndoesSet(s: State, v: Var, x: string)
    ensures ResetVar(SetVar(s, v, x).0, SetVar(s, v, x).1) == s
  {
    var r := ResetVar(SetVar(s, v, x).0, SetVar(s, v, x).1);
    assert forall w :: Read(r, w) == Read(s, w);
    assert Read(r, CorrelationId) == Read(s, CorrelationId);
    assert Read(r, RequestId) == Read(s, RequestId);
    assert Read(r, UserId) == Read(s, UserId);
  }

  /** A run of `set` calls in order, collecting their tokens in order. */
  function SetAll(s: State, writes: seq<(Var, string)>): (r: (State, seq<Token>))
    ensures |r.1| == |writes|
    decreases |writes|
  {
    if |writes| == 0 then (s, [])
    else
      var (s1, ts) := SetAll(s, writes[..|writes| - 1]);
      var w := writes[|writes| - 1];
      var (s2, t) := SetVar(s1, w.0, w.1);
      (s2, ts + [t])
  }

  /** `for token in reversed(tokens): token.var.reset(token)`. */
  function ResetReversed(s: State, tokens: seq<Token>): State
    decreases |tokens|
  {
    if |tokens| == 0 then s
    else ResetReversed(ResetVar(s, tokens[|tokens| - 1]), tokens[..|tokens| - 1])
  }

  /** Resetting the tokens of any run of `set` calls in reverse order gives
      back the state before the run, even when one variable was set more
      than once. */
  lemma {:induction false} ResetReversedRestores(s: State, writes: seq<(Var, string)>)
    ensures ResetReversed(SetAll(s, writes).0, SetAll(s, writes).1) == s
    decreases |writes|
  {
    if |writes| > 0 {
      var front := writes[..|writes| - 1];
      var (s1, ts) := SetAll(s, front);
      var w := writes[|writes| - 1];
      var (s2, t) := SetVar(s1, w.0, w.1);
      var all := ts + [t];
      assert SetAll(s, writes) == (s2, all);
      assert all[|all| - 1] == t && all[..|all| - 1] == ts;
      ResetUndoesSet(s1, w.0, w.1);
      ResetReversedRestores(s, front);
    }
  }

  /** Python truthiness of an optional string: present and non-empty. */
  predicate Present(o: Option<string>) {
    o.Some? && |o.value| > 0
  }

  // ---------------------------------------------------------------------------
  // CorrelationContext
  // ---------------------------------------------------------------------------

  /** `CorrelationContext(correlation_id)`: the given id, or the fresh id
      `freshId` (standing for `uuid4()`) when it is missing or empty. */
  function NewCorrelationScope(correlationId: Option<string>, freshId: string): string {
    if Present(correlationId) then correlationId.value else freshId
  }

  /** `__enter__`: the state inside the scope, the token kept for `__exit__`,
      and the id the `with` statement binds. */
  function EnterCorrelation(id: string, s: State): (r: (State, Token, string))
    ensures r.2 == id && Read(r.0, CorrelationId) == Some(id)
    ensures Read(r.0, RequestId) == Read(s, RequestId) && Read(r.0, UserId) == Read(s, UserId)
  {
    var (s1, t) := SetVar(s, CorrelationId, id);
    (s1, t, id)
  }

  /** `__exit__`. */
  function ExitCorrelation(s: State, t: Token): State {
    ResetVar(s, t)
  }

  /** Leaving a correlation scope restores the correlation id that was
      current on entry, whether the caller gave an id or not. */
  lemma CorrelationScopeRestores(correlationId: Option<string>, freshId: string, s: State)
    ensures var id := NewCorrelationScope(correlationId, freshId);
      var (inside, t, bound) := EnterCorrelation(id, s);
      && bound == (if Present(correlationId) then correlationId.value else freshId)
      && Read(inside, CorrelationId) == Some(bound)
      && ExitCorrelation(inside, t) == s
  {
    ResetUndoesSet(s, CorrelationId, NewCorrelationScope(correlationId, freshId));
  }

  // ---------------------------------------------------------------------------
  // RequestContext
  // ---------------------------------------------------------------------------

  /** The ids a `RequestContext` settles on when constructed. */
  datatype RequestScope = RequestScope(requestId: string, userId: Option<string>, correlationId: string)

  /** `RequestContext(request_id, user_id, correlation_id)` constructed while
      the variables hold `current`; `freshRequest` and `freshCorrelation`
      stand for the two `uuid4()` calls. The correlation id falls back first
      to the current one, then to a fresh id. */
  function NewRequestScope(requestId: Option<string>, userId: Option<string>, correlationId: Option<string>,
                           current: State, freshRequest: string, freshCorrelation: string): RequestScope
  {
    RequestScope(
      if Present(requestId) then requestId.value else freshRequest,
      userId,
      if Present(correlationId) then correlationId.value
      else if Present(current.correlationId) then current.correlationId.value
      else freshCorrelation)
  }

  /** The `set` calls `__enter__` makes, in order: request id, correlation
      id, and the user id only when it is truthy. */
  function RequestWrites(scope: RequestScope): seq<(Var, string)> {
    [(RequestId, scope.requestId), (CorrelationId, scope.correlationId)]
      + (if Present(scope.userId) then [(UserId, scope.userId.value)] else [])
  }

  /** `__enter__`: the state inside the scope and the tokens it keeps. */
  function EnterRequest(scope: RequestScope, s: State): (r: (State, seq<Token>))
    ensures |r.1| == if Present(scope.userId) then 3 else 2
  {
    SetAll(s, RequestWrites(scope))
  }

  /** `__exit__`: reset every kept token, last first. */
  function ExitRequest(s: State, tokens: seq<Token>): State {
    ResetReversed(s, tokens)
  }

  /** Inside a request scope the request and correlation ids are the scope's,
      the correlation id being the explicit one, else the one current at
      construction, else a fresh one; the user id is the scope's only when
      one was given. */
  lemma EnterRequestSets(requestId: Option<string>, userId: Option<string>, correlationId: Option<string>,
                         s: State, freshRequest: string, freshCorrelation: string)
    ensures var scope := NewRequestScope(requestId, userId, correlationId, s, freshRequest, freshCorrelation);
      var inside := EnterRequest(scope, s).0;
      && Read(inside, RequestId) == Some(if Present(requestId) then requestId.value else freshRequest)
      && Read(inside, CorrelationId) == Some(
           if Present(correlationId) then correlationId.value
           else if Present(s.correlationId) then s.correlationId.value
           else freshCorrelation)
      && Read(inside, UserId) == if Present(userId) then userId else Read(s, UserId)
  {
    var scope := NewRequestScope(requestId, userId, correlationId, s, freshRequest, freshCorrelation);
    var ws := RequestWrites(scope);
    var s1 := SetVar(s, RequestId, scope.requestId).0;
    var s2 := SetVar(s1, CorrelationId, scope.correlationId).0;
    assert ws[..1] == [(RequestId, scope.requestId)];
    assert SetAll(s, ws[..1]).0 == s1 by {
      assert ws[..1][..0] == [];
    }
    assert ws[..2][..1] == ws[..1];
    assert SetAll(s, ws[..2]).0 == s2;
    if Present(userId) {
      assert ws[..2] == ws[..|ws| - 1];
    } else {
      assert ws == ws[..2];
    }
  }

  /** Leaving a request scope gives all three variables back the values they
      held on entry. */
  lemma RequestScopeRestores(scope: RequestScope, s: State)
    ensures var (inside, tokens) := EnterRequest(scope, s);
      ExitRequest(inside, tokens) == s
  {
    ResetReversedRestores(s, RequestWrites(scope));
  }

  // ---------------------------------------------------------------------------
  // TextFormatter
  // ---------------------------------------------------------------------------

  /** The `key=value` parts of the prefix, for the ids that are present, in
      the order correlation id, request id. The user id is never shown. */
  function ContextParts(s: State): seq<string> {
    (if Present(s.correlationId) then ["correlation_id=" + s.correlationId.value] else [])
      + (if Present(s.requestId) then ["request_id=" + s.requestId.value] else [])
  }

  /** The message as `TextFormatter.format` rewrites it: prefixed with the
      bracketed ids when context is included and at least one id is present,
      unchanged otherwise. */
  function FormatPrefix(includeContext: bool, s: State, msg: string): (r: string)
    ensures |r| >= |msg| && r[|r| - |msg|..] == msg
    ensures r == msg <==> !includeContext || (!Present(s.correlationId) && !Present(s.requestId))
  {
    var parts := ContextParts(s);
    if includeContext && |parts| > 0 then
      var r := "[" + Join(parts, " ") + "] " + msg;
      assert r[|r| - |msg|..] == msg;
      assert |r| > |msg|;
      r
    else msg
  }

  /** The prefix with both ids present: correlation id first, one space
      between. */
  lemma FormatPrefixBoth(s: State, msg: string)
    requires Present(s.correlationId) && Present(s.requestId)
    ensures FormatPrefix(true, s, msg)
      == "[" + (("correlation_id=" + s.correlationId.value) + " " + ("request_id=" + s.requestId.value)) + "] " + msg
  {
    var c := "correlation_id=" + s.correlationId.value;
    var q := "request_id=" + s.requestId.value;
    var parts := ContextParts(s);
    assert parts == [c, q];
    assert parts[1..] == [q];
    assert Join(parts, " ") == c + " " + q;
  }

  /** The prefix with only one id present names just that id. */
  lemma FormatPrefixSingle(s: State, msg: string)
    ensures Present(s.correlationId) && !Present(s.requestId) ==>
      FormatPrefix(true, s, msg) == "[correlation_id=" + s.correlationId.value + "] " + msg
    ensures !Present(s.correlationId) && Present(s.requestId) ==>
      FormatPrefix(true, s, msg) == "[request_id=" + s.requestId.value + "] " + msg
  {
  }

  /** `s.ljust(n)`, the `%-8s` conversion: `s` padded with spaces on the
      right to at least `n` characters. */
  function PadRight(s: string, n: nat): (r: string)
    ensures |r| == if |s| >= n then |s| else n
    ensures r[..|s|] == s
    ensures forall i :: |s| <= i < |r| ==> r[i] == ' '
  {
    if |s| >= n then s else s + seq(n - |s|, _ => ' ')
  }

  /** The line the text formatter produces for a record without a
      traceback: `asctime | levelname(padded to 8) | name | message`, where
      `asctime` is the record's time already rendered as
      `%Y-%m-%d %H:%M:%S`. */
  function PlainLine(asctime: string, level: int, name: string, message: string): (r: string)
    ensures |r| >= |asctime| + |name| + |message| + 17
    ensures r[..|asctime| + 3] == asctime + " | "
    ensures r[|r| - |message|..] == message
  {
    var r := asctime + " | " + PadRight(LevelName(level), 8) + " | " + name + " | " + message;
    assert r[..|asctime| + 3] == asctime + " | ";
    assert r[|r| - |message|..] == message;
    r
  }

  /** The line the text formatter produces. A record with `exc_info`
      carries the formatted traceback `excText` ("" for a record without
      one); the standard formatter appends it to the plain line, adding a
      line break only when that line does not already end with one. */
  function TextLine(asctime: string, level: int, name: string, message: string, excText: string): (r: string)
    ensures |r| >= |asctime| + |name| + |message| + |excText| + 17
    ensures r[..|asctime| + 3] == asctime + " | "
    ensures excText == [] ==> r == PlainLine(asctime, level, name, message)
    ensures excText != [] ==> |r| > |excText| && r[|r| - |excText|..] == excText
    ensures excText != [] ==>
      var plain := PlainLine(asctime, level, name, message);
      r[..|r| - |excText|] == plain + (if EndsWithNewline(plain) then [] else "\n")
  {
    var line := PlainLine(asctime, level, name, message);
    if excText == [] then line
    else
      var head := line + (if EndsWithNewline(line) then [] else "\n");
      var r := head + excText;
      assert r[..|asctime| + 3] == head[..|asctime| + 3] == line[..|asctime| + 3];
      assert r[..|r| - |excText|] == head && r[|r| - |excText|..] == excText;
      r
  }

  /** The text ends with a line break (`s[-1:] == "\n"`). */
  predicate EndsWithNewline(s: string) {
    |s| > 0 && s[|s| - 1] == '\n'
  }

  /** A record's line with a traceback extends its line without one: the
      message is still there, followed by a line break and the traceback. */
  lemma TextLineTraceback(asctime: string, level: int, name: string, message: string, excText: string)
    requires excText != []
    ensures var plain := PlainLine(asctime, level, name, message);
      var full := TextLine(asctime, level, name, message, excText);
      && |plain| < |full|
      && full[..|plain|] == plain
      && full[|plain| - |message|..|plain|] == message
      && full[|full| - |excText| - 1] == '\n'
  {
    var plain := PlainLine(asctime, level, name, message);
    var full := TextLine(asctime, level, name, message, excText);
    var head := full[..|full| - |excText|];
    assert head[..|plain|] == plain;
    assert full[..|plain|] == head[..|plain|];
    assert full[|plain| - |message|..|plain|] == plain[|plain| - |message|..];
    assert full[|full| - |excText| - 1] == head[|head| - 1];
  }

  // ---------------------------------------------------------------------------
  // Handlers
  // ---------------------------------------------------------------------------

  /** The logging configuration fields the root-logger setup reads. */
  datatype LoggingConfig = LoggingConfig(format: string, includeContext: bool, filePath: Option<string>)

  /** How many handlers the root logger gets: the console, plus the rotating
      file when a path is configured. The setup tests the path for
      truthiness; this model assumes that a configured path is truthy. */
  function HandlerCount(c: LoggingConfig): (n: nat)
    ensures n == 1 <==> c.filePath.None?
    ensures 1 <= n <= 2
  {
    if c.filePath.Some? then 2 else 1
  }

  /** Every handler formats the same record in turn, and the text formatter
      rewrites `record.msg` in place, so each handler starts from the message
      the previous one left behind. The texts the handlers write, in handler
      order. */
  function FormatOnHandlers(handlers: nat, includeContext: bool, s: State, msg: string): (outs: seq<string>)
    ensures |outs| == handlers
    decreases handlers
  {
    if handlers == 0 then []
    else
      var m := FormatPrefix(includeContext, s, msg);
      [m] + FormatOnHandlers(handlers - 1, includeContext, s, m)
  }

  /** As written: with a second handler configured and an id present, the
      second handler's text carries the prefix twice. */
  lemma SecondHandlerDoublePrefix(s: State, msg: string)
    requires Present(s.correlationId) || Present(s.requestId)
    ensures var outs := FormatOnHandlers(2, true, s, msg);
      && outs[1] == FormatPrefix(true, s, outs[0])
      && outs[1] != outs[0]
  {
    var outs := FormatOnHandlers(2, true, s, msg);
    assert outs[1] == FormatOnHandlers(1, true, s, outs[0])[0];
  }

  /** With only a correlation id set and a file handler configured, the
      console shows the message with one prefix and the file with two. */
  lemma FileHandlerDoublePrefix(c: string, msg: string)
    requires |c| > 0
    ensures var p := "[correlation_id=" + c + "] ";
      FormatOnHandlers(HandlerCount(LoggingConfig("text", true, Some("app.log"))), true, State(Some(c), None, None), msg)
        == [p + msg, p + (p + msg)]
  {
    var s := State(Some(c), None, None);
    var p := "[correlation_id=" + c + "] ";
    FormatPrefixSingle(s, msg);
    var once := FormatPrefix(true, s, msg);
    assert once == p + msg;
    FormatPrefixSingle(s, once);
    assert FormatPrefix(true, s, once) == p + once;
    assert HandlerCount(LoggingConfig("text", true, Some("app.log"))) == 2;
    assert FormatOnHandlers(1, true, s, once) == [p + once];
    assert FormatOnHandlers(2, true, s, msg) == [once] + FormatOnHandlers(1, true, s, once);
  }

  /** As intended: the formatter leaves the record alone, so each handler
      writes the prefixed message once. */
  function FixedFormatOnHandlers(handlers: nat, includeContext: bool, s: State, msg: string): (outs: seq<string>)
    ensures |outs| == handlers
    ensures forall i :: 0 <= i < handlers ==> outs[i] == FormatPrefix(includeContext, s, msg)
  {
    seq(handlers, _ => FormatPrefix(includeContext, s, msg))
  }

  /** With the fix every handler writes the same text, which is what the
      first handler writes as written. */
  lemma FixedHandlersAgree(handlers: nat, includeContext: bool, s: State, msg: string)
    requires handlers > 0
    ensures var fixed := FixedFormatOnHandlers(handlers, includeContext, s, msg);
      && (forall i, j :: 0 <= i < j < handlers ==> fixed[i] == fixed[j])
      && fixed[0] == FormatOnHandlers(handlers, includeContext, s, msg)[0]
  {
  }
}

=== FILE: options.dfy ===
/** Optional values and success-or-failure results, used in place of Python's
    `None` and of exceptions raised by constructors and validators. */
module Options {

  /** A Python `Optional[T]`: either `None` or a present value. */
  datatype Option<+T> = None | Some(value: T) {

    /** The value if present, `default` otherwise (`x if x is not None else default`). */
    function GetOr(default: T): T {
      match this
      case Some(v) => v
      case None => default
    }
  }

  /** The outcome of an operation that either produces a value or raises. */
  datatype Result<+T, +E> = Ok(value: T) | Err(error: E)
}

=== FILE: pagination.dfy ===
/** The generic paginated result container and its page count. */
module Pagination {
  import opened Options

  /** Python's `a // d`: the quotient rounded towards negative infinity, and
      `ZeroDivisionError` (here `None`) when `d` is zero. */
  function FloorDiv(a: int, d: int): (q: Option<int>)
    ensures q.None? <==> d == 0
    ensures d > 0 ==> q.Some? && q.value * d <= a < (q.value + 1) * d
    ensures d < 0 ==> q.Some? && (q.value + 1) * d < a <= q.value * d
  {
    if d == 0 then None
    else if d > 0 then Some(a / d)
    else Some((-a) / (-d))
  }

  /** One page of results out of `total`. */
  datatype PagedResult<T> = PagedResult(
    items: seq<T>,
    total: int,
    page: int,
    pageSize: int,
    hasNext: bool,
    hasPrevious: bool)
  {
    /** `total_pages`: the ceiling of `total / page_size`, computed as
        `(total + page_size - 1) // page_size`; a zero page size raises. */
    function TotalPages(): (n: Option<int>)
      ensures n.None? <==> pageSize == 0
    {
      FloorDiv(total + pageSize - 1, pageSize)
    }
  }

  /** For a positive page size the page count is the least number of pages
      that hold every item: `n` pages suffice and `n - 1` do not. */
  lemma TotalPagesIsCeiling<T>(p: PagedResult<T>)
    requires p.pageSize > 0
    ensures p.TotalPages().Some?
    ensures p.TotalPages().value * p.pageSize >= p.total
    ensures (p.TotalPages().value - 1) * p.pageSize < p.total
  {
  }

  /** No items means no pages, and a whole number of full pages means exactly
      that many pages. */
  lemma TotalPagesExact<T>(p: PagedResult<T>, k: int)
    requires p.pageSize > 0
    requires p.total == k * p.pageSize
    ensures p.TotalPages() == Some(k)
  {
    var n := p.TotalPages().value;
    TotalPagesIsCeiling(p);
    assert (n - k) * p.pageSize >= 0;
    assert (n - 1 - k) * p.pageSize < 0;
    PositiveFactor(n - k, p.pageSize);
    PositiveFactor(k + 1 - n, p.pageSize);
  }

  /** A product with a positive factor has the sign of the other factor. */
  lemma PositiveFactor(a: int, b: int)
    requires b > 0
    ensures a * b > 0 <==> a > 0
    ensures a * b >= 0 <==> a >= 0
  {
    if a > 0 {
      assert a * b >= b by { MultiplyGrows(a, b); }
    } else if a < 0 {
      assert (-a) * b >= b by { MultiplyGrows(-a, b); }
    }
  }

  lemma MultiplyGrows(a: int, b: int)
    requires a >= 1 && b > 0
    ensures a * b >= b
  {
    assert a * b == (a - 1) * b + b;
    assert (a - 1) * b >= 0;
  }

  /** More items never need fewer pages. */
  lemma TotalPagesMonotone<T>(p: PagedResult<T>, q: PagedResult<T>)
    requires p.pageSize == q.pageSize > 0
    requires p.total <= q.total
    ensures p.TotalPages().value <= q.TotalPages().value
  {
    var n := p.TotalPages().value;
    var m := q.TotalPages().value;
    TotalPagesIsCeiling(p);
    TotalPagesIsCeiling(q);
    assert (m - (n - 1)) * p.pageSize > 0;
    PositiveFactor(m - (n - 1), p.pageSize);
  }
}

=== FILE: server.dfy ===
/** The tool layer of the MCP server: what each tool returns to the client.

    Every tool answers with an envelope, `{"success": true, "data": ...}` or
    `{"success": false, "error": {...}}`. The Semantic Scholar client behind
    the tools is an oracle: a tool receives what the client call returned or
    the exception it raised (`Outcome`). Whether the client was initialised
    is a flag. The pydantic `model_dump` of a returned entity is a parameter
    `dump`, and the dict rendering inside `str(error)` is the parameter
    `show` of `Exceptions.ErrorText`. */
module Server {
  import opened Options
  import opened Text
  import opened Dicts
  import opened Values
  import opened Exceptions
  import opened DomainModels

  // ---------------------------------------------------------------------------
  // Raised exceptions and envelopes
  // ---------------------------------------------------------------------------

  /** An exception that reaches a tool's handlers. */
  datatype Raised =
    | Core(e: Error)                          // one of the server's own error classes
    | Other(typeName: string, text: string)   // anything else, e.g. pydantic's `ValidationError`

  /** What a client call did: returned a value or raised. */
  datatype Outcome<T> = Returned(value: T) | Threw(x: Raised)

  /** `str(x)`. */
  function RaisedText(x: Raised, show: Dict<Value> -> string): string {
    match x
    case Core(e) => ErrorText(e, show)
    case Other(_, text) => text
  }

  /** A tool's answer. A failure carries its `type`, its `message` and, for
      the server's own validation errors only, the error's details. */
  datatype Envelope =
    | Success(data: Value)
    | Failure(kind: string, message: string, details: Option<Dict<Value>>)

  /** The dict a tool returns. */
  function EnvelopeDict(env: Envelope): (d: Dict<Value>)
    ensures Keys(d) == ["success", if env.Success? then "data" else "error"]
    ensures d[0].1 == Bool(env.Success?)
    ensures env.Success? ==> d[1].1 == env.data
    ensures env.Failure? ==> && d[1].1.Obj?
                             && Keys(d[1].1.entries) == ["type", "message"] + (if env.details.Some? then ["details"] else [])
                             && d[1].1.entries[0].1 == Str(env.kind)
                             && d[1].1.entries[1].1 == Str(env.message)
                             && (env.details.Some? ==> d[1].1.entries[2].1 == Obj(env.details.value))
  {
    match env
    case Success(data) => [("success", Bool(true)), ("data", data)]
    case Failure(kind, message, details) =>
      [("success", Bool(false)),
       ("error", Obj([("type", Str(kind)), ("message", Str(message))]
                     + (if details.Some? then [("details", Obj(details.value))] else [])))]
  }

  /** The handlers of a tool: `except ValidationError` (only in the tools
      that have it, `validating`) turns the server's own validation error
      into a `validation_error` carrying its details; `except Exception`
      turns everything else into a plain `error` with the exception's text. */
  function Catch(x: Raised, validating: bool, show: Dict<Value> -> string): (env: Envelope)
    ensures env.Failure? && env.message == RaisedText(x, show)
    ensures env.kind == "validation_error" <==> validating && x.Core? && x.e.cls == ErrorClass.ValidationError
    ensures env.kind != "validation_error" ==> env.kind == "error"
    ensures env.details.Some? <==> env.kind == "validation_error"
    ensures env.details.Some? ==> env.details.value == x.e.details
  {
    if validating && x.Core? && x.e.cls == ErrorClass.ValidationError then
      Failure("validation_error", ErrorText(x.e, show), Some(x.e.details))
    else
      Failure("error", RaisedText(x, show), None)
  }

  /** The error dict of a caught exception: `type` and `message` always,
      `details` exactly for a validation error. */
  lemma CaughtErrorShape(x: Raised, validating: bool, show: Dict<Value> -> string)
    ensures var d := EnvelopeDict(Catch(x, validating, show));
      var isValidation := validating && x.Core? && x.e.cls == ErrorClass.ValidationError;
      && d[0] == ("success", Bool(false))
      && d[1].1.Obj?
      && Keys(d[1].1.entries) == ["type", "message"] + (if isValidation then ["details"] else [])
      && d[1].1.entries[0].1 == Str(if isValidation then "validation_error" else "error")
      && d[1].1.entries[1].1 == Str(RaisedText(x, show))
  {
  }

  /** What `async with api_client` raises when the client is `None`: a
      `TypeError` from Python 3.11 on (an `AttributeError` before). Either
      way the tools answer with a plain "error" carrying its text. */
  const NoClient: Raised := Other("TypeError", "'NoneType' object does not support the asynchronous context manager protocol")

  /** What `search_papers` raises when the client is `None`. */
  const NotInitialised: Raised := Other("RuntimeError", "API client not initialized")

  // ---------------------------------------------------------------------------
  // Success payloads
  // ---------------------------------------------------------------------------

  /** A paginated client result. */
  datatype Page<T> = Page(items: seq<T>, total: int, offset: int, limit: int, hasMore: bool)

  /** `[dump(x) for x in items]`. */
  function Dumped<T>(items: seq<T>, dump: T -> Value): (vs: seq<Value>)
    ensures |vs| == |items|
    ensures forall i :: 0 <= i < |items| ==> vs[i] == dump(items[i])
  {
    seq(|items|, i requires 0 <= i < |items| => dump(items[i]))
  }

  /** The data of a paginated answer: the dumped items under `key`, then the
      page's total, offset, limit and has_more. */
  function PageData<T>(key: string, page: Page<T>, dump: T -> Value): Value {
    Obj([(key, List(Dumped(page.items, dump))), ("total", Int(page.total)), ("offset", Int(page.offset)),
         ("limit", Int(page.limit)), ("has_more", Bool(page.hasMore))])
  }

  /** A paginated answer holds the item list and the four counters, each
      once. */
  lemma PageDataKeys<T>(key: string, page: Page<T>, dump: T -> Value)
    requires key !in ["total", "offset", "limit", "has_more"]
    ensures var d := PageData(key, page, dump).entries;
      Keys(d) == [key, "total", "offset", "limit", "has_more"] && WellFormed(d)
  {
  }

  /** A paginated answer copies the page's counters unchanged and holds one
      entry per item. */
  lemma PageDataCopies<T>(key: string, page: Page<T>, dump: T -> Value)
    requires key !in ["total", "offset", "limit", "has_more"]
    ensures var d := PageData(key, page, dump).entries;
      && Get(d, "total") == Some(Int(page.total))
      && Get(d, "offset") == Some(Int(page.offset))
      && Get(d, "limit") == Some(Int(page.limit))
      && Get(d, "has_more") == Some(Bool(page.hasMore))
      && Get(d, key) == Some(List(Dumped(page.items, dump)))
  {
    var d := PageData(key, page, dump).entries;
    PageDataKeys(key, page, dump);
    GetAt(d, 0);
    GetAt(d, 1);
    GetAt(d, 2);
    GetAt(d, 3);
    GetAt(d, 4);
  }

  /** The data of a list answer: the dumped items under `key` and their
      number under `count`. */
  function ListData<T>(key: string, items: seq<T>, dump: T -> Value): Value {
    Obj([(key, List(Dumped(items, dump))), ("count", Int(|items|))])
  }

  /** A list answer's count is the number of entries it holds. */
  lemma ListDataCounts<T>(key: string, items: seq<T>, dump: T -> Value)
    requires key != "count"
    ensures var d := ListData(key, items, dump).entries;
      && Keys(d) == [key, "count"]
      && Get(d, key).Some? && Get(d, key).value.List?
      && Get(d, "count") == Some(Int(|Get(d, key).value.items|))
  {
    var d := ListData(key, items, dump).entries;
    GetFirst(d, 0, key);
    GetFirst(d, 1, "count");
  }

  /** The common body of the client-backed tools: no client raises,
      otherwise the client's answer is rendered or its exception caught. */
  function Answer<T>(clientReady: bool, call: Outcome<T>, render: T -> Value, validating: bool,
                     show: Dict<Value> -> string): (env: Envelope)
    ensures !clientReady ==> env == Catch(NoClient, validating, show)
    ensures clientReady && call.Threw? ==> env == Catch(call.x, validating, show)
    ensures clientReady && call.Returned? ==> env == Success(render(call.value))
  {
    if !clientReady then Catch(NoClient, validating, show)
    else match call
      case Threw(x) => Catch(x, validating, show)
      case Returned(v) => Success(render(v))
  }

  // ---------------------------------------------------------------------------
  // search_papers
  // ---------------------------------------------------------------------------

  /** `if year` with an optional int: present and not 0. */
  predicate YearGiven(year: Option<int>) {
    year.Some? && year.value != 0
  }

  /** `if fields_of_study` with an optional list: present and non-empty. */
  predicate FieldsGiven(fieldsOfStudy: Option<seq<string>>) {
    fieldsOfStudy.Some? && |fieldsOfStudy.value| > 0
  }

  /** The query `search_papers` builds: the validated `SearchQuery`, with
      filters attached only when a year or fields of study were given (the
      assignment is not validated). The filters are built with the keyword
      `fields_of_study`, which is not that field's alias `fieldsOfStudy`, so
      pydantic ignores it: the attached filters hold the year and no fields
      of study. */
  function BuildSearchQuery(query: string, limit: int, offset: int, year: Option<int>,
                            fieldsOfStudy: Option<seq<string>>, sort: Option<string>): (r: Result<SearchQuery, seq<FieldError>>)
    ensures r.Ok? <==> !AllSpace(query) && 0 <= offset && 1 <= limit <= MaxLimit
    ensures r.Err? ==> |r.error| > 0
    ensures r.Ok? ==> && r.value.query == Strip(query) && r.value.limit == limit && r.value.offset == offset
                      && r.value.sort == sort && r.value.fields.None?
    ensures r.Ok? ==> (r.value.filters.Some? <==> YearGiven(year) || FieldsGiven(fieldsOfStudy))
    ensures r.Ok? && r.value.filters.Some? ==>
      r.value.filters.value.year == year && r.value.filters.value.fieldsOfStudy.None?
  {
    match NewSearchQuery(SearchQuery(query, None, None, offset, limit, sort))
    case Err(es) => Err(es)
    case Ok(sq) =>
      if YearGiven(year) || FieldsGiven(fieldsOfStudy) then Ok(sq.(filters := Some(FiltersOf(year, None))))
      else Ok(sq)
  }

  /** The query `search_papers` evidently means to build: the same, with the
      fields of study passed under their alias, so the filters keep them. */
  function FixedBuildSearchQuery(query: string, limit: int, offset: int, year: Option<int>,
                                 fieldsOfStudy: Option<seq<string>>, sort: Option<string>): (r: Result<SearchQuery, seq<FieldError>>)
    ensures r.Ok? <==> !AllSpace(query) && 0 <= offset && 1 <= limit <= MaxLimit
    ensures r.Ok? ==> && r.value.query == Strip(query) && r.value.limit == limit && r.value.offset == offset
                      && r.value.sort == sort && r.value.fields.None?
    ensures r.Ok? ==> (r.value.filters.Some? <==> YearGiven(year) || FieldsGiven(fieldsOfStudy))
    ensures r.Ok? && r.value.filters.Some? ==>
      r.value.filters.value.year == year && r.value.filters.value.fieldsOfStudy == fieldsOfStudy
  {
    match BuildSearchQuery(query, limit, offset, year, fieldsOfStudy, sort)
    case Err(es) => Err(es)
    case Ok(sq) =>
      if sq.filters.Some? then Ok(sq.(filters := Some(FiltersOf(year, fieldsOfStudy)))) else Ok(sq)
  }

  /** As written, a non-empty list of fields of study attaches filters that
      do not hold it; the corrected query differs from the written one in
      exactly that field. */
  lemma SearchFiltersDropFields(query: string, limit: int, offset: int, year: Option<int>,
                                fieldsOfStudy: Option<seq<string>>, sort: Option<string>)
    requires !AllSpace(query) && 0 <= offset && 1 <= limit <= MaxLimit
    requires FieldsGiven(fieldsOfStudy)
    ensures var written := BuildSearchQuery(query, limit, offset, year, fieldsOfStudy, sort).value;
      var fixed := FixedBuildSearchQuery(query, limit, offset, year, fieldsOfStudy, sort).value;
      && written.filters.Some? && written.filters.value.fieldsOfStudy.None?
      && fixed.filters.Some? && fixed.filters.value.fieldsOfStudy == fieldsOfStudy
      && fixed == written.(filters := Some(written.filters.value.(fieldsOfStudy := fieldsOfStudy)))
  {
  }

  /** `search_papers(...)`. An invalid query raises pydantic's own
      `ValidationError` (whose text is `pydanticText`), which is not the
      server's, so it becomes a plain `error`. */
  function SearchPapers<T>(query: string, limit: int, offset: int, year: Option<int>,
                           fieldsOfStudy: Option<seq<string>>, sort: Option<string>,
                           clientReady: bool, search: SearchQuery -> Outcome<Page<T>>, dump: T -> Value,
                           show: Dict<Value> -> string, pydanticText: seq<FieldError> -> string): (env: Envelope)
    ensures BuildSearchQuery(query, limit, offset, year, fieldsOfStudy, sort).Err? ==>
      env == Failure("error", pydanticText(BuildSearchQuery(query, limit, offset, year, fieldsOfStudy, sort).error), None)
    ensures BuildSearchQuery(query, limit, offset, year, fieldsOfStudy, sort).Ok? && !clientReady ==>
      env == Failure("error", "API client not initialized", None)
    ensures env.Success? ==> && clientReady
                             && var sq := BuildSearchQuery(query, limit, offset, year, fieldsOfStudy, sort);
                                sq.Ok? && search(sq.value).Returned?
                                && env.data == PageData("papers", search(sq.value).value, dump)
    ensures var sq := BuildSearchQuery(query, limit, offset, year, fieldsOfStudy, sort);
      sq.Ok? && clientReady && search(sq.value).Returned? ==>
        env == Success(PageData("papers", search(sq.value).value, dump))
    ensures var sq := BuildSearchQuery(query, limit, offset, year, fieldsOfStudy, sort);
      sq.Ok? && clientReady && search(sq.value).Threw? ==> env == Catch(search(sq.value).x, true, show)
  {
    match BuildSearchQuery(query, limit, offset, year, fieldsOfStudy, sort)
    case Err(es) => Catch(Other("ValidationError", pydanticText(es)), true, show)
    case Ok(sq) =>
      if !clientReady then Catch(NotInitialised, true, show)
      else match search(sq)
        case Threw(x) => Catch(x, true, show)
        case Returned(page) => Success(PageData("papers", page, dump))
  }

  /** An invalid query is answered without consulting the client. */
  lemma SearchPapersRejectsBeforeSearch<T>(query: string, limit: int, offset: int, year: Option<int>,
                                          fieldsOfStudy: Option<seq<string>>, sort: Option<string>,
                                          ready1: bool, search1: SearchQuery -> Outcome<Page<T>>,
                                          ready2: bool, search2: SearchQuery -> Outcome<Page<T>>,
                                          dump: T -> Value, show: Dict<Value> -> string,
                                          pydanticText: seq<FieldError> -> string)
    requires AllSpace(query) || offset < 0 || limit < 1 || limit > MaxLimit
    ensures SearchPapers(query, limit, offset, year, fieldsOfStudy, sort, ready1, search1, dump, show, pydanticText)
         == SearchPapers(query, limit, offset, year, fieldsOfStudy, sort, ready2, search2, dump, show, pydanticText)
    ensures SearchPapers(query, limit, offset, year, fieldsOfStudy, sort, ready1, search1, dump, show, pydanticText).kind
         == "error"
  {
  }

  // ---------------------------------------------------------------------------
  // The other client-backed tools
  // ---------------------------------------------------------------------------

  /** `get_paper(paper_id, ...)`: the dumped paper. */
  function GetPaper<T>(clientReady: bool, call: Outcome<T>, dump: T -> Value,
                       show: Dict<Value> -> string): (env: Envelope)
    ensures env.Success? ==> clientReady && call.Returned? && env.data == dump(call.value)
    ensures env.Failure? && env.kind == "validation_error" ==>
      clientReady && call.Threw? && call.x.Core? && call.x.e.cls == ErrorClass.ValidationError
    ensures !clientReady ==> env == Failure("error", RaisedText(NoClient, show), None)
    ensures clientReady && call.Threw? ==> env == Catch(call.x, true, show)
    ensures clientReady && call.Returned? ==> env == Success(dump(call.value))
  {
    Answer(clientReady, call, dump, true, show)
  }

  /** `get_author(author_id)`: the dumped author; no validation branch. */
  function GetAuthor<T>(clientReady: bool, call: Outcome<T>, dump: T -> Value,
                        show: Dict<Value> -> string): (env: Envelope)
    ensures env.Success? ==> clientReady && call.Returned? && env.data == dump(call.value)
    ensures env.Failure? ==> env.kind == "error" && env.details.None?
    ensures !clientReady ==> env == Failure("error", RaisedText(NoClient, show), None)
    ensures clientReady && call.Threw? ==> env == Failure("error", RaisedText(call.x, show), None)
    ensures clientReady && call.Returned? ==> env == Success(dump(call.value))
  {
    Answer(clientReady, call, dump, false, show)
  }

  /** `get_paper_citations`, `get_paper_references` and
      `get_recommendations`: the dumped list under `key` with its count; no
      validation branch. */
  function ListTool<T>(key: string, clientReady: bool, call: Outcome<seq<T>>, dump: T -> Value,
                       show: Dict<Value> -> string): (env: Envelope)
    ensures env.Success? ==> clientReady && call.Returned? && env.data == ListData(key, call.value, dump)
    ensures env.Failure? ==> env.kind == "error" && env.details.None?
    ensures !clientReady ==> env == Failure("error", RaisedText(NoClient, show), None)
    ensures clientReady && call.Threw? ==> env == Failure("error", RaisedText(call.x, show), None)
    ensures clientReady && call.Returned? ==> env == Success(ListData(key, call.value, dump))
  {
    Answer(clientReady, call, (items: seq<T>) => ListData(key, items, dump), false, show)
  }

  /** `get_author_papers` (key "papers") and `search_authors` (key
      "authors"): the dumped page; no validation branch. */
  function PageTool<T>(key: string, clientReady: bool, call: Outcome<Page<T>>, dump: T -> Value,
                       show: Dict<Value> -> string): (env: Envelope)
    ensures env.Success? ==> clientReady && call.Returned? && env.data == PageData(key, call.value, dump)
    ensures env.Failure? ==> env.kind == "error" && env.details.None?
    ensures !clientReady ==> env == Failure("error", RaisedText(NoClient, show), None)
    ensures clientReady && call.Threw? ==> env == Failure("error", RaisedText(call.x, show), None)
    ensures clientReady && call.Returned? ==> env == Success(PageData(key, call.value, dump))
  {
    Answer(clientReady, call, (page: Page<T>) => PageData(key, page, dump), false, show)
  }

  // ---------------------------------------------------------------------------
  // batch_get_papers
  // ---------------------------------------------------------------------------

  /** The most paper ids one batch may ask for. */
  const MaxBatch: int := 500

  /** The error `batch_get_papers` raises for too many ids. */
  function TooManyIds(count: int, now: string): (e: Error)
    ensures e.cls == ErrorClass.ValidationError && e.message == "Too many paper IDs"
    ensures e.details == [("field", Str("paper_ids")), ("value", Int(count))]
  {
    TooManyIdsDetails(count);
    NewValidationError("Too many paper IDs", Str("paper_ids"), Int(count), Null, NoKwargs, now).value
  }

  /** The details of that error: the field name, then the count. */
  lemma TooManyIdsDetails(count: int)
    ensures Update([], Recorded(ValidationFields(Str("paper_ids"), Int(count), Null)))
      == [("field", Str("paper_ids")), ("value", Int(count))]
  {
    var d: Dict<Value> := [("field", Str("paper_ids")), ("value", Int(count))];
    var first: Dict<Value> := [("field", Str("paper_ids"))];
    var second: Dict<Value> := [("value", Int(count))];
    TooManyIdsRecorded(count);
    assert d[1..] == second && second[1..] == [];
    assert Set([], "field", Str("paper_ids")) == first;
    assert first[1..] == [];
    assert Set(first, "value", Int(count)) == [first[0]] + Set([], "value", Int(count)) == d;
    assert Update(first, second) == Update(d, []);
  }

  /** The arguments that error records: `field` and `value`, not the
      missing `validation_errors`. */
  lemma TooManyIdsRecorded(count: int)
    ensures Recorded(ValidationFields(Str("paper_ids"), Int(count), Null))
      == [("field", Str("paper_ids")), ("value", Int(count))]
  {
    var fs := ValidationFields(Str("paper_ids"), Int(count), Null);
    var t1 := fs[1..];
    var t2 := t1[1..];
    assert t2 == [WhenTruthy("validation_errors", Null)] && t2[1..] == [];
    assert Recorded(t2) == [];
    assert Recorded(t1) == [("value", Int(count))] + Recorded(t2);
  }

  /** `batch_get_papers(paper_ids, fields)`. */
  function BatchGetPapers<T>(paperIds: seq<string>, fields: Option<seq<string>>, clientReady: bool,
                             batch: (seq<string>, Option<seq<string>>) -> Outcome<seq<T>>, dump: T -> Value,
                             now: string, show: Dict<Value> -> string): (env: Envelope)
    ensures |paperIds| > MaxBatch ==>
      env == Failure("validation_error", ErrorText(TooManyIds(|paperIds|, now), show),
                     Some([("field", Str("paper_ids")), ("value", Int(|paperIds|))]))
    ensures |paperIds| <= MaxBatch && clientReady && batch(paperIds, fields).Returned? ==>
      env == Success(ListData("papers", batch(paperIds, fields).value, dump))
    ensures |paperIds| <= MaxBatch && !clientReady ==> env == Failure("error", RaisedText(NoClient, show), None)
    ensures |paperIds| <= MaxBatch && clientReady && batch(paperIds, fields).Threw? ==>
      env == Catch(batch(paperIds, fields).x, true, show)
    ensures env.Success? ==> |paperIds| <= MaxBatch && clientReady && batch(paperIds, fields).Returned?
  {
    if |paperIds| > MaxBatch then Catch(Core(TooManyIds(|paperIds|, now)), true, show)
    else
      Answer(clientReady, if clientReady then batch(paperIds, fields) else Returned([]),
             (items: seq<T>) => ListData("papers", items, dump), true, show)
  }

  /** More than 500 ids are refused whatever the client would do; exactly
      500 pass the guard and reach the client. */
  lemma BatchGuard<T>(paperIds: seq<string>, fields: Option<seq<string>>,
                      ready1: bool, batch1: (seq<string>, Option<seq<string>>) -> Outcome<seq<T>>,
                      ready2: bool, batch2: (seq<string>, Option<seq<string>>) -> Outcome<seq<T>>,
                      dump: T -> Value, now: string, show: Dict<Value> -> string)
    ensures |paperIds| > MaxBatch ==>
      BatchGetPapers(paperIds, fields, ready1, batch1, dump, now, show)
        == BatchGetPapers(paperIds, fields, ready2, batch2, dump, now, show)
    ensures |paperIds| == MaxBatch && ready1 ==>
      BatchGetPapers(paperIds, fields, ready1, batch1, dump, now, show)
        == Answer(true, batch1(paperIds, fields), (items: seq<T>) => ListData("papers", items, dump), true, show)
  {
  }

  // ---------------------------------------------------------------------------
  // health_check
  // ---------------------------------------------------------------------------

  /** `health_check()`: without a client, an `initialization_error`;
      otherwise the client's health status or the caught exception. */
  function HealthCheck(clientReady: bool, call: Outcome<Value>, show: Dict<Value> -> string): (env: Envelope)
    ensures !clientReady ==> env == Failure("initialization_error", "API client not initialized", None)
    ensures env.Success? ==> clientReady && call.Returned? && env.data == call.value
    ensures clientReady && env.Failure? ==> env.kind == "error"
    ensures clientReady && call.Returned? ==> env == Success(call.value)
    ensures clientReady && call.Threw? ==> env == Failure("error", RaisedText(call.x, show), None)
  {
    if !clientReady then Failure("initialization_error", "API client not initialized", None)
    else match call
      case Threw(x) => Catch(x, false, show)
      case Returned(v) => Success(v)
  }

  // ---------------------------------------------------------------------------
  // Resources: papers and authors as markdown
  // ---------------------------------------------------------------------------

  /** Python truthiness of an optional string: present and non-empty. */
  predicate NonEmpty(o: Option<string>) {
    o.Some? && |o.value| > 0
  }

  /** `o or fallback` for an optional string. */
  function OrText(o: Option<string>, fallback: string): (r: string)
    ensures NonEmpty(o) ==> r == o.value
    ensures !NonEmpty(o) ==> r == fallback
  {
    if NonEmpty(o) then o.value else fallback
  }

  /** An f-string field holding an optional int: `None` prints as "None". */
  function OptIntText(o: Option<int>): string {
    if o.Some? then IntToString(o.value) else "None"
  }

  /** `o or 0` / `o or 'N/A'` for an optional int: `None` and 0 both take
      the fallback. */
  function OrInt(o: Option<int>, fallback: string): (r: string)
    ensures o == None || o == Some(0) ==> r == fallback
    ensures o.Some? && o.value != 0 ==> r == IntToString(o.value)
  {
    if o.Some? && o.value != 0 then IntToString(o.value) else fallback
  }

  /** The author names of a paper. */
  function AuthorNames(authors: seq<Author>): (names: seq<string>)
    ensures |names| == |authors|
    ensures forall i :: 0 <= i < |authors| ==> names[i] == authors[i].name
  {
    seq(|authors|, i requires 0 <= i < |authors| => authors[i].name)
  }

  /** The fixed lines of a paper's markdown, before the optional URL line. */
  function PaperHead(p: Paper): (lines: seq<string>)
    ensures |lines| == 10
    ensures lines[4] == "**Venue**: " + OrText(p.venue, "N/A")
    ensures lines[8] == OrText(p.abstractText, "No abstract available.")
  {
    ["# " + p.title,
     "",
     "**Authors**: " + Join(AuthorNames(p.authors), ", "),
     "**Year**: " + OptIntText(p.year),
     "**Venue**: " + OrText(p.venue, "N/A"),
     "**Citations**: " + IntToString(p.citationCount),
     "",
     "## Abstract",
     OrText(p.abstractText, "No abstract available."),
     ""]
  }

  /** The `papers/{paper_id}` resource text for a fetched paper. */
  function PaperMarkdown(p: Paper): string {
    Join(PaperHead(p) + (if NonEmpty(p.url) then ["**URL**: " + p.url.value] else []), "\n")
  }

  /** The URL line is the one optional part: a paper with a non-empty URL
      renders as the same paper without one, followed by the URL line. */
  lemma PaperMarkdownUrl(p: Paper)
    ensures PaperMarkdown(p) ==
      PaperMarkdown(p.(url := None)) + (if NonEmpty(p.url) then "\n**URL**: " + p.url.value else "")
  {
    if NonEmpty(p.url) {
      JoinSnoc(PaperHead(p), "**URL**: " + p.url.value, "\n");
    } else {
      assert PaperHead(p) + [] == PaperHead(p);
    }
    assert PaperHead(p.(url := None)) + [] == PaperHead(p);
  }

  /** A missing venue or abstract renders as an empty one does. */
  lemma PaperMarkdownFallbacks(p: Paper)
    ensures PaperMarkdown(p.(venue := None)) == PaperMarkdown(p.(venue := Some("")))
    ensures PaperMarkdown(p.(abstractText := None)) == PaperMarkdown(p.(abstractText := Some("")))
  {
  }

  /** `get_paper_resource(paper_id)`: the markdown, or an error line naming
      the id when there is no client or the fetch raises. */
  function PaperResource(paperId: string, clientReady: bool, call: Outcome<Paper>): (r: string)
    ensures clientReady && call.Returned? ==> r == PaperMarkdown(call.value)
    ensures !clientReady || call.Threw? ==> r == "Error: Could not retrieve paper " + paperId
  {
    if clientReady && call.Returned? then PaperMarkdown(call.value)
    else "Error: Could not retrieve paper " + paperId
  }

  /** The fixed lines of an author's markdown. */
  function AuthorHead(a: Author): (lines: seq<string>)
    ensures |lines| == 6
    ensures lines[2] == "**H-Index**: " + OrInt(a.hIndex, "N/A")
    ensures lines[3] == "**Citation Count**: " + OrInt(a.citationCount, "0")
    ensures lines[4] == "**Paper Count**: " + OrInt(a.paperCount, "0")
  {
    ["# " + a.name,
     "",
     "**H-Index**: " + OrInt(a.hIndex, "N/A"),
     "**Citation Count**: " + OrInt(a.citationCount, "0"),
     "**Paper Count**: " + OrInt(a.paperCount, "0"),
     ""]
  }

  /** The optional affiliations line. */
  function AffiliationsLine(a: Author): string {
    "**Affiliations**: " + Join(a.affiliations, ", ")
  }

  /** The optional homepage line. */
  function HomepageLine(a: Author): string {
    "**Homepage**: " + OrText(a.homepage, "")
  }

  /** The `authors/{author_id}` resource text for a fetched author. */
  function AuthorMarkdown(a: Author): string {
    Join(AuthorHead(a)
         + (if |a.affiliations| > 0 then [AffiliationsLine(a)] else [])
         + (if NonEmpty(a.homepage) then [HomepageLine(a)] else []),
         "\n")
  }

  /** The affiliations and homepage lines appear, in that order, exactly when
      the author has affiliations and a non-empty homepage. */
  lemma AuthorMarkdownOptionalLines(a: Author)
    ensures AuthorMarkdown(a) ==
      Join(AuthorHead(a), "\n")
      + (if |a.affiliations| > 0 then "\n" + AffiliationsLine(a) else "")
      + (if NonEmpty(a.homepage) then "\n" + HomepageLine(a) else "")
  {
    JoinOptional(AuthorHead(a), AffiliationsLine(a), |a.affiliations| > 0, HomepageLine(a), NonEmpty(a.homepage), "\n");
  }

  /** An h-index, citation count or paper count of 0 renders as a missing
      one does. */
  lemma AuthorMarkdownZeroes(a: Author)
    ensures AuthorMarkdown(a.(hIndex := Some(0))) == AuthorMarkdown(a.(hIndex := None))
    ensures AuthorMarkdown(a.(citationCount := Some(0))) == AuthorMarkdown(a.(citationCount := None))
    ensures AuthorMarkdown(a.(paperCount := Some(0))) == AuthorMarkdown(a.(paperCount := None))
  {
  }

  /** `get_author_resource(author_id)`. */
  function AuthorResource(authorId: string, clientReady: bool, call: Outcome<Author>): (r: string)
    ensures clientReady && call.Returned? ==> r == AuthorMarkdown(call.value)
    ensures !clientReady || call.Threw? ==> r == "Error: Could not retrieve author " + authorId
  {
    if clientReady && call.Returned? then AuthorMarkdown(call.value)
    else "Error: Could not retrieve author " + authorId
  }

  // ---------------------------------------------------------------------------
  // Prompts
  // ---------------------------------------------------------------------------

  /** The literature-review prompt up to the topic. */
  const ReviewIntro: string :=
    "Please help me create a comprehensive literature review on the topic: \""

  /** From the topic to the point where the year filter goes. */
  const ReviewSearchStep: string :=
    "\"\n"
    + "\n"
    + "Instructions:\n"
    + "1. Search for the most relevant and highly-cited papers on this topic"

  /** From the year filter to the paper count. */
  const ReviewRetrieveStep: string :=
    "\n"
    + "2. Retrieve up to "

  /** The rest of the literature-review prompt. */
  const ReviewTail: string :=
    " papers\n"
    + "3. For each paper, analyze:\n"
    + "   - Main contributions and findings\n"
    + "   - Methodology used\n"
    + "   - Limitations and future work\n"
    + "4. Identify common themes and research gaps\n"
    + "5. Organize the review by subtopics or chronologically\n"
    + "6. Include proper citations for all papers\n"
    + "\n"
    + "Please structure the review with:\n"
    + "- Introduction to the topic\n"
    + "- Methodology (how papers were selected)\n"
    + "- Main body organized by themes\n"
    + "- Summary of findings\n"
    + "- Research gaps and future directions\n"
    + "- References list"

  /** The paper-summary prompt up to the paper id. */
  const SummaryIntro: string :=
    "Please provide a comprehensive summary of paper ID: "

  /** The first three steps of the paper-summary prompt. */
  const SummarySteps: string :=
    "\n"
    + "\n"
    + "Instructions:\n"
    + "1. Retrieve the paper details and analyze:\n"
    + "   - Title, authors, and publication venue\n"
    + "   - Abstract and key contributions\n"
    + "   - Methodology and approach\n"
    + "   - Main findings and results\n"
    + "   - Limitations and future work\n"
    + "\n"
    + "2. Provide technical context:\n"
    + "   - Background and motivation\n"
    + "   - Related work and positioning\n"
    + "   - Technical novelty and significance\n"
    + "   - Experimental setup and validation\n"
    + "\n"
    + "3. Assess impact and relevance:\n"
    + "   - Citation count and influence\n"
    + "   - Practical applications\n"
    + "   - Theoretical contributions\n"
    + "   - Reproducibility considerations\n"
    + "\n"

  /** The requested structure of the summary. */
  const SummaryTail: string :=
    "Please structure the summary as:\n"
    + "- Executive Summary (2-3 sentences)\n"
    + "- Technical Overview\n"
    + "- Key Contributions\n"
    + "- Methodology\n"
    + "- Results and Findings\n"
    + "- Impact and Significance\n"
    + "- Limitations and Future Work\n"
    + "- Recommended Follow-up Papers"

  /** The optional fourth step: how the paper is cited. */
  const CitationContextStep: string :=
    "4. Analyze how this paper is cited by others:\n"
    + "   - Key citing papers and their contexts\n"
    + "   - How the work has been built upon\n"
    + "   - Common criticisms or limitations noted\n"
    + "   - Impact on subsequent research\n"
    + "\n"


  /** The year clause of the search step: present only for a truthy start
      year. */
  function YearFilter(startYear: Option<int>): (r: string)
    ensures r == "" <==> !YearGiven(startYear)
  {
    if YearGiven(startYear) then " published after " + IntToString(startYear.value) else ""
  }

  /** `literature_review(topic, max_papers, start_year)`. */
  function LiteratureReview(topic: string, maxPapers: int, startYear: Option<int>): string {
    ReviewIntro + topic + ReviewSearchStep + YearFilter(startYear) + ReviewRetrieveStep + IntToString(maxPapers) + ReviewTail
  }

  /** A truthy start year inserts " published after <year>" right after the
      search step, and nothing else changes; a missing or zero start year
      inserts nothing. */
  lemma LiteratureReviewYearFilter(topic: string, maxPapers: int, startYear: Option<int>)
    ensures var plain := LiteratureReview(topic, maxPapers, None);
      var k := |ReviewIntro| + |topic| + |ReviewSearchStep|;
      && k <= |plain|
      && LiteratureReview(topic, maxPapers, startYear) ==
           plain[..k]
           + YearFilter(startYear)
           + plain[k..]
  {
    InsertBetween(ReviewIntro, topic, ReviewSearchStep, YearFilter(startYear), ReviewRetrieveStep, IntToString(maxPapers), ReviewTail);
  }

  /** Inserting a part after the first three of seven parts is cutting the
      concatenation without it at the length of those three. */
  lemma InsertBetween(s1: string, s2: string, s3: string, m: string, s5: string, s6: string, s7: string)
    ensures var plain := s1 + s2 + s3 + "" + s5 + s6 + s7;
      var k := |s1| + |s2| + |s3|;
      && k <= |plain|
      && s1 + s2 + s3 + m + s5 + s6 + s7 == plain[..k] + m + plain[k..]
  {
    var a := s1 + s2 + s3;
    var b := s5 + s6 + s7;
    assert s1 + s2 + s3 + m + s5 + s6 + s7 == a + m + b;
    assert s1 + s2 + s3 + "" + s5 + s6 + s7 == a + b;
    assert (a + b)[..|a|] == a;
    assert (a + b)[|a|..] == b;
  }

  /** Inserting a part after the first three of four parts is cutting the
      concatenation without it at the length of those three. */
  lemma InsertBeforeLast(s1: string, s2: string, s3: string, m: string, s5: string)
    ensures var plain := s1 + s2 + s3 + "" + s5;
      var k := |s1| + |s2| + |s3|;
      && k <= |plain|
      && s1 + s2 + s3 + m + s5 == plain[..k] + m + plain[k..]
  {
    var a := s1 + s2 + s3;
    assert s1 + s2 + s3 + "" + s5 == a + s5;
    assert (a + s5)[..|a|] == a;
    assert (a + s5)[|a|..] == s5;
  }

  /** `paper_summary(paper_id, include_context)`. */
  function PaperSummary(paperId: string, includeContext: bool): string {
    var contextInstruction := if includeContext then CitationContextStep else "";
    SummaryIntro + paperId + SummarySteps + contextInstruction + SummaryTail
  }

  /** Asking for citation context inserts the fourth step between the third
      step and the requested structure, and nothing else changes. */
  lemma PaperSummaryContext(paperId: string)
    ensures var plain := PaperSummary(paperId, false);
      var k := |SummaryIntro| + |paperId| + |SummarySteps|;
      && k <= |plain|
      && PaperSummary(paperId, true) == plain[..k] + CitationContextStep + plain[k..]
  {
    InsertBeforeLast(SummaryIntro, paperId, SummarySteps, CitationContextStep, SummaryTail);
  }
}

=== FILE: text.dfy ===
/** Python string primitives the core relies on: `str.isspace`, `str.strip()`,
    `sep.join(parts)` and `str(int)`. */
module Text {

  /** Python's `str.isspace` on one character: the characters `str.strip()`
      removes when called without arguments. */
  predicate IsSpace(c: char) {
    var n := c as int;
    || (0x09 <= n <= 0x0D)
    || (0x1C <= n <= 0x20)
    || n == 0x85 || n == 0xA0 || n == 0x1680
    || (0x2000 <= n <= 0x200A)
    || n == 0x2028 || n == 0x2029 || n == 0x202F || n == 0x205F || n == 0x3000
  }

  /** Every character of `s` is whitespace (vacuously so for ""). */
  predicate AllSpace(s: string) {
    forall i :: 0 <= i < |s| ==> IsSpace(s[i])
  }

  /** Neither end of `s` is whitespace: the shape of any `strip()` result. */
  predicate Trimmed(s: string) {
    s == [] || (!IsSpace(s[0]) && !IsSpace(s[|s| - 1]))
  }

  /** `s.lstrip()`: the suffix left after dropping leading whitespace. */
  function StripStart(s: string): (r: string)
    ensures |r| <= |s| && r == s[|s| - |r|..]
    ensures AllSpace(s[..|s| - |r|])
    ensures r == [] || !IsSpace(r[0])
  {
    if |s| > 0 && IsSpace(s[0]) then
      var r := StripStart(s[1..]);
      assert s[1..][..|s| - 1 - |r|] == s[1..|s| - |r|];
      assert forall i :: 1 <= i < |s| - |r| ==> s[i] == s[1..][..|s| - 1 - |r|][i - 1];
      r
    else
      s
  }

  /** `s.rstrip()`: the prefix left after dropping trailing whitespace. */
  function StripEnd(s: string): (r: string)
    ensures |r| <= |s| && r == s[..|r|]
    ensures AllSpace(s[|r|..])
    ensures r == [] || !IsSpace(r[|r| - 1])
  {
    if |s| > 0 && IsSpace(s[|s| - 1]) then
      var r := StripEnd(s[..|s| - 1]);
      assert s[..|s| - 1][|r|..] == s[|r|..|s| - 1];
      assert forall i :: |r| <= i < |s| - 1 ==> s[i] == s[..|s| - 1][|r|..][i - |r|];
      r
    else
      s
  }

  /** `s.strip()`: `s` without its leading and trailing whitespace runs. */
  function Strip(s: string): (r: string)
    ensures Trimmed(r)
    ensures |r| <= |s|
    ensures r == [] <==> AllSpace(s)
  {
    var m := StripStart(s);
    var r := StripEnd(m);
    var a := |s| - |m|;
    assert r != [] ==> r[0] == m[0];
    assert r == [] ==> AllSpace(s) by {
      if r == [] {
        assert m[|r|..] == m;
        assert m == [];
        assert s[..a] == s;
      }
    }
    assert r != [] ==> !IsSpace(s[a]);
    r
  }

  /** What `strip()` returns is the middle of its argument: only whitespace
      was removed, and only from the two ends. The leading run ends at `a`
      and the trailing run starts at `b`. */
  lemma StripIsMiddle(s: string) returns (a: nat, b: nat)
    ensures a <= b <= |s|
    ensures Strip(s) == s[a..b]
    ensures AllSpace(s[..a]) && AllSpace(s[b..])
  {
    var m := StripStart(s);
    var r := StripEnd(m);
    a := |s| - |m|;
    b := a + |r|;
    assert r == Strip(s);
    assert m == s[a..] && AllSpace(s[..a]);
    SuffixSlices(s, a, |r|);
    assert s[a..b] == m[..|r|] == r;
    assert s[b..] == m[|r|..];
  }

  /** Slicing a suffix of `s` is slicing `s` further along. */
  lemma SuffixSlices(s: string, a: nat, n: nat)
    requires a + n <= |s|
    ensures s[a..][..n] == s[a..a + n]
    ensures s[a..][n..] == s[a + n..]
  {
  }

  /** Removing whitespace from the front of `p + m` yields `m` when `p` is all
      whitespace and `m` does not start with it. */
  lemma {:induction false} StripStartOfPadded(p: string, m: string)
    requires AllSpace(p)
    requires m == [] || !IsSpace(m[0])
    ensures StripStart(p + m) == m
    decreases |p|
  {
    if |p| == 0 {
      assert p + m == m;
    } else {
      assert (p + m)[1..] == p[1..] + m;
      StripStartOfPadded(p[1..], m);
    }
  }

  /** Removing whitespace from the end of `m + q` yields `m` when `q` is all
      whitespace and `m` does not end with it. */
  lemma {:induction false} StripEndOfPadded(m: string, q: string)
    requires AllSpace(q)
    requires m == [] || !IsSpace(m[|m| - 1])
    ensures StripEnd(m + q) == m
    decreases |q|
  {
    if |q| == 0 {
      assert m + q == m;
    } else {
      assert (m + q)[..|m + q| - 1] == m + q[..|q| - 1];
      StripEndOfPadded(m, q[..|q| - 1]);
    }
  }

  /** `strip()` is determined by its shape: whatever whitespace surrounds a
      trimmed middle, stripping gives back exactly that middle. */
  lemma StripOfPadded(p: string, m: string, q: string)
    requires AllSpace(p) && AllSpace(q) && Trimmed(m)
    ensures Strip(p + m + q) == m
  {
    if m == [] {
      assert p + m + q == (p + q) + m;
      assert AllSpace(p + q);
      StripStartOfPadded(p + q, m);
      assert StripEnd([]) == [];
    } else {
      assert p + m + q == p + (m + q);
      StripStartOfPadded(p, m + q);
      StripEndOfPadded(m, q);
    }
  }

  /** Stripping twice is stripping once. */
  lemma StripIdempotent(s: string)
    ensures Strip(Strip(s)) == Strip(s)
  {
    var m := Strip(s);
    assert StripStart(m) == m;
    assert StripEnd(m) == m;
  }

  /** `sep.join(parts)`. */
  function Join(parts: seq<string>, sep: string): (r: string)
    ensures |parts| == 1 ==> r == parts[0]
    ensures |parts| == 0 ==> r == ""
  {
    if |parts| == 0 then ""
    else if |parts| == 1 then parts[0]
    else parts[0] + sep + Join(parts[1..], sep)
  }

  /** Joining one more part appends the separator and that part. */
  lemma {:induction false} JoinSnoc(parts: seq<string>, x: string, sep: string)
    requires |parts| > 0
    ensures Join(parts + [x], sep) == Join(parts, sep) + sep + x
    decreases |parts|
  {
    if |parts| > 1 {
      assert (parts + [x])[1..] == parts[1..] + [x];
      JoinSnoc(parts[1..], x, sep);
    }
  }

  /** Joining with one optional further part. */
  lemma JoinMaybe(parts: seq<string>, x: string, hasX: bool, sep: string)
    requires |parts| > 0
    ensures Join(parts + (if hasX then [x] else []), sep) == Join(parts, sep) + (if hasX then sep + x else "")
  {
    if hasX {
      JoinSnoc(parts, x, sep);
    } else {
      assert parts + [] == parts;
    }
  }

  /** Joining a non-empty list of parts with up to two optional further
      parts. */
  lemma JoinOptional(h: seq<string>, x: string, hasX: bool, y: string, hasY: bool, sep: string)
    requires |h| > 0
    ensures Join(h + (if hasX then [x] else []) + (if hasY then [y] else []), sep)
      == Join(h, sep) + (if hasX then sep + x else "") + (if hasY then sep + y else "")
  {
    var p2 := h + (if hasX then [x] else []);
    JoinMaybe(h, x, hasX, sep);
    JoinMaybe(p2, y, hasY, sep);
  }

  function DigitChar(d: nat): char
    requires d < 10
  {
    "0123456789"[d]
  }

  /** `str(n)` for a non-negative integer: its decimal digits. */
  function NatToString(n: nat): (r: string)
    ensures |r| > 0
    decreases n
  {
    if n < 10 then [DigitChar(n)] else NatToString(n / 10) + [DigitChar(n % 10)]
  }

  /** `str(i)` for any integer. */
  function IntToString(i: int): (r: string)
    ensures |r| > 0
  {
    if i < 0 then "-" + NatToString(-i) else NatToString(i)
  }
}

=== FILE: values.dfy ===
/** The Python values that travel through error details, logging context and
    response envelopes, with Python's truthiness rule. */
module Values {
  import opened Dicts

  /** A Python value: `None`, a scalar, a list, a dict with string keys, or an
      exception object (kept as its class name and `str()` text). */
  datatype Value =
    | Null
    | Bool(b: bool)
    | Int(i: int)
    | Float(f: real)
    | Str(s: string)
    | List(items: seq<Value>)
    | Obj(entries: Dict<Value>)
    | Exc(typeName: string, text: string)

  /** `bool(v)`: `None`, `False`, zero and empty containers are false;
      exception objects are true. */
  predicate Truthy(v: Value) {
    match v
    case Null => false
    case Bool(b) => b
    case Int(i) => i != 0
    case Float(f) => f != 0.0
    case Str(s) => |s| > 0
    case List(items) => |items| > 0
    case Obj(entries) => |entries| > 0
    case Exc(_, _) => true
  }
}
